=== FILE: README.md ===
# Digital Creator Pro OS — a Dafny model of its core

Digital Creator Pro OS is a dashboard for content creators. This project models the logic in its three layers.

- **The Express/Prisma backend.**
  - Session tokens: issued at login, checked on every protected request, revoked at logout.
  - The gate that admits only users with an active subscription.
  - Stripe subscriptions: creating and canceling them, and the webhook that reconciles local rows with Stripe's events (subscriptions, invoices and their items, and the event log).
  - The versioned template store: create, list, read, update with a new version, cascading delete, and the AI-generation route.
- **The React sections.** Each keeps a list in component state and changes it with handlers:
  - scheduling, with its calendar grid;
  - ad campaigns, projects, the customer CRM and the finance tracker;
  - email marketing;
  - the Notion template library and the Notion template generator, which serialises a template to a Markdown document;
  - the social-media post generator.
- **The Supabase edge functions.** Each answers one request:
  - `generate-email`, `generate-ideas` and `generate-template` fill fixed texts;
  - `send-email` validates recipients and then either schedules the email or sends it.

The model has the same shape as the code.

- **The database.** `Store.Db` is a class with one sequence field per table. Controllers, services and the webhook are methods that change exactly the fields they name. JWT signing and checking, bcrypt, Stripe, OpenAI, the mail service and the clock are parameters.
- **The sections.** Each section is a class whose fields are its state. Each handler is a method whose contract gives the new state as a function of the old one. The list helpers in `Lists` carry the proved facts: which element changed, that nothing else did, involutions and idempotence.
- **The edge functions.** These are total functions from a request record to a response.
- **Shared helpers.** JavaScript's string operations (`trim`, `split`, `join`, `toLowerCase`, `includes`, `parseInt`) are written out in `Text`. Gregorian calendar arithmetic (`new Date(y, m, d)`, `getDay`) is written out in `Dates`.

One place where the intended protocol and the code differ: the `Authorization` header is meant to carry "Bearer <token>", as in section 2.1 of RFC 6750. The code takes the second space-separated word and never looks at the first. The model follows the code, and `Auth.SchemeNotChecked` states the difference.

Behaviours of the code that the model makes explicit (each is proved as stated):

- **Backend**
  - A login token is refused with 403 "Invalid token" from the second its signed expiry is reached. That expiry never falls after the stored record's 24 hours, so the stored expiry never ends a session by itself (`Auth.IssueThenAuthenticate`, `Auth.JwtExpiresFirst`).
  - `createUserSubscription` stores the row before it looks for a client secret. A Stripe answer without a payment intent gives 500 after the row is stored (`SubscriptionController.CreateUserSubscription`).
  - `invoice.payment_succeeded` is not de-duplicated: every delivery appends another invoice (`Webhook.RecordInvoice`).
- **Sections**
  - The social-media section never sends the voice it shows, so its ideas are always the professional ones (`SocialMedia.SectionIdeasAreProfessional`).
  - `handleAddDatabase` drops the properties collected in the draft (`NotionGenerator.NotionTemplateGenerator.AddDatabase`).
  - A deleted built-in Notion template comes back after a reload, since only the saved list is persisted (`NotionTemplates.DeleteAcrossReload`).
  - The CRM tag box keeps empty pieces, while the invite box drops them (`Crm.TagBoxKeepsEmpty`).
- **Email sending**
  - The email-marketing section splits recipients without dropping empty pieces, so a trailing comma is refused by `send-email` (`EmailMarketing.TrailingCommaRefused`).
  - A story email whose core and lesson both come from the prompt need not name the topic (`GenerateEmail.ContentNamesTopic`).

## Model

| member | source | states |
|---|---|---|
| Auth.ExtractToken | src/middleware/auth.cjs:7-8 | a token, when found, is a non-empty word with no space in it |
| Auth.SchemeNotChecked | src/middleware/auth.cjs:7-8 | "<scheme> <token>" yields the token whatever the first word is: "Bearer" is never checked |
| Auth.NoSecondWord | src/middleware/auth.cjs:7-12 | a header without a space, or with nothing after it, carries no token (the 401 path) |
| Auth.FindLive | src/middleware/auth.cjs:17-27 | the first record holding exactly this token whose expiry is strictly after now; none exactly when no record is live |
| Auth.Authenticate | src/middleware/auth.cjs:5-38 | 401 without a token, 403 "Invalid token" when the signature or the signed expiry fails at now, 403 "Invalid or expired token" without a live record, otherwise the record owner becomes `req.user` |
| Auth.Issue | src/controllers/authController.cjs:104-113 | login appends exactly one record for the token, expiring 24 hours after now, keeping the rest |
| Auth.Revoke | src/controllers/authController.cjs:138-143 | every record of the token goes and every record of another token stays |
| Auth.FindLiveIgnoresOthers | src/middleware/auth.cjs:17-27 | removing another token's records never changes the lookup of this one |
| Auth.JwtExpiresFirst | src/controllers/authController.cjs:101-110 | while the signed expiry (signing second plus 86400 seconds) has not passed, the stored 24-hour expiry has not either |
| Auth.IssueThenAuthenticate | src/controllers/authController.cjs:101-113 | a freshly signed and issued token is accepted for its owner exactly until its signed expiry second, and refused with 403 "Invalid token" from then on |
| Auth.IssueThenAuthenticateStored | src/controllers/authController.cjs:108-113 | while the signature verifies, the stored record accepts the token before 24 hours have passed and refuses it with "Invalid or expired token" from then on |
| Auth.RevokeThenAuthenticate | src/controllers/authController.cjs:135-143 | after logout the presented token is never accepted again |
| Auth.RevokeLeavesOtherSessions | src/controllers/authController.cjs:138-143 | logout of one token leaves the answer for every other header unchanged |
| Auth.RevokeIdempotent | src/controllers/authController.cjs:140-142 | logging out twice is logging out once |
| Store.Public | src/controllers/authController.cjs:59-65 | the returned user carries id, uuid, username, email and full name of the row, and no password hash |
| SubscriptionGate.FindActive | src/middleware/subscription.cjs:8-16 | a row of this user with status 'active' and period end strictly after now, none exactly when there is no such row |
| SubscriptionGate.CheckActiveSubscription | src/middleware/subscription.cjs:4-31 | passes exactly when the user has an active, unexpired subscription; 403 otherwise; 500 when the lookup fails |
| SubscriptionGate.EndedOrCanceledDenied | src/middleware/subscription.cjs:8-23 | for any table, a user whose every row is canceled or has reached its period end (the end instant included) gets 403 |
| SubscriptionGate.OnlyOwnRowsMatter | src/middleware/subscription.cjs:8-16 | other users' rows, before or after, never change the gate's answer |
| AuthController.RegisterKeepsAccountsUnique | src/controllers/authController.cjs:14-41 | adding a user whose email and username nobody holds keeps emails and usernames unique |
| AuthController.FindRole | src/controllers/authController.cjs:44-46 | the role named 'user', or none exactly when no role has that name |
| AuthController.FindUserByEmail | src/controllers/authController.cjs:79-81 | a user with this email, or none exactly when no row has it |
| AuthController.FindUserById | src/controllers/authController.cjs:157-158 | a user with this id, or none exactly when no row has it |
| AuthController.Register | src/controllers/authController.cjs:9-71 | 400 and no change when email or username is taken; otherwise one new user with the hashed password, no bio and both dates at now, a role link when the 'user' role exists, 201 with the public fields; accounts stay unique |
| AuthController.Login | src/controllers/authController.cjs:74-130 | the same 401 for an unknown email and a wrong password with no token stored; otherwise one token record living 24 hours and the token returned |
| AuthController.Logout | src/controllers/authController.cjs:133-150 | always 200; the presented token's records are revoked, nothing changes without a token |
| AuthController.GetProfile | src/controllers/authController.cjs:153-188 | 404 exactly for an unknown id; otherwise the user's id, uuid, username, email, full name, bio and both dates, never the hash, with exactly their 'active' subscriptions |
| SubscriptionController.GetSubscriptionPlans | src/controllers/subscriptionController.cjs:6-14 | every plan with 200, or 500 exactly when the query fails |
| SubscriptionController.GetUserSubscriptions | src/controllers/subscriptionController.cjs:17-33 | exactly the caller's subscriptions whatever their status, or 500 when the query fails |
| SubscriptionController.CreateUserSubscription | src/controllers/subscriptionController.cjs:36-59 | 400 and no call when either id is missing or empty; 500 on any service error; otherwise one new row and 201 with the client secret; an answer without a payment intent is 500 after the row is stored |
| SubscriptionController.CancelUserSubscription | src/controllers/subscriptionController.cjs:62-77 | only a row the caller owns is canceled, in place; any failure is 500 and changes nothing |
| SubscriptionController.CancelKeepsOtherUsersRows | src/controllers/subscriptionController.cjs:64-67 | a cancel request never changes another user's row |
| StripeService.CheckCreate | src/services/stripeService.cjs:30-41 | succeeds exactly when the user exists, owns the payment method and some plan is named after the price id, and yields that plan |
| StripeService.NewRow | src/services/stripeService.cjs:53-62 | the stored row belongs to the user and plan, copies Stripe's id and status, and its period bounds are exactly Stripe's seconds times 1000; the row's id and update time are the given ones |
| StripeService.CreateSubscription | src/services/stripeService.cjs:28-72 | any failed check or refused Stripe call fails with the one fixed message and stores nothing; otherwise exactly one row is appended |
| StripeService.FindOwned | src/services/stripeService.cjs:79-82 | the row whose id is the parsed parameter and whose owner is the caller; none when the id does not parse or no such row exists |
| StripeService.Canceled | src/services/stripeService.cjs:86-92 | the row becomes 'canceled' with a new update time and nothing else changes |
| StripeService.CancelSubscription | src/services/stripeService.cjs:77-99 | not found or refused by Stripe fails and changes nothing; otherwise only that row is canceled and returned |
| StripeService.CancelIsOwnerScoped | src/services/stripeService.cjs:79-82 | a user owning no row can cancel nothing |
| StripeService.CreatedThenGate | src/middleware/subscription.cjs:8-16 | a new row opens the gate exactly when access already existed or Stripe reported it active with a later period end |
| StripeService.CanceledThenGate | src/services/stripeService.cjs:86-92 | after a cancel the owner passes the gate only through another subscription |
| Webhook.Millis | src/routes/webhook.cjs:38-39 | Stripe seconds become whole milliseconds that divide back to the same seconds |
| Webhook.MajorUnits | src/routes/webhook.cjs:74 | the stored amount times 100 is Stripe's minor-unit amount |
| Webhook.SyncSubscription | src/routes/webhook.cjs:26-45 | the first row with the Stripe id takes Stripe's status and period and a new update time, its id, owner and plan kept; every other row unchanged; no match, no change |
| Webhook.CancelSubscriptionRow | src/routes/webhook.cjs:46-62 | the first row with the Stripe id becomes 'canceled' with a new update time and its period kept; nothing else changes |
| Webhook.SyncIdempotent | src/routes/webhook.cjs:26-45 | delivering the same created/updated event twice equals delivering it once (up to the update time) |
| Webhook.FirstIndexSameKeys | src/routes/webhook.cjs:30-32 | rewriting rows without touching their Stripe ids does not move the first match |
| Webhook.DeletedEventClosesGate | src/routes/webhook.cjs:46-62 | once the only subscription giving a user access is deleted at Stripe, the subscription gate refuses that user |
| Webhook.Items | src/routes/webhook.cjs:79-88 | one stored item per invoice line, in order, each tied to the invoice with its amount in major units |
| Webhook.ItemsSnoc | src/routes/webhook.cjs:79-88 | the items of one more line are the earlier items followed by that line's item |
| Webhook.RecordInvoice | src/routes/webhook.cjs:70-88 | exactly one invoice appended with the next id and the converted amount and date, then its items |
| Webhook.RecordItems | src/routes/webhook.cjs:79-88 | the item table grows by exactly the items of the lines, in order (loop invariant) |
| Webhook.UnmatchedEventChangesNothing | src/routes/webhook.cjs:33-60 | an event for a Stripe subscription with no local row leaves the subscription table as it was |
| Webhook.EventsKeepStripeIdsUnique | src/routes/webhook.cjs:26-62 | subscription events never rewrite a Stripe id, so Stripe ids stay unique |
| Webhook.HandleStripe | src/routes/webhook.cjs:8-110 | 400 with the verifier's reason and no change on a bad signature; otherwise the event's change (a matched payment appends one invoice, its items and advances the invoice counter by one), one log entry with endpoint 1 and `received: true`; a failed log write is 500 with the earlier writes kept |
| TemplateController.Latest | src/controllers/templateController.js:49-54 | the highest-numbered version of the template, none exactly when it has no version |
| TemplateController.NextVersion | src/controllers/templateController.js:138-139 | a number above every existing version of the template, and 1 when it has none |
| TemplateController.AppendNextVersion | src/controllers/templateController.js:137-147 | a version numbered by NextVersion keeps the versions of each template increasing |
| TemplateController.Insert | src/controllers/templateController.js:11-27 | one definition under the next id and exactly one version, numbered 1, holding the content |
| TemplateController.CreateKeepsValid | src/controllers/templateController.js:11-27 | creation keeps ids unique and below the counter, every version and tag attached to a definition, and version numbers increasing |
| TemplateController.CreateTemplate | src/controllers/templateController.js:6-37 | 201 with a definition owned by the caller, `isPublic` false unless given, and one version numbered 1 |
| TemplateController.ListingIsOwnedAndLatest | src/controllers/templateController.js:44-57 | the listing holds exactly the caller's templates, each with at most one version, its highest-numbered one |
| TemplateController.GetTemplates | src/controllers/templateController.js:40-64 | always 200, and every listed template belongs to the caller |
| TemplateController.InsertDescendingSorted | src/controllers/templateController.js:78-82 | inserting a version into a descending list keeps it descending and adds exactly that version |
| TemplateController.SortDescendingSorted | src/controllers/templateController.js:78-82 | the version ordering is descending by number and a permutation of its input |
| TemplateController.GetTemplateById | src/controllers/templateController.js:67-96 | 404 exactly when the caller owns no template with the id; otherwise all its versions, highest first, and its tags; an unparsable id is 500 |
| TemplateController.Updated | src/controllers/templateController.js:126-134 | a title, description or isPublic present in the body is written; a missing one keeps its value; the update time is now; id and owner are kept |
| TemplateController.UpdateTemplate | src/controllers/templateController.js:99-158 | 404 and no change unless the caller owns the template; otherwise only that row is updated and, for truthy content, one version numbered above the latest is appended |
| TemplateController.UpdateKeepsValid | src/controllers/templateController.js:126-147 | an update keeps the store valid, in particular version numbers increasing |
| TemplateController.DeleteTemplate | src/controllers/templateController.js:161-197 | 404 and no change unless the caller owns the template; otherwise its versions, tags and definition are all removed |
| TemplateController.DeleteKeepsValid | src/controllers/templateController.js:178-190 | the cascade leaves no version or tag without its definition and keeps the store valid |
| TemplateController.GeneratedTitle | src/controllers/templateController.js:212 | a truthy title is kept as given |
| TemplateController.DefaultTitleIsDate | src/controllers/templateController.js:212 | without a title, the name is "Generated Template - " and the date part of the ISO timestamp |
| TemplateController.GenerateTemplate | src/controllers/templateController.js:200-258 | 500 and no change when generation fails; otherwise a private template whose version 1 is the generated text, and request and response logs (status 200) only when the caller has an API key |
| TemplateController.Admit | src/routes/template.js:15-25 | every route needs an authenticated token, and the middleware's refusal is the answer; generation is admitted exactly when the token's owner also passes the subscription gate (an active, unexpired row and no failed lookup), and a gate denial answers with the gate's own status and message |
| TemplateController.GenerateNeedsTokenAndSubscription | src/routes/template.js:25 | generation is reached only with a verified live token and an active, unexpired subscription of its owner |
| Dates.DaysInMonth | src/sections/SchedulingSection.tsx:96-100 | every month has 28 to 31 days, and February has 29 exactly in Gregorian leap years |
| Dates.MonthStart | src/sections/SchedulingSection.tsx:102-106 | the first of the month, valid, with an out-of-range month carried into the year |
| Dates.MakeDate | src/sections/SchedulingSection.tsx:114-118 | a valid date for any month and any day, the excess carried into neighbouring months |
| Dates.MonthStartOfValid | src/sections/SchedulingSection.tsx:126-131 | a date already in range is left alone |
| Dates.DayZeroIsLastDay | src/sections/SchedulingSection.tsx:96-100 | day 0 of the next month is the last day of this month |
| Dates.ChangeMonth | src/sections/SchedulingSection.tsx:168-174 | the first of the month exactly k months away |
| Dates.ChangeMonthInverse | src/sections/SchedulingSection.tsx:168-174 | k months forward then k back returns to the first of the starting month |
| Dates.ChangeMonthCompose | src/sections/SchedulingSection.tsx:168-174 | k months then j months is k + j months |
| Dates.DaysBeforeNextMonth | src/sections/SchedulingSection.tsx:96-100 | the cumulative month table agrees with the month lengths |
| Dates.Weekday | src/sections/SchedulingSection.tsx:102-106 | a weekday number from 0 (Sunday) to 6 |
| Dates.NextMonthStart | src/sections/SchedulingSection.tsx:147-152 | the first of the next month comes one month-length after the first of this month |
| Dates.MakeDateBackward | src/sections/SchedulingSection.tsx:113-118 | a day before the first counts from the month before, one month-length earlier |
| Dates.MakeDateForward | src/sections/SchedulingSection.tsx:147-152 | a day past the last counts from the month after |
| Dates.MakeDateDayNumber | src/sections/SchedulingSection.tsx:113-157 | `new Date(y, m, d)` is d - 1 days after the first of the month, for any d |
| Dates.MakeDateWeekday | src/sections/SchedulingSection.tsx:102-157 | day d of the month falls d - 1 weekdays after the first |
| Scheduling.SchedulingSection.AddTask | src/sections/SchedulingSection.tsx:45-63 | exactly one task appended, from the form, not completed, and the form reset to today, 09:00, 'work' |
| Scheduling.SchedulingSection.DateClick | src/sections/SchedulingSection.tsx:79-89 | the form is reset and dated on the clicked day |
| Scheduling.SchedulingSection.EditTask | src/sections/SchedulingSection.tsx:65-73 | nothing without a task being edited; otherwise that task replaces every task with its id and editing ends |
| Scheduling.SchedulingSection.DeleteTask | src/sections/SchedulingSection.tsx:75-77 | the tasks with that id go, the rest stay in order |
| Scheduling.SchedulingSection.ToggleTask | src/sections/SchedulingSection.tsx:496-499 | `completed` flips on the tasks with that id |
| Scheduling.SchedulingSection.TasksForDate | src/sections/SchedulingSection.tsx:91-94 | exactly the tasks whose date string is the day's, from the list |
| Scheduling.SchedulingSection.ChangeMonthBy | src/sections/SchedulingSection.tsx:168-174 | the selected date becomes the first of the month k months away |
| Scheduling.SchedulingSection.BuildGrid | src/sections/SchedulingSection.tsx:96-159 | 35 or 42 cells, whole weeks; cell i is day i - lead + 1 of the month and falls on weekday i % 7; current-month flag exactly on the month's days; today flagged only there |
| Scheduling.LastDayOfMonth | src/sections/SchedulingSection.tsx:96-100 | the number of days of the month |
| Scheduling.FirstWeekday | src/sections/SchedulingSection.tsx:102-106 | the weekday of the first of the month |
| Scheduling.FillGrid | src/sections/SchedulingSection.tsx:108-159 | the three runs and the padding count make the grid BuildGrid promises, every cell a valid date |
| Scheduling.PreviousMonthDays | src/sections/SchedulingSection.tsx:113-123 | exactly `lead` cells, the last days of the month before, in order, none current |
| Scheduling.CurrentMonthDays | src/sections/SchedulingSection.tsx:126-140 | one cell per day of the month, in order, current, today flagged by date |
| Scheduling.NextMonthDays | src/sections/SchedulingSection.tsx:147-157 | the first `count` days of the next month, in order, none current |
| Scheduling.GridOfMonth | src/sections/SchedulingSection.tsx:159 | the concatenated runs satisfy the grid contract |
| Scheduling.GridDates | src/sections/SchedulingSection.tsx:159 | the three runs are consecutive days counted from the first of the month |
| Scheduling.GridWeekdays | src/sections/SchedulingSection.tsx:166 | the cell under column i % 7 falls on that weekday |
| Scheduling.NextMonthDay | src/sections/SchedulingSection.tsx:147-152 | day j of the next month is day (length + j) of this month |
| Scheduling.ToggleTwice | src/sections/SchedulingSection.tsx:496-499 | checking a box twice restores the list |
| Scheduling.ToggleOnlyThatTask | src/sections/SchedulingSection.tsx:496-499 | with unique ids, a check changes only that task's `completed` |
| Scheduling.GridFits | src/sections/SchedulingSection.tsx:143-144 | the grid always holds the leading days and the whole month in whole weeks |
| Lists.Filter | src/sections/SchedulingSection.tsx:76 | a filter never grows the list |
| Lists.FilterMembers | src/sections/SchedulingSection.tsx:93 | the filter keeps exactly the elements that pass the test |
| Lists.FilterConcat | src/sections/AdCampaignsSection.tsx:96-102 | filtering works element by element over a concatenation |
| Lists.FilterKeepsOrder | src/sections/AdCampaignsSection.tsx:96-102 | a filter keeps any relation between earlier and later elements |
| Lists.FilterKeepsAll | src/sections/AdCampaignsSection.tsx:96-102 | a filter that rejects nothing is the identity |
| Lists.FirstIndex | src/middleware/auth.cjs:17-27 | the first position passing the test, none exactly when no element passes |
| Lists.Find | src/controllers/authController.cjs:79-81 | an element of the list passing the test, none exactly when no element passes |
| Lists.MapWhere | src/sections/SchedulingSection.tsx:496-499 | same length; elements with the key are rewritten, the others kept |
| Lists.MapWhereAbsent | src/sections/SchedulingSection.tsx:496-499 | rewriting an absent key changes nothing |
| Lists.MapWhereAt | src/sections/SchedulingSection.tsx:496-499 | with unique keys, only the element at that key's index changes |
| Lists.MapWhereInvolution | src/sections/SchedulingSection.tsx:496-499 | a key-preserving involution applied twice restores the list |
| Lists.MapWhereKeepsKeys | src/sections/SchedulingSection.tsx:496-499 | rewriting that keeps keys keeps them unique |
| Lists.ReplaceById | src/sections/AdCampaignsSection.tsx:477-479 | each element is the saved one when it has its key, and itself otherwise |
| Lists.ReplaceByIdAt | src/sections/AdCampaignsSection.tsx:477-479 | with unique keys, saving replaces exactly the element with that key, in place |
| Lists.ReplaceByIdAbsent | src/sections/AdCampaignsSection.tsx:477-479 | saving an element whose key is gone changes nothing |
| Lists.DeleteById | src/sections/AdCampaignsSection.tsx:159 | the key is gone, nothing new appears, every other element is kept |
| Lists.DeleteByIdAt | src/sections/AdCampaignsSection.tsx:159 | with unique keys, exactly the element at that index is removed and the order kept |
| Lists.DeleteByIdIdempotent | src/sections/AdCampaignsSection.tsx:159 | deleting an absent key changes nothing; deleting twice is deleting once |
| Lists.Sum | src/sections/AdCampaignsSection.tsx:104-105 | a sum of non-negative values is non-negative |
| Lists.SumConcat | src/sections/AdCampaignsSection.tsx:104-105 | the sum over two lists is the sum of their sums |
| Lists.Keys | src/sections/AdCampaignsSection.tsx:113 | the ids in list order |
| Lists.Max | src/sections/AdCampaignsSection.tsx:113 | a member of the list no smaller than any element |
| Lists.NextId | src/sections/AdCampaignsSection.tsx:113 | an id above every id in use, and 1 for an empty list |
| Lists.NextIdKeepsKeysUnique | src/sections/AdCampaignsSection.tsx:113-128 | an element added under NextId, at either end, keeps ids unique |
| Lists.MathMax | src/sections/ProjectsSection.tsx:123 | `Math.max` is finite exactly when some argument is finite (minus infinity for no arguments) |
| Lists.PlusOne | src/sections/ProjectsSection.tsx:123 | adding one keeps a number finite and minus infinity infinite |
| Lists.NextIdAsWritten | src/sections/ProjectsSection.tsx:123 | the unguarded id is finite exactly when some id is finite |
| Lists.AsNumbers | src/sections/ProjectsSection.tsx:123 | integer ids as JavaScript numbers, one for one |
| Lists.NextIdAsWrittenOnEmpty | src/sections/ProjectsSection.tsx:123 | on an empty list the unguarded id is minus infinity |
| Lists.NextIdAsWrittenAgrees | src/sections/ProjectsSection.tsx:123 | on a non-empty list the unguarded id equals NextId |
| Lists.MathMaxOfIntegers | src/sections/ProjectsSection.tsx:123 | on integers `Math.max` is Max |
| AdCampaigns.VisibleIsExactlyTheMatches | src/sections/AdCampaignsSection.tsx:96-102 | shown are exactly the campaigns of the tab's status whose title or description contains the query ignoring case |
| AdCampaigns.EverythingShownByDefault | src/sections/AdCampaignsSection.tsx:96-102 | the 'all' tab with an empty search shows every campaign |
| AdCampaigns.NewCampaign | src/sections/AdCampaignsSection.tsx:114-126 | the new campaign copies the form, is active, with nothing spent and no reach |
| AdCampaigns.CreateKeepsTotals | src/sections/AdCampaignsSection.tsx:104-128 | creating a campaign leaves the spend and reach totals unchanged |
| AdCampaigns.AdCampaignsSection.CreateCampaign | src/sections/AdCampaignsSection.tsx:110-140 | one campaign appended under an id above all in use (1 when empty), ids stay unique, form reset |
| AdCampaigns.AdCampaignsSection.ConfirmDelete | src/sections/AdCampaignsSection.tsx:157-163 | without a selection nothing; otherwise the selected id is removed and the selection cleared |
| AdCampaigns.AdCampaignsSection.SaveEdit | src/sections/AdCampaignsSection.tsx:476-482 | the saved campaign replaces the one with its id and the selection is cleared |
| Projects.VisibleIsExactlyTheMatches | src/sections/ProjectsSection.tsx:112-118 | shown are exactly the projects of the tab's status whose title or description contains the query ignoring case |
| Projects.NewProject | src/sections/ProjectsSection.tsx:124-135 | the new project copies the form with no progress, team, tasks, files or comments |
| Projects.NewIdAsWrittenFailsWhenEmpty | src/sections/ProjectsSection.tsx:123 | with no projects the id as written is minus infinity; otherwise it is the guarded next id |
| Projects.RemoveAt | src/sections/ProjectsSection.tsx:641 | exactly the entry at that position goes, the rest keep their order; an out-of-range position changes nothing |
| Projects.ProjectsSection.CreateProject | src/sections/ProjectsSection.tsx:120-147 | one project appended under an id above all in use (1 when empty, the corrected guard), ids stay unique, form reset |
| Projects.ProjectsSection.DeleteProject | src/sections/ProjectsSection.tsx:149-155 | without a selection nothing; otherwise the selected id is removed and the selection cleared |
| Projects.ProjectsSection.SaveEdit | src/sections/ProjectsSection.tsx:157-163 | without an edited project nothing; otherwise it replaces the one with its id and both selections clear |
| Projects.ProjectsSection.SendInvites | src/sections/ProjectsSection.tsx:165-200 | nothing without a selection or with a blank input; otherwise the trimmed non-empty addresses are sent, and on acceptance appended to the selected team with the input cleared; the project list is untouched |
| Projects.ProjectsSection.RemoveMember | src/sections/ProjectsSection.tsx:639-642 | the selected project's team loses exactly that entry |
| Projects.InvitesAreTheTypedEmails | src/sections/ProjectsSection.tsx:169 | addresses typed as a comma-separated list are exactly the addresses sent, in order |
| Crm.FoundByTag | src/sections/CustomerCRMSection.tsx:105-112 | a customer of the chosen status is shown when any one of its tags contains the query, ignoring case |
| Crm.ShownIsMatch | src/sections/CustomerCRMSection.tsx:105-112 | a customer is shown exactly when it has the chosen status and the query is empty or found in its name, email or a tag |
| Crm.VisibleIsExactlyTheMatches | src/sections/CustomerCRMSection.tsx:105-112 | everything shown is a customer of the chosen status matching the query, and every such customer is shown |
| Crm.TagBoxRoundTrip | src/sections/CustomerCRMSection.tsx:429-432 | typing back the shown `tags.join(', ')` text gives the same tags |
| Crm.TagBoxKeepsEmpty | src/sections/CustomerCRMSection.tsx:432 | the tag box keeps an empty piece between two tags, where the invite box drops it |
| Crm.CustomerSection.DeleteCustomer | src/sections/CustomerCRMSection.tsx:114-120 | without a selection nothing; otherwise the selected id is removed and the selection cleared |
| Crm.CustomerSection.EditCustomer | src/sections/CustomerCRMSection.tsx:122-130 | without an edited customer nothing; otherwise it replaces the one with its id |
| Crm.CustomerSection.ToggleFavorite | src/sections/CustomerCRMSection.tsx:132-138 | the star flips on the customers with that id |
| Crm.CustomerSection.EditTags | src/sections/CustomerCRMSection.tsx:430-433 | the edited customer's tags become the comma-split, trimmed pieces, empty ones included |
| Crm.CustomerSection.SendInvites | src/sections/CustomerCRMSection.tsx:140-175 | nothing without a selection or with a blank input; otherwise the trimmed non-empty addresses are sent and, on acceptance, appended to the selected customer's tags |
| Crm.ToggleFavoriteTwice | src/sections/CustomerCRMSection.tsx:132-138 | starring twice restores the list, and starring one customer changes no other |
| Finance.TotalIsConditionalSum | src/sections/FinancialTrackerSection.tsx:85-91 | filtering by kind then summing equals summing every amount of that kind and zero for the rest |
| Finance.AddMovesOneTotal | src/sections/FinancialTrackerSection.tsx:85-101 | a new income raises income and net by its amount and leaves expenses alone; a new expense raises expenses, lowers net and leaves income alone |
| Finance.FromForm | src/sections/FinancialTrackerSection.tsx:96-99 | the transaction carries the form's fields under the given id |
| Finance.NewIdAsWrittenFailsWhenEmpty | src/sections/FinancialTrackerSection.tsx:97 | with no transactions the id as written is minus infinity; otherwise it is the guarded next id |
| Finance.FinancialTracker.AddTransaction | src/sections/FinancialTrackerSection.tsx:95-111 | the form goes first in the list under an id above all in use (the corrected guard), ids stay unique, form reset |
| Finance.FinancialTracker.EditTransaction | src/sections/FinancialTrackerSection.tsx:113-121 | without a selection nothing; otherwise it replaces the transaction with its id |
| Finance.FinancialTracker.DeleteTransaction | src/sections/FinancialTrackerSection.tsx:123-125 | the transactions with that id go, the rest stay in order |
| EmailMarketing.TemplateForm | src/sections/EmailMarketingSection.tsx:179-188 | no recipient, the saved subject and content, a date part without the time, 09:00 |
| EmailMarketing.TemplateFormDate | src/sections/EmailMarketingSection.tsx:184 | the form's date is exactly the part of the ISO timestamp before its 'T' |
| EmailMarketing.RequestOf | src/sections/EmailMarketingSection.tsx:206-212 | the recipients are the comma-split trimmed pieces (never an empty list), subject and content as typed |
| EmailMarketing.FormCheckThenAddressCheck | src/sections/EmailMarketingSection.tsx:190-212 | a form passing the section's check is accepted by send-email exactly when every split recipient is a valid address |
| EmailMarketing.TrailingCommaRefused | src/sections/EmailMarketingSection.tsx:207 | recipients typed with a trailing comma produce an empty last recipient, which send-email refuses |
| EmailMarketing.TrailingCommaSplit | src/sections/EmailMarketingSection.tsx:207 | a trailing comma leaves an empty last piece |
| EmailMarketing.TrailingSeparator | src/sections/EmailMarketingSection.tsx:207 | splitting text that ends in the only separator gives the text and an empty piece |
| EmailMarketing.EmailMarketingSection.GenerateEmail | src/sections/EmailMarketingSection.tsx:111-149 | asks exactly when the topic is not blank; a blank topic sets its error, a failure sets the thrown message as the error, and both keep the generated email; success stores the reply's subject and content under the prompt's type |
| EmailMarketing.EmailMarketingSection.SaveEmail | src/sections/EmailMarketingSection.tsx:151-163 | the generated email goes first in the list and the prompt returns to its defaults; without one nothing changes |
| EmailMarketing.EmailMarketingSection.EditEmail | src/sections/EmailMarketingSection.tsx:165-173 | without an edited email nothing; otherwise it replaces the saved ones with its id |
| EmailMarketing.EmailMarketingSection.DeleteEmail | src/sections/EmailMarketingSection.tsx:175-177 | the saved emails with that id go |
| EmailMarketing.EmailMarketingSection.UseTemplate | src/sections/EmailMarketingSection.tsx:179-188 | the send form is filled from the saved email and opened |
| EmailMarketing.EmailMarketingSection.Send | src/sections/EmailMarketingSection.tsx:190-232 | an incomplete form only sets the error and posts nothing; otherwise the request is posted, and on success the form is emptied and closed, on failure kept with the thrown message as the error |
| EmailMarketing.SaveKeepsIdsUnique | src/sections/EmailMarketingSection.tsx:151-153 | saving a new id first keeps the saved ids distinct |
| NotionTemplates.LocalStore.constructor | src/sections/NotionTemplatesSection.tsx:43 | the saved list is what the browser holds under "notionTemplates" |
| NotionTemplates.VisibleIsExactlyTheMatches | src/sections/NotionTemplatesSection.tsx:348-355 | shown are exactly the templates of the tab's category whose title, description or some category contains the query, ignoring case |
| NotionTemplates.DashRuns | src/sections/NotionTemplatesSection.tsx:376 | no whitespace is left |
| NotionTemplates.DashRunsOfGap | src/sections/NotionTemplatesSection.tsx:376 | a whitespace run before a non-space becomes exactly one '-' |
| NotionTemplates.DashRunsCons | src/sections/NotionTemplatesSection.tsx:376 | a non-space character is kept |
| NotionTemplates.DashRunsKeepsWord | src/sections/NotionTemplatesSection.tsx:376 | a word without whitespace is kept in front of what follows |
| NotionTemplates.DashRunsIdempotent | src/sections/NotionTemplatesSection.tsx:376 | text without whitespace is left alone, so replacing twice is replacing once |
| NotionTemplates.DashRunsOfWords | src/sections/NotionTemplatesSection.tsx:376 | word, whitespace run, rest become word, one '-', and the rest with its runs replaced |
| NotionTemplates.FileName | src/sections/NotionTemplatesSection.tsx:376 | the file name has no whitespace and ends in ".txt" |
| NotionTemplates.LowerKeepsSpace | src/sections/NotionTemplatesSection.tsx:376 | lowercasing neither creates nor removes whitespace |
| NotionTemplates.FileNameOfWords | src/sections/NotionTemplatesSection.tsx:376 | "<word> <rest>" downloads as the lowercased word, '-', the rest's name and ".txt" |
| NotionTemplates.DownloadAddsOnePerMatch | src/sections/NotionTemplatesSection.tsx:384-388 | a download raises the download total by one per template holding the id |
| NotionTemplates.NotionTemplatesSection.constructor | src/sections/NotionTemplatesSection.tsx:42-45 | on mount the list is the built-in templates followed by the saved ones |
| NotionTemplates.NotionTemplatesSection.Download | src/sections/NotionTemplatesSection.tsx:365-389 | a template without content changes nothing and names no file; otherwise the file is named after the title and the templates with its id count one more download |
| NotionTemplates.NotionTemplatesSection.AskDelete | src/sections/NotionTemplatesSection.tsx:391-394 | the template is selected for confirmation |
| NotionTemplates.NotionTemplatesSection.ConfirmDelete | src/sections/NotionTemplatesSection.tsx:396-408 | without a selection nothing; otherwise the id is removed from the shown list and from the saved list |
| NotionTemplates.DeleteAcrossReload | src/sections/NotionTemplatesSection.tsx:399-404 | after a reload a deleted saved template stays gone while a deleted built-in one comes back |
| NotionGenerator.OneLine | src/sections/NotionTemplateGenerator.tsx:109 | the implementation text is put on one line: no line break is left |
| NotionGenerator.JoinAvoids | src/sections/NotionTemplateGenerator.tsx:109 | joining pieces and a separator that avoid a character avoids it |
| NotionGenerator.FirstLineOr | src/sections/NotionTemplateGenerator.tsx:83 | the title is a single line or the fallback |
| NotionGenerator.FirstLineOrRule | src/sections/NotionTemplateGenerator.tsx:83 | a purpose is titled by its non-empty first line, and an empty purpose by the fallback |
| NotionGenerator.Rows | src/sections/NotionTemplateGenerator.tsx:90-92 | one row per entry, in order |
| NotionGenerator.RowsSnoc | src/sections/NotionTemplateGenerator.tsx:90-92 | the rows of one more entry end with that entry's row |
| NotionGenerator.LinesSnoc | src/sections/NotionTemplateGenerator.tsx:91 | one more row adds that row and a line break |
| NotionGenerator.LinesAsJoin | src/sections/NotionTemplateGenerator.tsx:90-92 | the rows each followed by a line break are the rows joined by line breaks, plus a final one |
| NotionGenerator.OneLinePerRow | src/sections/NotionTemplateGenerator.tsx:90-92 | rows without line breaks read back as exactly one line per entry |
| NotionGenerator.RowsAreSingleLines | src/sections/NotionTemplateGenerator.tsx:108-119 | widget and automation rows are single lines whatever their implementation text holds |
| NotionGenerator.Header | src/sections/NotionTemplateGenerator.tsx:83-84 | the header starts with "# " |
| NotionGenerator.StartsWithHeader | src/sections/NotionTemplateGenerator.tsx:79-84 | the document opens with the title line and the purpose |
| NotionGenerator.StartsWithHash | src/sections/NotionTemplateGenerator.tsx:83 | every document starts with "# ", so it is never empty |
| NotionGenerator.MissingListsAreEmpty | src/sections/NotionTemplateGenerator.tsx:90-127 | a missing list renders as an empty table |
| NotionGenerator.BodyIgnoresApi | src/sections/NotionTemplateGenerator.tsx:86-129 | the five tables before API Integration do not depend on it |
| NotionGenerator.ApiRowOnlyWhenPresent | src/sections/NotionTemplateGenerator.tsx:131-137 | the API Integration row is there exactly when the answer has one, as the last line |
| NotionGenerator.AppendRows | src/sections/NotionTemplateGenerator.tsx:90-92 | the loop appends exactly one line per entry (loop invariant) |
| NotionGenerator.Serialize | src/sections/NotionTemplateGenerator.tsx:79-140 | the built text is the document: header, five tables, then API Integration |
| NotionGenerator.SavedEntry | src/sections/NotionTemplateGenerator.tsx:209-219 | titled by the purpose's first line or "Untitled Template", holding the document, no downloads, new, not premium, category productivity |
| NotionGenerator.NotionTemplateGenerator.GenerateTemplate | src/sections/NotionTemplateGenerator.tsx:142-174 | a blank purpose only sets the error and sends nothing; otherwise the prompt is sent, and the reply is shown, or the thrown message (the stock text when it is empty) becomes the error |
| NotionGenerator.NotionTemplateGenerator.AddDatabase | src/sections/NotionTemplateGenerator.tsx:176-189 | a blank name is ignored; otherwise the database is appended with no properties, whatever the draft held, and the draft reset |
| NotionGenerator.NotionTemplateGenerator.AddProperty | src/sections/NotionTemplateGenerator.tsx:191-202 | a blank name is ignored; otherwise the property joins the draft and the property form resets |
| NotionGenerator.NotionTemplateGenerator.SaveTemplate | src/sections/NotionTemplateGenerator.tsx:204-228 | without a generated template nothing; otherwise its document is appended to the saved list |
| NotionGenerator.SavedTemplateIsDownloadable | src/sections/NotionTemplateGenerator.tsx:221-222 | a saved template appears last in the library on reopening, and it can be downloaded |
| SocialMedia.Preview | src/sections/SocialMediaSection.tsx:133-144 | the preview always begins with the post's content |
| SocialMedia.PreviewOfBarePost | src/sections/SocialMediaSection.tsx:136-142 | an empty hashtag list counts as none; a post without hashtags and call to action previews as its bare content |
| SocialMedia.PreviewOfFullPost | src/sections/SocialMediaSection.tsx:134-141 | with both, the preview is content, hashtags joined by spaces and call to action, separated by blank lines |
| SocialMedia.SocialMediaSection.constructor | src/sections/SocialMediaSection.tsx:45-59 | the form starts empty with voice 'professional', goals 'engagement', type 'text'; no ideas, platform, error or posts |
| SocialMedia.SocialMediaSection.Generate | src/sections/SocialMediaSection.tsx:61-94 | a blank topic sets the error and sends nothing; otherwise the trimmed topic alone is sent, and ideas replace the list and clear the posts, or the error is set |
| SocialMedia.SocialMediaSection.SelectIdea | src/sections/SocialMediaSection.tsx:96-128 | the idea is selected, Twitter chosen when no platform is, the topic and idea sent, and the posts shown or the thrown message made the error |
| SocialMedia.SocialMediaSection.PlatformPreview | src/sections/SocialMediaSection.tsx:130-145 | nothing without a platform or posts; otherwise the preview of the chosen platform's post |
| SocialMedia.SectionIdeasAreProfessional | src/sections/SocialMediaSection.tsx:77 | the section never sends the voice, so its ideas are always the professional ones |
| GenerateIdeas.VoiceOf | supabase/functions/generate-ideas/index.ts:97 | a missing voice is professional; humorous and casual exactly for those names |
| GenerateIdeas.Ideas | supabase/functions/generate-ideas/index.ts:106-124 | five ideas for every voice |
| GenerateIdeas.Handle | supabase/functions/generate-ideas/index.ts:91-163 | OPTIONS gets the preflight; an unreadable body is a 400 with its message; without an idea a missing or blank prompt is a 400 and any other prompt gets the five ideas of the voice; with an idea the four posts of the voice for that idea and prompt |
| GenerateIdeas.AnsweredIdeasEmbedPrompt | supabase/functions/generate-ideas/index.ts:100-123 | answered ideas come only for a non-blank prompt, five of them, each containing the prompt |
| GenerateIdeas.IdeasEmbedPrompt | supabase/functions/generate-ideas/index.ts:106-124 | every idea, in every voice, contains the prompt |
| GenerateIdeas.UnknownVoiceIsProfessional | supabase/functions/generate-ideas/index.ts:118-124 | any voice other than humorous and casual is answered exactly as 'professional' |
| GenerateIdeas.PromptUncheckedWithIdea | supabase/functions/generate-ideas/index.ts:100-146 | with a selected idea the prompt is not checked: a missing or empty prompt still gets the posts |
| GenerateIdeas.EmptyIdeaIsNoIdea | supabase/functions/generate-ideas/index.ts:100-103 | an empty selected idea counts as none, so a missing prompt is then refused |
| Text.Trim | src/sections/EmailMarketingSection.tsx:112 | the trimmed text neither starts nor ends with whitespace and is no longer than the input |
| Text.TrimPadding | src/sections/SocialMediaSection.tsx:77 | trimming removes exactly the whitespace padding around a clean text |
| Text.TrimIdempotent | src/sections/SocialMediaSection.tsx:77 | trimming twice is trimming once |
| Text.BlankIsAllSpace | src/sections/NotionTemplateGenerator.tsx:143 | the `!x.trim()` guard holds exactly for whitespace-only text |
| Text.NonBlank | src/sections/NotionTemplateGenerator.tsx:177 | the guard yields nothing exactly for blank text, otherwise the non-empty trimmed text |
| Text.Split | src/sections/EmailMarketingSection.tsx:207 | splitting on a character gives at least one piece, none holding the separator, and joining them back gives the input |
| Text.SplitJoin | src/sections/EmailMarketingSection.tsx:207 | splitting a join of separator-free pieces gives the pieces back |
| Text.SplitTrim | src/sections/CustomerCRMSection.tsx:432 | the comma list's pieces are trimmed and comma-free, and empty ones are kept |
| Text.SplitTrimNonEmpty | src/sections/CustomerCRMSection.tsx:144 | the invite list's pieces are non-empty, trimmed and comma-free |
| Text.SplitTrimJoin | src/sections/CustomerCRMSection.tsx:432 | a list shown joined by ", " splits back into the same list |
| Text.SplitTrimOfBlank | src/sections/CustomerCRMSection.tsx:141-144 | a blank box gives one empty piece, and no invites |
| Text.Lower | src/sections/AdCampaignsSection.tsx:100 | lowercasing keeps the length and maps each ASCII capital to its small letter |
| Text.LowerConcat | src/sections/NotionTemplatesSection.tsx:376 | lowercasing distributes over concatenation |
| Text.SearchIgnoresCase | src/sections/ProjectsSection.tsx:116-117 | the search matches the same rows whatever the case of the query |
| Text.ParseInt | src/controllers/templateController.js:70 | no number exactly when, after whitespace and sign, there are no hexadecimal digits after a "0x"/"0X" mark or, without the mark, no decimal digits; a negative result needs a leading '-' |
| Text.ParseIntHex | src/controllers/templateController.js:70 | "0x1f" reads as 31 |
| Text.ParseIntHexSigned | src/controllers/templateController.js:70 | "-0XA" reads as -10 |
| Text.ParseIntBareMark | src/controllers/templateController.js:70 | a bare "0x" is no number |
| Text.ZeroThenXIsHex | src/controllers/templateController.js:70 | the numeral 0 followed by "x1f" is not 0 but 31 |
| Text.ParseIntString | src/controllers/templateController.js:70 | a printed id parses back to itself |
| Text.ParseIntPrefix | src/controllers/templateController.js:70 | text after the digits is ignored, unless it makes a zero into the hexadecimal mark |
| GenerateEmail.KindOf | supabase/functions/generate-email/index.ts:346-364 | each of the four named types picks its own template, anything else business |
| GenerateEmail.Greeting | supabase/functions/generate-email/index.ts:26-32 | 'formal' and 'casual' get their greetings, every other tone "Hello" |
| GenerateEmail.SubjectNamesTopic | supabase/functions/generate-email/index.ts:24-254 | every template's subject contains the topic |
| GenerateEmail.Handle | supabase/functions/generate-email/index.ts:321-391 | OPTIONS 204; unparsable body 500; no body or no non-empty string topic 400; otherwise an email exactly then, whose subject names the topic |
| GenerateEmail.Answered | supabase/functions/generate-email/index.ts:344-374 | a prompt with a topic gets the email of the template its type picks |
| GenerateEmail.UnknownTypeIsBusiness | supabase/functions/generate-email/index.ts:362-364 | any other type is answered exactly as 'business' |
| GenerateEmail.BusinessGreets | supabase/functions/generate-email/index.ts:32-34 | the business email opens with the tone's greeting |
| GenerateEmail.AudienceAddressed | supabase/functions/generate-email/index.ts:79-140 | marketing and story emails open with "Dear" and the audience, "undefined" when missing |
| GenerateEmail.CallToActionShown | supabase/functions/generate-email/index.ts:60-119 | a given call to action appears in both; without one no Next Steps line, and the stock button text |
| GenerateEmail.StoryPartsTold | supabase/functions/generate-email/index.ts:144-164 | each story part given is told, each missing one replaced by its stock paragraph |
| GenerateEmail.ContentNamesTopic | supabase/functions/generate-email/index.ts:36-254 | the content names the topic, unless a story gives both its core and its lesson |
| GenerateEmail.OnlyTopicShapes | supabase/functions/generate-email/index.ts:199-254 | personal and newsletter emails depend on the topic alone |
| GenerateEmail.BodyOf | src/sections/EmailMarketingSection.tsx:127 | the section's prompt arrives with its topic, audience, call to action and type name |
| GenerateEmail.SectionPromptAccepted | src/sections/EmailMarketingSection.tsx:112-127 | a prompt the section lets through is never refused, and the section's type picks the template |
| GenerateTemplate.Views | supabase/functions/generate-template/index.ts:54-60 | three distinct views led by the database's own type, with table second for every other type |
| GenerateTemplate.Databases | supabase/functions/generate-template/index.ts:52-62 | one entry per requested database, in order, with its name, properties and views |
| GenerateTemplate.FeatureSections | supabase/functions/generate-template/index.ts:47 | one "<feature> section" entry per feature, in order |
| GenerateTemplate.FeaturesRecoverable | supabase/functions/generate-template/index.ts:47 | each feature is recovered from its entry by dropping the " section" suffix |
| GenerateTemplate.Structure | supabase/functions/generate-template/index.ts:35-49 | two sections, Overview then Main Dashboard, the latter listing the features |
| GenerateTemplate.Widgets | supabase/functions/generate-template/index.ts:66-98 | three fixed widgets |
| GenerateTemplate.Automations | supabase/functions/generate-template/index.ts:100-135 | three fixed automations |
| GenerateTemplate.Embeds | supabase/functions/generate-template/index.ts:137-158 | two fixed embeds |
| GenerateTemplate.Handle | supabase/functions/generate-template/index.ts:26-201 | OPTIONS preflight; a parse error or missing features or databases is a 500 with the error's message; otherwise, exactly when both are present, the structure, databases and the fixed sections |
| GenerateTemplate.OnlyFeaturesAndDatabasesMatter | supabase/functions/generate-template/index.ts:35-170 | purpose, audience, layout and colour scheme never change the answer |
| SendEmail.IndexOf | supabase/functions/send-email/index.ts:39 | the first position of the character, or none when it is absent |
| SendEmail.IndexOfAt | supabase/functions/send-email/index.ts:39 | a position holding the character with none before it is the first |
| SendEmail.PartsCompose | supabase/functions/send-email/index.ts:39 | three matched pieces joined by '@' and '.' hold no whitespace and one '@' |
| SendEmail.ValidEmailIsRegex | supabase/functions/send-email/index.ts:39 | the direct address rule (one '@', something before it, an inner '.' after it, no whitespace) accepts exactly what the regular expression matches |
| SendEmail.ValidIsRegex | supabase/functions/send-email/index.ts:39 | every address the direct rule accepts matches the regular expression |
| SendEmail.RegexIsValid | supabase/functions/send-email/index.ts:39 | every address the regular expression matches passes the direct rule |
| SendEmail.SplitIsValid | supabase/functions/send-email/index.ts:39 | an address split as the regular expression splits it passes the direct rule |
| SendEmail.EmailExamples | supabase/functions/send-email/index.ts:39 | "a@b.co" passes; "", "a@b." and "a@@b.c" do not |
| SendEmail.Validate | supabase/functions/send-email/index.ts:30-43 | missing or empty recipients, then missing subject or content, then any invalid address fail in that order; success means every address is valid |
| SendEmail.InvalidAddressesListed | supabase/functions/send-email/index.ts:40-42 | the error lists every invalid address, in input order, and no valid one |
| SendEmail.ScheduleAt | supabase/functions/send-email/index.ts:46-50 | a schedule exactly when date and time are both given and parse to an instant strictly after now |
| SendEmail.Mailer.constructor | supabase/functions/send-email/index.ts:51-53 | nothing stored and nothing delivered yet |
| SendEmail.Deliveries | supabase/functions/send-email/index.ts:81-93 | one delivery per recipient, in order |
| SendEmail.FirstError | supabase/functions/send-email/index.ts:90-95 | no error exactly when the service accepts every recipient; otherwise one recipient's error |
| SendEmail.SendAll | supabase/functions/send-email/index.ts:81-95 | every recipient is handed to the service in order, and the outcome is the first refusal (loop invariant) |
| SendEmail.ErrorText | supabase/functions/send-email/index.ts:114 | the error's own message, or the stock text when it has none |
| SendEmail.Handle | supabase/functions/send-email/index.ts:19-125 | a body that is not JSON or is `null` is a 500 with the runtime's message, and validation failures a 500 with their reason, both storing and sending nothing; a future schedule stores one pending email; otherwise every recipient is sent the email and listed in order |
| AdCampaigns.AdCampaignsSection.constructor | src/sections/AdCampaignsSection.tsx:37-54 | the given campaigns, nothing selected, and a blank form dated today |
| Crm.CustomerSection.constructor | src/sections/CustomerCRMSection.tsx:35-47 | the given customers, nothing selected or edited, and an empty invite box |
| EmailMarketing.EmailMarketingSection.constructor | src/sections/EmailMarketingSection.tsx:54-76 | the default business prompt, no error, no generated or saved email, an empty send form, the send dialog closed |
| Finance.FinancialTracker.constructor | src/sections/FinancialTrackerSection.tsx:34-83 | the given transactions, a blank income form dated today, nothing selected |
| Projects.ProjectsSection.constructor | src/sections/ProjectsSection.tsx:49-66 | the given projects, nothing selected or edited, a blank form dated today, an empty invite box |
| Scheduling.SchedulingSection.constructor | src/sections/SchedulingSection.tsx:27-38 | today's date selected, the given tasks, a blank form dated today, no task being edited |
| NotionGenerator.NotionTemplateGenerator.constructor | src/sections/NotionTemplateGenerator.tsx:54-78 | an empty minimal/default configuration, blank drafts, nothing generated, no error, preview and dialog closed |
| Text.TrimStart | src/sections/SocialMediaSection.tsx:77 | drops exactly the leading whitespace: a suffix of the input that does not start with whitespace |
| Text.TrimEnd | src/sections/SocialMediaSection.tsx:77 | drops exactly the trailing whitespace: a prefix of the input that does not end with whitespace |
| Text.Join | supabase/functions/send-email/index.ts:42 | joining nothing is empty, and a join starts with its first piece |
| Text.JsText | supabase/functions/generate-email/index.ts:79 | a present value prints as itself |
| Text.TrimAll | src/sections/CustomerCRMSection.tsx:432 | each piece trimmed, in place |
| Text.DropEmpty | src/sections/CustomerCRMSection.tsx:144 | the non-empty pieces are kept and only they |
| Text.SplitTrimNonEmptyJoin | src/sections/CustomerCRMSection.tsx:144 | a list of non-empty addresses shown joined by ", " splits back into itself |

## Left out

- JWT signing and verification, bcrypt hashing and comparison, Stripe's API and webhook signature check, OpenAI, and the Supabase mail service are foreign code. They appear as function parameters or as the outcome of the call.
- The clock (`Date.now()`, `new Date()`) is a `now` parameter. `Date.now()` ids in the sections are parameters too. Parsing a local date-time in `send-email` is a `parse` parameter.
- Prisma failures are modelled only where the model has a `fails` flag, and for the failed log write in the webhook. These operations have no failure input, so their 500 answers are not modelled: AuthController.Register (src/controllers/authController.cjs:69), AuthController.Login (:128), AuthController.Logout (:148), AuthController.GetProfile (:186), and TemplateController.CreateTemplate, GetTemplates, GetTemplateById, UpdateTemplate and DeleteTemplate (src/controllers/templateController.js:35, 62, 94, 156, 195). Auth.Authenticate has no failure input either: the middleware's catch answers a failed token lookup with 403 "Invalid token" (src/middleware/auth.cjs:35-37), and that answer is not modelled. Prisma's `include` joins beyond the rows returned are not modelled either.
- `createCustomer` (src/services/stripeService.cjs:8-23) is not called by any modelled operation and consists of Stripe calls only.
- Webhook.HandleStripe: the raw JSON payload and Stripe's parsing of it are not modelled. The verifier's result is a parameter.
- TemplateController.GenerateTemplate: the OpenAI completion is the `generated` parameter, where `None` stands for any failure of that call. The request log keeps the prompt rather than the JSON text of prompt, purpose, audience and layout.
- Text.ParseInt: a `NaN` id makes Prisma throw, and the model gives the controller's 500 answer for it. The Prisma message is not modelled. The code's result is a double, so numerals beyond 2^53 lose precision there; the model keeps the exact integer.
- Floating point: the sections store money as integer cents. The webhook's `/ 100` is a `real`. Not modelled: `averageEngagement` (src/sections/AdCampaignsSection.tsx:106-108), cost-per-engagement, percentages, and `toFixed`/`toLocaleString` formatting.
- Text.Lower: `toLowerCase` is modelled on ASCII letters only. Other scripts' case mappings are not modelled.
- Time zones: `toISOString` and `toLocaleDateString` are not modelled. Dates are taken as the strings or `Date` values they produce.
- The `isSubmitting`/`isGenerating` flags and `setTimeout` delays are not modelled. Neither are modal open/close flags other than those a handler's result depends on.
- Not modelled, because they hold no logic beyond selecting a row for a dialog: selection handlers such as `handleViewAnalytics`, `handleEditCampaign` and the details dialogs, and the navigation event after `handleGenerateTemplate`.
- Promise.all: the sends in `send-email` run concurrently in the code. The model hands them to the service one at a time, in input order, and reports the first refusal in that order. A concurrent run may report a different refusal first.
- localStorage is a sequence: `LocalStore` for the Notion template library. Browser downloads (Blob, anchor click) are reduced to the file name and the counter.
- The project-invites edge function is I/O only. Its answer is the `accepted` parameter of `Projects.ProjectsSection.SendInvites`.
- Auth.Issue: the stored expiry is exactly 24 hours after the login. The code moves the local clock hour by 24 with `setHours`, which gives 23 or 25 hours across a daylight-saving change. The JWT's own expiry, counted in whole seconds, is `JwtLive`.
- AuthController.Register: the two dates are taken to be set to the creation instant by the database. The Prisma schema is not part of this model.
- GenerateIdeas.Handle: a prompt that is not a string is modelled as missing, which prints as "undefined" in the posts for a selected idea. The code interpolates it whatever it holds, so a JSON `null` prints "null" and a number prints its digits. The section always sends a string prompt.
- GenerateEmail.Handle: the body's `length` field is never read and is not carried. A non-object body is modelled as a prompt whose fields are all missing.
- Fuel bounds: none are used. Every recursive definition terminates by the length of its input.

## Findings

| source | as written | input that shows it | evidently intended | confidence | as-written member | corrected member |
|---|---|---|---|---|---|---|
| src/sections/ProjectsSection.tsx:123 | the new id is `Math.max(...ids) + 1` with no guard for an empty list | an empty project list: `Math.max()` is `-Infinity`, so the new project's id is `-Infinity` | `ids.length > 0 ? Math.max(...ids) + 1 : 1`, the guard src/sections/AdCampaignsSection.tsx:113 uses | high, not executed | Projects.NewIdAsWrittenFailsWhenEmpty | Lists.NextIdKeepsKeysUnique |
| src/sections/FinancialTrackerSection.tsx:97 | the new id is `Math.max(...ids) + 1` with no guard for an empty list | an empty transaction list: the new transaction's id is `-Infinity` | the guarded form, 1 for an empty list | high, not executed | Finance.NewIdAsWrittenFailsWhenEmpty | Lists.NextId |

=== FILE: ad_campaigns.dfy ===
/**
 * The ad-campaigns section: a campaign list in component state, a status tab and a search box
 * that select what is shown, the spend and reach totals, and the create, edit-save and
 * confirm-delete handlers. Money and reach are whole numbers; the average engagement is left out.
 */
module AdCampaigns {
  import opened Wrappers
  import opened Lists
  import opened Text

  datatype Status = Active | Paused | Completed | Draft

  datatype Campaign = Campaign(
    id: int, title: string, description: string, budget: int, spent: int, status: Status,
    platform: string, startDate: string, endDate: string, reach: int)

  /** The new-campaign form. */
  datatype CampaignForm = CampaignForm(title: string, description: string, budget: int, platform: string,
                                       startDate: string, endDate: string)

  /** The status tab: every campaign, or one status. */
  datatype StatusFilter = All | Only(status: Status)

  function CampaignId(c: Campaign): int { c.id }
  function Spent(c: Campaign): int { c.spent }
  function Reach(c: Campaign): int { c.reach }

  /** The form as it starts and as it is reset: platform 'facebook', both dates today. */
  function BlankForm(today: string): CampaignForm {
    CampaignForm("", "", 0, "facebook", today, today)
  }

  /** The two chained filters of `filteredCampaigns`. */
  predicate Shown(filter: StatusFilter, query: string, c: Campaign) {
    (filter.All? || c.status == filter.status) && SearchHit(query, [c.title, c.description])
  }

  function ShownBy(filter: StatusFilter, query: string): Campaign -> bool {
    (c: Campaign) => Shown(filter, query, c)
  }

  /** `filteredCampaigns` */
  function Visible(campaigns: seq<Campaign>, filter: StatusFilter, query: string): seq<Campaign> {
    Filter(campaigns, ShownBy(filter, query))
  }

  /**
   * The view holds, in list order, exactly the campaigns of the chosen status whose title or
   * description contains the query, ignoring case.
   */
  lemma VisibleIsExactlyTheMatches(campaigns: seq<Campaign>, filter: StatusFilter, query: string)
    ensures forall i :: 0 <= i < |Visible(campaigns, filter, query)| ==>
              var c := Visible(campaigns, filter, query)[i];
              && c in campaigns && (filter.All? || c.status == filter.status)
              && (query == [] || IncludesIgnoreCase(c.title, query) || IncludesIgnoreCase(c.description, query))
    ensures forall i :: 0 <= i < |campaigns| && (filter.All? || campaigns[i].status == filter.status)
                        && (query == [] || IncludesIgnoreCase(campaigns[i].title, query) || IncludesIgnoreCase(campaigns[i].description, query))
                        ==> campaigns[i] in Visible(campaigns, filter, query)
  {
    FilterMembers(campaigns, ShownBy(filter, query));
    var r := Visible(campaigns, filter, query);
    forall i | 0 <= i < |r|
      ensures query == [] || IncludesIgnoreCase(r[i].title, query) || IncludesIgnoreCase(r[i].description, query)
    {
      assert Shown(filter, query, r[i]);
    }
    forall i | 0 <= i < |campaigns| && (filter.All? || campaigns[i].status == filter.status)
               && (query == [] || IncludesIgnoreCase(campaigns[i].title, query) || IncludesIgnoreCase(campaigns[i].description, query))
      ensures campaigns[i] in r
    {
      assert campaigns[i].title in [campaigns[i].title, campaigns[i].description];
      assert campaigns[i].description in [campaigns[i].title, campaigns[i].description];
      assert Shown(filter, query, campaigns[i]);
    }
  }

  /** With the 'all' tab and an empty search box every campaign is shown. */
  lemma EverythingShownByDefault(campaigns: seq<Campaign>)
    ensures Visible(campaigns, All, "") == campaigns
  {
    FilterKeepsAll(campaigns, ShownBy(All, ""));
  }

  /** `totalSpent` and `totalReach`: over all campaigns, whatever is shown. */
  function TotalSpent(campaigns: seq<Campaign>): int { Sum(campaigns, Spent) }
  function TotalReach(campaigns: seq<Campaign>): int { Sum(campaigns, Reach) }

  /** The campaign `handleCreateCampaign` appends: active, nothing spent, no reach yet. */
  function NewCampaign(id: int, form: CampaignForm): (c: Campaign)
    ensures c.id == id && c.spent == 0 && c.reach == 0 && c.status == Active
    ensures c.title == form.title && c.description == form.description && c.budget == form.budget
    ensures c.platform == form.platform && c.startDate == form.startDate && c.endDate == form.endDate
  {
    Campaign(id, form.title, form.description, form.budget, 0, Active, form.platform, form.startDate, form.endDate, 0)
  }

  /** The create button is disabled while submitting, or without a title, a description and a positive budget. */
  predicate CreateDisabled(submitting: bool, form: CampaignForm) {
    submitting || form.title == [] || form.description == [] || form.budget <= 0
  }

  /** A created campaign starts with nothing spent and no reach, so it leaves both totals unchanged. */
  lemma CreateKeepsTotals(campaigns: seq<Campaign>, id: int, form: CampaignForm)
    ensures TotalSpent(campaigns + [NewCampaign(id, form)]) == TotalSpent(campaigns)
    ensures TotalReach(campaigns + [NewCampaign(id, form)]) == TotalReach(campaigns)
  {
    var c := NewCampaign(id, form);
    SumConcat(campaigns, [c], Spent);
    SumConcat(campaigns, [c], Reach);
    assert [c][1..] == [];
  }

  class AdCampaignsSection {
    var campaigns: seq<Campaign>
    var selected: Option<Campaign>
    var form: CampaignForm

    constructor(initial: seq<Campaign>, today: string)
      ensures campaigns == initial && selected == None && form == BlankForm(today)
    {
      campaigns := initial;
      selected := None;
      form := BlankForm(today);
    }

    /**
     * `handleCreateCampaign`: appends the form as a campaign under an id above every id in use
     * (1 for an empty list), and resets the form.
     */
    method CreateCampaign(today: string)
      modifies this`campaigns, this`form
      ensures campaigns == old(campaigns) + [NewCampaign(NextId(Keys(old(campaigns), CampaignId)), old(form))]
      ensures UniqueKeys(old(campaigns), CampaignId) ==> UniqueKeys(campaigns, CampaignId)
      ensures form == BlankForm(today)
    {
      var newId := if |campaigns| > 0 then Max(Keys(campaigns, CampaignId)) + 1 else 1;
      var c := NewCampaign(newId, form);
      if UniqueKeys(campaigns, CampaignId) {
        NextIdKeepsKeysUnique(campaigns, CampaignId, c);
      }
      campaigns := campaigns + [c];
      form := BlankForm(today);
    }

    /** `confirmDelete`: removes the selected campaign's id; without a selection it does nothing. */
    method ConfirmDelete()
      modifies this`campaigns, this`selected
      ensures old(selected).None? ==> campaigns == old(campaigns) && selected == None
      ensures old(selected).Some? ==> campaigns == DeleteById(old(campaigns), CampaignId, old(selected).value.id) && selected == None
    {
      if selected.Some? {
        campaigns := DeleteById(campaigns, CampaignId, selected.value.id);
        selected := None;
      }
    }

    /** The edit form's save: the saved campaign replaces the one with its id. */
    method SaveEdit(updated: Campaign)
      modifies this`campaigns, this`selected
      ensures campaigns == ReplaceById(old(campaigns), CampaignId, updated) && selected == None
    {
      campaigns := ReplaceById(campaigns, CampaignId, updated);
      selected := None;
    }
  }
}

=== FILE: auth.dfy ===
/**
 * The `authenticateToken` middleware and the token-store lifecycle it checks against: login
 * issues a record that lives 24 hours, the middleware accepts a token only while some record
 * holds exactly that string and has not expired, and logout revokes every record holding it.
 * Checking the token's signature and its own `exp` claim at a given instant is a parameter
 * (`verifies`); `JwtLive` states when a token signed by login passes that check.
 */
module Auth {
  import opened Wrappers
  import opened Text
  import opened Lists
  import opened Store

  /**
   * `authHeader && authHeader.split(' ')[1]`: the second space-separated word of the header, if it
   * is not empty. The first word is never looked at, so "Bearer" is not required.
   */
  function ExtractToken(header: Option<string>): (r: Option<string>)
    ensures r.Some? ==> r.value != [] && ' ' !in r.value
  {
    if header.None? then None
    else
      var parts := Split(header.value, ' ');
      if |parts| < 2 || parts[1] == [] then None else Some(parts[1])
  }

  /** A header "<scheme> <token>" yields the token, whatever the scheme word is. */
  lemma SchemeNotChecked(scheme: string, t: string)
    requires ' ' !in scheme && ' ' !in t && t != []
    ensures ExtractToken(Some(scheme + " " + t)) == Some(t)
  {
    SplitAtFirstSeparator(scheme, ' ', t);
    SplitNoSeparator(t, ' ');
  }

  /** A header with no space, or with nothing after the first space, carries no token. */
  lemma NoSecondWord(h: string)
    requires ' ' !in h
    ensures ExtractToken(Some(h)) == None
    ensures ExtractToken(Some(h + " ")) == None
  {
    SplitNoSeparator(h, ' ');
    SplitAtFirstSeparator(h, ' ', []);
    assert h + [' '] + [] == h + " ";
  }

  /** A stored record that accepts token `t` at time `now`: the comparison with the expiry is strict. */
  predicate Live(rec: AuthToken, t: string, now: int) {
    rec.token == t && rec.expiresAt > now
  }

  /** `prisma.authToken.findFirst({ where: { token, expiresAt: { gt: now } } })` */
  function FindLive(tokens: seq<AuthToken>, t: string, now: int): (r: Option<AuthToken>)
    ensures r.None? <==> forall i :: 0 <= i < |tokens| ==> !Live(tokens[i], t, now)
    ensures r.Some? ==> exists i :: 0 <= i < |tokens| && tokens[i] == r.value && Live(r.value, t, now)
                                    && forall j :: 0 <= j < i ==> !Live(tokens[j], t, now)
  {
    if tokens == [] then None
    else if Live(tokens[0], t, now) then Some(tokens[0])
    else
      var r := FindLive(tokens[1..], t, now);
      assert forall i :: 1 <= i < |tokens| ==> tokens[i] == tokens[1..][i - 1];
      if r.Some? then
        var i :| 0 <= i < |tokens[1..]| && tokens[1..][i] == r.value && Live(r.value, t, now)
                  && forall j :: 0 <= j < i ==> !Live(tokens[1..][j], t, now);
        assert tokens[i + 1] == r.value;
        r
      else r
  }

  /** What the middleware does: call `next()` with the token's owner as `req.user`, or answer with an error. */
  datatype AuthOutcome = Next(userId: int) | Reject(status: int, message: string)

  /**
   * `authenticateToken`: 401 without a token, 403 "Invalid token" when the token's signature does
   * not verify, 403 "Invalid or expired token" when no live record holds it, and otherwise the
   * owner of the first live record. It only reads the token table.
   */
  function Authenticate(header: Option<string>, verifies: (string, int) -> bool, tokens: seq<AuthToken>, now: int): (r: AuthOutcome)
    ensures ExtractToken(header).None? ==> r == Reject(401, "Access token is required")
    ensures ExtractToken(header).Some? && !verifies(ExtractToken(header).value, now) ==> r == Reject(403, "Invalid token")
    ensures ExtractToken(header).Some? && verifies(ExtractToken(header).value, now) ==>
              match FindLive(tokens, ExtractToken(header).value, now)
              case None => r == Reject(403, "Invalid or expired token")
              case Some(rec) => r == Next(rec.userProfileId)
  {
    var token := ExtractToken(header);
    if token.None? then Reject(401, "Access token is required")
    else if !verifies(token.value, now) then Reject(403, "Invalid token")
    else
      match FindLive(tokens, token.value, now)
      case None => Reject(403, "Invalid or expired token")
      case Some(rec) => Next(rec.userProfileId)
  }

  /** `authToken.create`: the record a login adds, living 24 hours from the login. */
  function Issue(tokens: seq<AuthToken>, t: string, userId: int, now: int): (r: seq<AuthToken>)
    ensures |r| == |tokens| + 1 && r[..|tokens|] == tokens && r[|tokens|] == AuthToken(t, userId, now + DAY_MS)
  {
    tokens + [AuthToken(t, userId, now + DAY_MS)]
  }

  function KeepsOtherTokens(t: string): AuthToken -> bool {
    (rec: AuthToken) => rec.token != t
  }

  /** `authToken.deleteMany({ where: { token } })`: every record holding the token goes, the others stay in order. */
  function Revoke(tokens: seq<AuthToken>, t: string): (r: seq<AuthToken>)
    ensures forall i :: 0 <= i < |r| ==> r[i].token != t && r[i] in tokens
    ensures forall i :: 0 <= i < |tokens| && tokens[i].token != t ==> tokens[i] in r
  {
    FilterMembers(tokens, KeepsOtherTokens(t));
    Filter(tokens, KeepsOtherTokens(t))
  }

  /** Lookup only sees records of its own token, so records of other tokens never change its answer. */
  lemma {:induction false} FindLiveIgnoresOthers(tokens: seq<AuthToken>, t: string, u: string, now: int)
    requires t != u
    ensures FindLive(Filter(tokens, KeepsOtherTokens(u)), t, now) == FindLive(tokens, t, now)
  {
    if tokens != [] {
      FindLiveIgnoresOthers(tokens[1..], t, u, now);
      var p := KeepsOtherTokens(u);
      if p(tokens[0]) {
        assert Filter(tokens, p) == [tokens[0]] + Filter(tokens[1..], p);
        assert Filter(tokens, p)[1..] == Filter(tokens[1..], p);
      } else {
        assert Filter(tokens, p) == Filter(tokens[1..], p);
      }
    }
  }

  /**
   * `jwt.sign(..., { expiresIn: '24h' })` sets `exp` to the signing second plus 86400, and
   * `jwt.verify` refuses the token from that second on; both count whole seconds since the epoch.
   */
  predicate JwtLive(issuedAt: int, now: int) {
    now / 1000 < issuedAt / 1000 + DAY_MS / 1000
  }

  /** The signed expiry never falls after the stored one, so it is the one that ends a session. */
  lemma JwtExpiresFirst(issuedAt: int, now: int)
    requires JwtLive(issuedAt, now)
    ensures now < issuedAt + DAY_MS
  {
    assert now < (now / 1000 + 1) * 1000;
    assert (issuedAt / 1000) * 1000 <= issuedAt;
  }

  /**
   * A token just signed and issued at `issuedAt`, checked by a verifier that behaves as
   * `jsonwebtoken` does for it, is accepted exactly while its signed expiry has not passed, and
   * is refused with 403 "Invalid token" from then on.
   */
  lemma IssueThenAuthenticate(tokens: seq<AuthToken>, scheme: string, t: string, userId: int, issuedAt: int, now: int,
                              verifies: (string, int) -> bool)
    requires ' ' !in scheme && ' ' !in t && t != []
    requires forall n :: verifies(t, n) <==> JwtLive(issuedAt, n)
    requires forall i :: 0 <= i < |tokens| ==> tokens[i].token != t
    ensures Authenticate(Some(scheme + " " + t), verifies, Issue(tokens, t, userId, issuedAt), now)
            == if JwtLive(issuedAt, now) then Next(userId) else Reject(403, "Invalid token")
  {
    SchemeNotChecked(scheme, t);
    var ts := Issue(tokens, t, userId, issuedAt);
    assert forall i :: 0 <= i < |tokens| ==> ts[i] == tokens[i];
    if verifies(t, now) {
      JwtExpiresFirst(issuedAt, now);
      assert Live(ts[|tokens|], t, now);
      var found := FindLive(ts, t, now);
      assert found.Some?;
      assert found.value == ts[|tokens|];
    }
  }

  /** Were the signature to verify for longer, the stored record would end the session 24 hours after the login. */
  lemma IssueThenAuthenticateStored(tokens: seq<AuthToken>, scheme: string, t: string, userId: int, issuedAt: int, now: int,
                                    verifies: (string, int) -> bool)
    requires ' ' !in scheme && ' ' !in t && t != [] && verifies(t, now)
    requires forall i :: 0 <= i < |tokens| ==> tokens[i].token != t
    ensures Authenticate(Some(scheme + " " + t), verifies, Issue(tokens, t, userId, issuedAt), now)
            == if now < issuedAt + DAY_MS then Next(userId) else Reject(403, "Invalid or expired token")
  {
    SchemeNotChecked(scheme, t);
    var ts := Issue(tokens, t, userId, issuedAt);
    assert forall i :: 0 <= i < |tokens| ==> ts[i] == tokens[i];
    var found := FindLive(ts, t, now);
    if now < issuedAt + DAY_MS {
      assert Live(ts[|tokens|], t, now);
      assert found.Some?;
      assert found.value == ts[|tokens|];
    } else {
      assert found.None?;
    }
  }

  /** After logout the token is refused, whatever else the store holds. */
  lemma RevokeThenAuthenticate(tokens: seq<AuthToken>, header: Option<string>, verifies: (string, int) -> bool, now: int)
    requires ExtractToken(header).Some?
    ensures !Authenticate(header, verifies, Revoke(tokens, ExtractToken(header).value), now).Next?
  {
  }

  /** Logging out one token leaves every other session exactly as it was. */
  lemma RevokeLeavesOtherSessions(tokens: seq<AuthToken>, t: string, header: Option<string>, verifies: (string, int) -> bool, now: int)
    requires ExtractToken(header) != Some(t)
    ensures Authenticate(header, verifies, Revoke(tokens, t), now) == Authenticate(header, verifies, tokens, now)
  {
    if ExtractToken(header).Some? {
      FindLiveIgnoresOthers(tokens, ExtractToken(header).value, t, now);
    }
  }

  /** Logging out twice is logging out once. */
  lemma RevokeIdempotent(tokens: seq<AuthToken>, t: string)
    ensures Revoke(Revoke(tokens, t), t) == Revoke(tokens, t)
  {
    var r := Revoke(tokens, t);
    FilterKeepsAll(r, KeepsOtherTokens(t));
  }
}

=== FILE: auth_controller.dfy ===
/**
 * The account endpoints: `register`, `login`, `logout` and `getProfile`. Password hashing and
 * comparison, the signed token and the new user's uuid come from outside and are parameters.
 */
module AuthController {
  import opened Wrappers
  import opened Lists
  import opened Store
  import Auth

  /** No two accounts share an email address or a username. */
  predicate UniqueAccounts(users: seq<User>) {
    forall i, j :: 0 <= i < j < |users| ==> users[i].email != users[j].email && users[i].username != users[j].username
  }

  /** `user.findFirst({ where: { OR: [{ email }, { username }] } })` finds a row. */
  predicate Taken(users: seq<User>, username: string, email: string) {
    exists i :: 0 <= i < |users| && (users[i].email == email || users[i].username == username)
  }

  /** Registering a name and address nobody holds keeps accounts unique. */
  lemma RegisterKeepsAccountsUnique(users: seq<User>, u: User)
    requires UniqueAccounts(users) && !Taken(users, u.username, u.email)
    ensures UniqueAccounts(users + [u])
  {
    var r := users + [u];
    forall i, j | 0 <= i < j < |r| ensures r[i].email != r[j].email && r[i].username != r[j].username {
      if j == |users| {
        assert r[i] == users[i];
      }
    }
  }

  function FindRole(roles: seq<Role>, name: string): (r: Option<Role>)
    ensures r.Some? ==> r.value in roles && r.value.name == name
    ensures r.None? ==> forall i :: 0 <= i < |roles| ==> roles[i].name != name
  {
    Find(roles, (x: Role) => x.name == name)
  }

  function FindUserByEmail(users: seq<User>, email: string): (r: Option<User>)
    ensures r.Some? ==> r.value in users && r.value.email == email
    ensures r.None? ==> forall i :: 0 <= i < |users| ==> users[i].email != email
  {
    Find(users, (u: User) => u.email == email)
  }

  function FindUserById(users: seq<User>, id: int): (r: Option<User>)
    ensures r.Some? ==> r.value in users && r.value.id == id
    ensures r.None? ==> forall i :: 0 <= i < |users| ==> users[i].id != id
  {
    Find(users, (u: User) => u.id == id)
  }

  /**
   * `register`: 400 when the email or the username is taken; otherwise one new user holding the
   * hash of the password, no bio and both dates at `now`, a link to the role named 'user' when
   * there is one, and 201 with the public fields of the new user.
   */
  method Register(db: Db, username: string, email: string, password: string, fullName: string,
                  hash: string -> string, uuid: string, now: int) returns (r: Reply<PublicUser>)
    modifies db`users, db`nextUserId, db`userRoles
    ensures Taken(old(db.users), username, email) ==>
              r == Fail(400, "User with this email or username already exists")
              && db.users == old(db.users) && db.nextUserId == old(db.nextUserId) && db.userRoles == old(db.userRoles)
    ensures !Taken(old(db.users), username, email) ==>
              var u := User(old(db.nextUserId), uuid, username, email, hash(password), fullName, None, now, now);
              && db.users == old(db.users) + [u]
              && db.nextUserId == old(db.nextUserId) + 1
              && r == Ok(201, Public(u))
              && db.userRoles == old(db.userRoles) + (match FindRole(db.roles, "user")
                                                      case None => []
                                                      case Some(role) => [UserRole(u.id, role.id)])
    ensures UniqueAccounts(old(db.users)) ==> UniqueAccounts(db.users)
  {
    if FirstIndex(db.users, (x: User) => x.email == email || x.username == username).Some? {
      return Fail(400, "User with this email or username already exists");
    }
    var u := User(db.nextUserId, uuid, username, email, hash(password), fullName, None, now, now);
    if UniqueAccounts(db.users) {
      RegisterKeepsAccountsUnique(db.users, u);
    }
    db.users := db.users + [u];
    db.nextUserId := db.nextUserId + 1;
    var role := FindRole(db.roles, "user");
    if role.Some? {
      db.userRoles := db.userRoles + [UserRole(u.id, role.value.id)];
    }
    r := Ok(201, Public(u));
  }

  /** The body of a successful login. */
  datatype Session = Session(token: string, user: PublicUser)

  /**
   * `login`: the same 401 "Invalid credentials" for an unknown address and for a wrong password;
   * otherwise one new token record for the user, expiring 24 hours from now, and that token returned.
   */
  method Login(db: Db, email: string, password: string, compare: (string, string) -> bool, token: string, now: int)
    returns (r: Reply<Session>)
    modifies db`tokens
    ensures var u := FindUserByEmail(db.users, email);
            if u.None? || !compare(password, u.value.hashedPassword) then
              r == Fail(401, "Invalid credentials") && db.tokens == old(db.tokens)
            else
              r == Ok(200, Session(token, Public(u.value))) && db.tokens == Auth.Issue(old(db.tokens), token, u.value.id, now)
  {
    var u := FindUserByEmail(db.users, email);
    if u.None? {
      return Fail(401, "Invalid credentials");
    }
    if !compare(password, u.value.hashedPassword) {
      return Fail(401, "Invalid credentials");
    }
    db.tokens := db.tokens + [AuthToken(token, u.value.id, now + DAY_MS)];
    r := Ok(200, Session(token, Public(u.value)));
  }

  /** `logout`: removes every record of the presented token, if there is one, and always succeeds. */
  method Logout(db: Db, header: Option<string>) returns (r: Reply<string>)
    modifies db`tokens
    ensures r == Ok(200, "Logout successful")
    ensures match Auth.ExtractToken(header)
            case None => db.tokens == old(db.tokens)
            case Some(t) => db.tokens == Auth.Revoke(old(db.tokens), t)
  {
    var token := Auth.ExtractToken(header);
    if token.Some? {
      db.tokens := Auth.Revoke(db.tokens, token.value);
    }
    r := Ok(200, "Logout successful");
  }

  /** The user fields `getProfile` selects: the public ones, the bio and both dates, never the password hash. */
  datatype ProfileUser = ProfileUser(id: int, uuid: string, username: string, email: string, fullName: string,
                                     bio: Option<string>, dateCreated: int, dateUpdated: int)

  function ProfileOf(u: User): (p: ProfileUser)
    ensures p.id == u.id && p.uuid == u.uuid && p.username == u.username && p.email == u.email && p.fullName == u.fullName
    ensures p.bio == u.bio && p.dateCreated == u.dateCreated && p.dateUpdated == u.dateUpdated
  {
    ProfileUser(u.id, u.uuid, u.username, u.email, u.fullName, u.bio, u.dateCreated, u.dateUpdated)
  }

  /** The profile `getProfile` returns: the selected user fields and the user's active subscriptions. */
  datatype Profile = Profile(user: ProfileUser, subscriptions: seq<Subscription>)

  function ActiveOf(userId: int): Subscription -> bool {
    (s: Subscription) => s.userProfileId == userId && s.status == "active"
  }

  /**
   * `getProfile`: 404 for an unknown id; otherwise the user's selected fields with exactly their subscriptions whose
   * status is 'active', in table order, whatever their period end.
   */
  function GetProfile(db: Db, userId: int): (r: Reply<Profile>)
    reads db
    ensures r.Fail? <==> FindUserById(db.users, userId).None?
    ensures r.Fail? ==> r == Fail(404, "User not found")
    ensures r.Ok? ==> r.status == 200 && r.body.user == ProfileOf(FindUserById(db.users, userId).value)
    ensures r.Ok? ==> forall i :: 0 <= i < |r.body.subscriptions| ==>
              r.body.subscriptions[i] in db.subscriptions
              && r.body.subscriptions[i].userProfileId == userId && r.body.subscriptions[i].status == "active"
    ensures r.Ok? ==> forall i :: 0 <= i < |db.subscriptions| && ActiveOf(userId)(db.subscriptions[i]) ==>
                                   db.subscriptions[i] in r.body.subscriptions
  {
    match FindUserById(db.users, userId)
    case None => Fail(404, "User not found")
    case Some(u) =>
      FilterMembers(db.subscriptions, ActiveOf(userId));
      Ok(200, Profile(ProfileOf(u), Filter(db.subscriptions, ActiveOf(userId))))
  }
}

=== FILE: crm.dfy ===
/**
 * The customer (contact) section: a customer list with a status tab and a search over name,
 * email and tags, the delete and edit-save handlers, the favourite star, the tag text box of the
 * edit form and the invite dialog, which adds the invited emails to the selected customer's tags.
 */
module Crm {
  import opened Wrappers
  import opened Lists
  import opened Text

  datatype CustomerStatus = Active | Inactive | Lead

  /** `totalSpent` is held in cents. */
  datatype Customer = Customer(
    id: int, name: string, email: string, phone: string, status: CustomerStatus,
    lastPurchase: Option<string>, totalSpent: int, tags: seq<string>, isFavorite: bool)

  datatype StatusFilter = All | Only(status: CustomerStatus)

  function CustomerId(c: Customer): int { c.id }

  function FlipFavorite(c: Customer): Customer { c.(isFavorite := !c.isFavorite) }

  /** The search looks at the name, the email and every tag. */
  predicate Shown(filter: StatusFilter, query: string, c: Customer) {
    (filter.All? || c.status == filter.status) && SearchHit(query, [c.name, c.email] + c.tags)
  }

  function ShownBy(filter: StatusFilter, query: string): Customer -> bool {
    (c: Customer) => Shown(filter, query, c)
  }

  /** `filteredProjects` (the customer view) */
  function Visible(customers: seq<Customer>, filter: StatusFilter, query: string): seq<Customer> {
    Filter(customers, ShownBy(filter, query))
  }

  /** A customer of the chosen status is found by any one of its tags, whatever the case. */
  lemma FoundByTag(customers: seq<Customer>, filter: StatusFilter, query: string, i: int, t: int)
    requires 0 <= i < |customers| && (filter.All? || customers[i].status == filter.status)
    requires 0 <= t < |customers[i].tags| && IncludesIgnoreCase(customers[i].tags[t], query)
    ensures customers[i] in Visible(customers, filter, query)
  {
    var c := customers[i];
    assert ([c.name, c.email] + c.tags)[2 + t] == c.tags[t];
    assert Shown(filter, query, c);
    FilterMembers(customers, ShownBy(filter, query));
  }

  /** The query matches a customer's name, email or one of its tags, ignoring case; an empty query matches everyone. */
  predicate Matches(query: string, c: Customer) {
    query == [] || IncludesIgnoreCase(c.name, query) || IncludesIgnoreCase(c.email, query)
    || exists t :: 0 <= t < |c.tags| && IncludesIgnoreCase(c.tags[t], query)
  }

  /** Being shown is having the chosen status and matching the query. */
  lemma ShownIsMatch(filter: StatusFilter, query: string, c: Customer)
    ensures Shown(filter, query, c) <==> (filter.All? || c.status == filter.status) && Matches(query, c)
  {
    var fields := [c.name, c.email] + c.tags;
    assert fields[0] == c.name && fields[1] == c.email;
    if Shown(filter, query, c) && query != [] && !IncludesIgnoreCase(c.name, query) && !IncludesIgnoreCase(c.email, query) {
      var f :| f in fields && IncludesIgnoreCase(f, query);
      var k :| 0 <= k < |fields| && fields[k] == f;
      assert c.tags[k - 2] == f;
    }
    if Matches(query, c) && query != [] && !IncludesIgnoreCase(c.name, query) && !IncludesIgnoreCase(c.email, query) {
      var t :| 0 <= t < |c.tags| && IncludesIgnoreCase(c.tags[t], query);
      assert fields[2 + t] == c.tags[t];
    }
  }

  /**
   * The list shows exactly the customers of the chosen status that match the query in their name,
   * email or a tag: everything shown is such a customer, and every such customer is shown.
   */
  lemma VisibleIsExactlyTheMatches(customers: seq<Customer>, filter: StatusFilter, query: string)
    ensures forall i :: 0 <= i < |Visible(customers, filter, query)| ==>
              var c := Visible(customers, filter, query)[i];
              c in customers && (filter.All? || c.status == filter.status) && Matches(query, c)
    ensures forall i :: 0 <= i < |customers| && (filter.All? || customers[i].status == filter.status) && Matches(query, customers[i])
                        ==> customers[i] in Visible(customers, filter, query)
  {
    FilterMembers(customers, ShownBy(filter, query));
    var r := Visible(customers, filter, query);
    forall i | 0 <= i < |r|
      ensures (filter.All? || r[i].status == filter.status) && Matches(query, r[i])
    {
      ShownIsMatch(filter, query, r[i]);
    }
    forall i | 0 <= i < |customers| && (filter.All? || customers[i].status == filter.status) && Matches(query, customers[i])
      ensures customers[i] in r
    {
      ShownIsMatch(filter, query, customers[i]);
    }
  }

  /** The save button of the edit form is disabled without a name or an email. */
  predicate SaveDisabled(edited: Option<Customer>) {
    edited.None? || edited.value.name == [] || edited.value.email == []
  }

  /** The tag box shows `tags.join(', ')` and reads back the comma-split, trimmed pieces; typing the shown text gives the tags back. */
  lemma TagBoxRoundTrip(tags: seq<string>)
    requires |tags| >= 1
    requires forall i :: 0 <= i < |tags| ==> Clean(tags[i]) && ',' !in tags[i]
    ensures SplitTrim(Join(tags, ", ")) == tags
  {
    SplitTrimJoin(tags);
  }

  /** Unlike the invite box, the tag box keeps empty pieces: an empty entry between two tags stays. */
  lemma TagBoxKeepsEmpty(a: string, b: string)
    requires a != [] && b != [] && Clean(a) && Clean(b) && ',' !in a && ',' !in b
    ensures SplitTrim(Join([a, "", b], ", ")) == [a, "", b]
    ensures SplitTrimNonEmpty(Join([a, "", b], ", ")) == [a, b]
  {
    SplitTrimJoin([a, "", b]);
    assert DropEmpty([a, "", b]) == [a] + DropEmpty(["", b]);
    assert DropEmpty(["", b]) == DropEmpty([b]);
  }

  class CustomerSection {
    var customers: seq<Customer>
    var selected: Option<Customer>
    var edited: Option<Customer>
    var inviteEmails: string

    constructor(initial: seq<Customer>)
      ensures customers == initial && selected == None && edited == None && inviteEmails == ""
    {
      customers := initial;
      selected := None;
      edited := None;
      inviteEmails := "";
    }

    /** `handleDeleteCustomer`: removes the selected customer's id; without a selection it does nothing. */
    method DeleteCustomer()
      modifies this`customers, this`selected
      ensures old(selected).None? ==> customers == old(customers) && selected == None
      ensures old(selected).Some? ==> customers == DeleteById(old(customers), CustomerId, old(selected).value.id) && selected == None
    {
      if selected.Some? {
        customers := DeleteById(customers, CustomerId, selected.value.id);
        selected := None;
      }
    }

    /** `handleEditCustomer`: the edited customer replaces the one with its id; without one it does nothing. */
    method EditCustomer()
      modifies this`customers, this`edited
      ensures old(edited).None? ==> customers == old(customers) && edited == None
      ensures old(edited).Some? ==> customers == ReplaceById(old(customers), CustomerId, old(edited).value) && edited == None
    {
      if edited.Some? {
        customers := ReplaceById(customers, CustomerId, edited.value);
        edited := None;
      }
    }

    /** `toggleFavorite`: flips the star of the customers with that id and of no other. */
    method ToggleFavorite(id: int)
      modifies this`customers
      ensures customers == MapWhere(old(customers), CustomerId, id, FlipFavorite)
    {
      customers := MapWhere(customers, CustomerId, id, FlipFavorite);
    }

    /** The tag box of the edit form: the comma-split, trimmed pieces, empty ones included. */
    method EditTags(text: string)
      modifies this`edited
      ensures old(edited).None? ==> edited == None
      ensures old(edited).Some? ==> edited == Some(old(edited).value.(tags := SplitTrim(text)))
    {
      if edited.Some? {
        edited := Some(edited.value.(tags := SplitTrim(text)));
      }
    }

    /**
     * `handleSendInvites`: nothing without a selected customer or with a blank input; otherwise the
     * trimmed non-empty emails are sent and, once accepted, appended to the selected customer's tags.
     */
    method SendInvites(accepted: bool) returns (sent: seq<string>)
      modifies this`selected, this`inviteEmails
      ensures customers == old(customers)
      ensures old(selected).None? || Blank(old(inviteEmails)) ==>
                sent == [] && selected == old(selected) && inviteEmails == old(inviteEmails)
      ensures old(selected).Some? && !Blank(old(inviteEmails)) ==>
                && sent == SplitTrimNonEmpty(old(inviteEmails))
                && (accepted ==> selected == Some(old(selected).value.(tags := old(selected).value.tags + sent)) && inviteEmails == "")
                && (!accepted ==> selected == old(selected) && inviteEmails == old(inviteEmails))
    {
      if selected.None? || Blank(inviteEmails) {
        return [];
      }
      sent := SplitTrimNonEmpty(inviteEmails);
      if accepted {
        inviteEmails := "";
        selected := Some(selected.value.(tags := selected.value.tags + sent));
      }
    }
  }

  /** Starring twice restores the list, and starring one customer leaves every other as it was. */
  lemma ToggleFavoriteTwice(customers: seq<Customer>, id: int)
    ensures MapWhere(MapWhere(customers, CustomerId, id, FlipFavorite), CustomerId, id, FlipFavorite) == customers
    ensures forall i :: 0 <= i < |customers| && customers[i].id != id ==>
              MapWhere(customers, CustomerId, id, FlipFavorite)[i] == customers[i]
  {
    MapWhereInvolution(customers, CustomerId, id, FlipFavorite);
  }
}

=== FILE: dates.dfy ===
/**
 * Calendar dates as JavaScript's `Date` constructor and getters see them in local time:
 * a year, a month numbered 0..11 and a day of the month. `new Date(y, m, d)` accepts any
 * month and any day and carries the excess into the neighbouring months and years.
 */
module Dates {

  datatype Date = Date(year: int, month: int, day: int)

  predicate IsLeap(y: int) {
    y % 4 == 0 && (y % 100 != 0 || y % 400 == 0)
  }

  /** The Gregorian length of month `m` (0 = January) of year `y`. */
  function DaysInMonth(y: int, m: int): (n: int)
    requires 0 <= m < 12
    ensures 28 <= n <= 31
    ensures m == 1 ==> (n == 29 <==> IsLeap(y))
  {
    if m == 1 then (if IsLeap(y) then 29 else 28)
    else if m == 3 || m == 5 || m == 8 || m == 10 then 30
    else 31
  }

  predicate Valid(d: Date) {
    0 <= d.month < 12 && 1 <= d.day <= DaysInMonth(d.year, d.month)
  }

  /** The position of a month on the month axis: months since January of year 0. */
  function MonthIndex(y: int, m: int): int {
    12 * y + m
  }

  /** `new Date(y, m, 1)`: the first of the month, with the month carried into the year. */
  function MonthStart(y: int, m: int): (r: Date)
    ensures Valid(r) && r.day == 1
    ensures MonthIndex(r.year, r.month) == MonthIndex(y, m)
  {
    var t := MonthIndex(y, m);
    Date(t / 12, t % 12, 1)
  }

  /** `new Date(y, m, d)`: a day before the first or after the last of the month lands in the month before or after. */
  function MakeDate(y: int, m: int, d: int): (r: Date)
    ensures Valid(r)
    decreases if d < 1 then 1 - d else 0, if d < 1 then 0 else d
  {
    var s := MonthStart(y, m);
    if d < 1 then
      var p := MonthStart(s.year, s.month - 1);
      MakeDate(p.year, p.month, d + DaysInMonth(p.year, p.month))
    else if d > DaysInMonth(s.year, s.month) then
      MakeDate(s.year, s.month + 1, d - DaysInMonth(s.year, s.month))
    else
      Date(s.year, s.month, d)
  }

  /** Two month positions name the same month exactly when they are equal positions. */
  lemma MonthStartOnIndex(y: int, m: int, y': int, m': int)
    requires MonthIndex(y, m) == MonthIndex(y', m')
    ensures MonthStart(y, m) == MonthStart(y', m')
  {
  }

  /** A date that is already in range is left alone. */
  lemma MonthStartOfValid(d: Date)
    requires Valid(d)
    ensures MonthStart(d.year, d.month) == Date(d.year, d.month, 1)
    ensures MakeDate(d.year, d.month, d.day) == d
  {
  }

  /** `new Date(y, m + 1, 0).getDate()` is the number of days of month m: day 0 is the last day of the month before. */
  lemma DayZeroIsLastDay(y: int, m: int)
    requires 0 <= m < 12
    ensures MakeDate(y, m + 1, 0) == Date(y, m, DaysInMonth(y, m))
  {
    var s := MonthStart(y, m + 1);
    var p := MonthStart(s.year, s.month - 1);
    MonthStartOnIndex(s.year, s.month - 1, y, m);
    assert p == Date(y, m, 1);
  }

  /** `new Date(y, m + k, 1)`: the month-navigation step. */
  function ChangeMonth(d: Date, k: int): (r: Date)
    ensures Valid(r) && r.day == 1
    ensures MonthIndex(r.year, r.month) == MonthIndex(d.year, d.month) + k
  {
    MonthStart(d.year, d.month + k)
  }

  /** Moving forward k months and back k months returns to the first of the starting month. */
  lemma ChangeMonthInverse(d: Date, k: int)
    requires Valid(d)
    ensures ChangeMonth(ChangeMonth(d, k), -k) == Date(d.year, d.month, 1)
  {
    var e := ChangeMonth(d, k);
    MonthStartOnIndex(e.year, e.month - k, d.year, d.month);
  }

  /** Moving k months then j months is moving k + j months. */
  lemma ChangeMonthCompose(d: Date, k: int, j: int)
    ensures ChangeMonth(ChangeMonth(d, k), j) == ChangeMonth(d, k + j)
  {
    var e := ChangeMonth(d, k);
    MonthStartOnIndex(e.year, e.month + j, d.year, d.month + k + j);
  }

  /** The number of leap years among 1..y (counting backwards below 1). */
  function LeapYearsThrough(y: int): int {
    y / 4 - y / 100 + y / 400
  }

  function DaysBeforeYear(y: int): int {
    365 * (y - 1970) + LeapYearsThrough(y - 1) - LeapYearsThrough(1969)
  }

  /** The days of the year before the first of month m. */
  function DaysBeforeMonth(y: int, m: int): int
    requires 0 <= m < 12
  {
    [0, 31, 59, 90, 120, 151, 181, 212, 243, 273, 304, 334][m] + (if m > 1 && IsLeap(y) then 1 else 0)
  }

  function DaysInYear(y: int): int {
    if IsLeap(y) then 366 else 365
  }

  /** The month table and the month lengths agree. */
  lemma DaysBeforeNextMonth(y: int, m: int)
    requires 0 <= m < 12
    ensures m < 11 ==> DaysBeforeMonth(y, m + 1) == DaysBeforeMonth(y, m) + DaysInMonth(y, m)
    ensures m == 11 ==> DaysInYear(y) == DaysBeforeMonth(y, m) + DaysInMonth(y, m)
  {
  }

  /** Days since 1 January 1970. */
  function DayNumber(d: Date): int
    requires 0 <= d.month < 12
  {
    DaysBeforeYear(d.year) + DaysBeforeMonth(d.year, d.month) + d.day - 1
  }

  /** `getDay()`: 0 = Sunday; 1 January 1970 was a Thursday. */
  function Weekday(d: Date): (w: int)
    requires 0 <= d.month < 12
    ensures 0 <= w < 7
  {
    (DayNumber(d) + 4) % 7
  }

  lemma LeapYearStep(y: int)
    ensures LeapYearsThrough(y) - LeapYearsThrough(y - 1) == if IsLeap(y) then 1 else 0
  {
    DivStep4(y);
    DivStep100(y);
    DivStep400(y);
  }

  lemma DivStep4(y: int)
    ensures y / 4 - (y - 1) / 4 == if y % 4 == 0 then 1 else 0
  {
  }

  lemma DivStep100(y: int)
    ensures y / 100 - (y - 1) / 100 == if y % 100 == 0 then 1 else 0
  {
  }

  lemma DivStep400(y: int)
    ensures y / 400 - (y - 1) / 400 == if y % 400 == 0 then 1 else 0
  {
  }

  /** A year after 1 January of year y comes 1 January of year y + 1. */
  lemma NextYearStart(y: int)
    ensures DaysBeforeYear(y + 1) == DaysBeforeYear(y) + DaysInYear(y)
  {
    LeapYearStep(y);
  }

  /** The first of the next month comes exactly one month-length after the first of this month. */
  lemma NextMonthStart(y: int, m: int)
    requires 0 <= m < 12
    ensures DayNumber(MonthStart(y, m + 1)) == DayNumber(Date(y, m, 1)) + DaysInMonth(y, m)
  {
    DaysBeforeNextMonth(y, m);
    if m == 11 {
      assert MonthStart(y, m + 1) == Date(y + 1, 0, 1);
      NextYearStart(y);
    } else {
      assert MonthStart(y, m + 1) == Date(y, m + 1, 1);
    }
  }

  /** A day before the first is counted from the first of the month before, one month-length earlier. */
  lemma MakeDateBackward(y: int, m: int, d: int, p: Date)
    requires d < 1 && p == MonthStart(MonthStart(y, m).year, MonthStart(y, m).month - 1)
    ensures MakeDate(y, m, d) == MakeDate(p.year, p.month, d + DaysInMonth(p.year, p.month))
    ensures DayNumber(MonthStart(y, m)) == DayNumber(MonthStart(p.year, p.month)) + DaysInMonth(p.year, p.month)
  {
    MonthStartOfValid(p);
    NextMonthStart(p.year, p.month);
    MonthStartOnIndex(p.year, p.month + 1, y, m);
  }

  /** A day past the last is counted from the first of the month after, one month-length later. */
  lemma MakeDateForward(y: int, m: int, d: int, s: Date)
    requires s == MonthStart(y, m) && d > DaysInMonth(s.year, s.month)
    ensures MakeDate(y, m, d) == MakeDate(s.year, s.month + 1, d - DaysInMonth(s.year, s.month))
    ensures DayNumber(MonthStart(s.year, s.month + 1)) == DayNumber(s) + DaysInMonth(s.year, s.month)
  {
    MonthStartOfValid(s);
    NextMonthStart(s.year, s.month);
  }

  /** `new Date(y, m, d)` is the day d - 1 days after the first of month m, whatever the range of d. */
  lemma {:induction false} MakeDateDayNumber(y: int, m: int, d: int)
    ensures DayNumber(MakeDate(y, m, d)) == DayNumber(MonthStart(y, m)) + d - 1
    decreases if d < 1 then 1 - d else 0, if d < 1 then 0 else d
  {
    var s := MonthStart(y, m);
    if d < 1 {
      var p := MonthStart(s.year, s.month - 1);
      MakeDateBackward(y, m, d, p);
      MakeDateDayNumber(p.year, p.month, d + DaysInMonth(p.year, p.month));
    } else if d > DaysInMonth(s.year, s.month) {
      MakeDateForward(y, m, d, s);
      MakeDateDayNumber(s.year, s.month + 1, d - DaysInMonth(s.year, s.month));
    } else {
      MonthStartOfValid(s);
      assert MakeDate(y, m, d) == Date(s.year, s.month, d);
    }
  }

  /** Consecutive arguments give consecutive weekdays: `new Date(y, m, d)` falls d - 1 days after the first. */
  lemma MakeDateWeekday(y: int, m: int, d: int)
    ensures Weekday(MakeDate(y, m, d)) == (Weekday(MonthStart(y, m)) + d - 1) % 7
  {
    MakeDateDayNumber(y, m, d);
    WeekShift(DayNumber(MonthStart(y, m)) + 4, d - 1);
  }

  lemma WeekShift(a: int, b: int)
    ensures (a % 7 + b) % 7 == (a + b) % 7
  {
    var q := a / 7;
    assert a == 7 * q + a % 7;
    assert a + b == 7 * q + (a % 7 + b);
  }
}

=== FILE: email_marketing.dfy ===
/**
 * The email-marketing section: a prompt form that asks the `generate-email` function for an
 * email, a list of saved emails (save, edit, delete), and a send form filled from a saved email
 * and posted to the `send-email` function.
 */
module EmailMarketing {
  import opened Wrappers
  import opened Lists
  import opened Text
  import SendEmail

  datatype EmailType = Business | Marketing | Storytelling | Personal | Newsletter
  datatype Tone = Formal | Casual | Inspirational | Professional
  datatype Length = Short | Medium | Long
  datatype Story = Story(core: string, emotion: string, lesson: string)

  datatype EmailPrompt = EmailPrompt(
    kind: EmailType, topic: string, audience: string, tone: Tone, length: Length,
    callToAction: Option<string>, story: Option<Story>)

  datatype EmailTemplate = EmailTemplate(id: int, subject: string, content: string, category: string, created: string, kind: EmailType)

  datatype SendForm = SendForm(to: string, subject: string, content: string, scheduledDate: string, scheduledTime: string)

  function TypeName(t: EmailType): string {
    match t
    case Business => "business"
    case Marketing => "marketing"
    case Storytelling => "storytelling"
    case Personal => "personal"
    case Newsletter => "newsletter"
  }

  function EmailId(e: EmailTemplate): int { e.id }

  /** The prompt the form starts with and returns to after a save. */
  const DefaultPrompt := EmailPrompt(Business, "", "", Professional, Medium, None, None)

  const EmptyForm := SendForm("", "", "", "", "")

  /** `handleUseTemplate`: no recipient yet, the saved subject and content, today's date at 09:00. */
  function TemplateForm(email: EmailTemplate, isoNow: string): (f: SendForm)
    ensures f.to == [] && f.subject == email.subject && f.content == email.content && f.scheduledTime == "09:00"
    ensures 'T' !in f.scheduledDate
  {
    SendForm("", email.subject, email.content, Split(isoNow, 'T')[0], "09:00")
  }

  /** The form's date is the date part of the ISO timestamp: everything before its 'T'. */
  lemma TemplateFormDate(email: EmailTemplate, date: string, time: string)
    requires 'T' !in date
    ensures TemplateForm(email, date + "T" + time).scheduledDate == date
  {
    SplitAtFirstSeparator(date, 'T', time);
    assert date + "T" + time == date + ['T'] + time;
  }

  /** The check before sending: a recipient, a subject and a content must all be typed. */
  predicate Incomplete(f: SendForm) {
    f.to == [] || f.subject == [] || f.content == []
  }

  /** The body posted to `send-email`: the recipients are the comma-split, trimmed pieces, empty ones kept. */
  function RequestOf(f: SendForm): (r: SendEmail.Request)
    ensures r.to == Some(SplitTrim(f.to)) && |r.to.value| >= 1
    ensures r.subject == Some(f.subject) && r.content == Some(f.content)
  {
    SendEmail.Request(Some(SplitTrim(f.to)), Some(f.subject), Some(f.content), Some(f.scheduledDate), Some(f.scheduledTime))
  }

  /** A form that passes the section's own check reaches the address check of `send-email`, and only that one can refuse it. */
  lemma FormCheckThenAddressCheck(f: SendForm)
    requires !Incomplete(f)
    ensures SendEmail.Validate(RequestOf(f)).Success?
            <==> forall i :: 0 <= i < |SplitTrim(f.to)| ==> SendEmail.ValidEmail(SplitTrim(f.to)[i])
  {
    var r := RequestOf(f);
    assert Truthy(r.subject) && Truthy(r.content);
  }

  /**
   * The recipient split keeps empty pieces, so an address list typed with a trailing comma sends an
   * empty recipient, which `send-email` refuses.
   */
  lemma TrailingCommaRefused(a: string, f: SendForm)
    requires ',' !in a && f.to == a + "," && f.subject != [] && f.content != []
    ensures SplitTrim(f.to) == [Trim(a), ""]
    ensures SendEmail.Validate(RequestOf(f)).Failure?
  {
    TrailingCommaSplit(a);
    assert !SendEmail.ValidEmail(SplitTrim(f.to)[1]);
    FormCheckThenAddressCheck(f);
  }

  /** A comma at the end leaves an empty last piece. */
  lemma TrailingCommaSplit(a: string)
    requires ',' !in a
    ensures SplitTrim(a + ",") == [Trim(a), ""]
  {
    TrailingSeparator(a, ',');
    TrimPair(a, []);
    assert SplitTrim(a + ",") == TrimAll([a, []]);
  }

  lemma TrimPair(x: string, y: string)
    ensures TrimAll([x, y]) == [Trim(x), Trim(y)]
    ensures Trim([]) == []
  {
    assert [x, y][1..] == [y];
    assert TrimStart([]) == [];
  }

  lemma TrailingSeparator(a: string, sep: char)
    requires sep !in a
    ensures Split(a + [sep], sep) == [a, []]
  {
    assert a + [sep] + [] == a + [sep];
    SplitAtFirstSeparator(a, sep, []);
    assert Split([], sep) == [[]];
  }

  class EmailMarketingSection {
    var prompt: EmailPrompt
    var error: Option<string>
    var generated: Option<EmailTemplate>
    var saved: seq<EmailTemplate>
    var editing: Option<EmailTemplate>
    var sendForm: SendForm
    var showSendModal: bool

    constructor()
      ensures prompt == DefaultPrompt && error == None && generated == None && saved == []
      ensures editing == None && sendForm == EmptyForm && !showSendModal
    {
      prompt := DefaultPrompt;
      error := None;
      generated := None;
      saved := [];
      editing := None;
      sendForm := EmptyForm;
      showSendModal := false;
    }

    /**
     * `generateEmail`: a blank topic only sets the error and asks nothing. Otherwise the function is
     * asked with the prompt; `reply` is its subject and content, or the message of what the call
     * threw: "Failed to generate email" for an answer that is not ok, the runtime's own message when
     * the request or the reading of the answer fails. That message becomes the error.
     */
    method GenerateEmail(reply: Result<(string, string)>, id: int, created: string) returns (requested: bool)
      modifies this`error, this`generated
      ensures requested <==> !Blank(old(prompt.topic))
      ensures !requested ==> error == Some("Please enter a topic for your email") && generated == old(generated)
      ensures requested && reply.Failure? ==> error == Some(reply.error) && generated == old(generated)
      ensures requested && reply.Success? ==>
                && error == None
                && generated == Some(EmailTemplate(id, reply.value.0, reply.value.1, TypeName(prompt.kind), created, prompt.kind))
    {
      var topic := NonBlank(prompt.topic);
      if topic.None? {
        error := Some("Please enter a topic for your email");
        return false;
      }
      requested := true;
      error := None;
      if reply.Failure? {
        error := Some(reply.error);
        return;
      }
      generated := Some(EmailTemplate(id, reply.value.0, reply.value.1, TypeName(prompt.kind), created, prompt.kind));
    }

    /** `handleSaveEmail`: the generated email goes first in the list and the prompt returns to its defaults; without one nothing changes. */
    method SaveEmail()
      modifies this`saved, this`generated, this`prompt
      ensures old(generated).None? ==> saved == old(saved) && generated == None && prompt == old(prompt)
      ensures old(generated).Some? ==> saved == [old(generated).value] + old(saved) && generated == None && prompt == DefaultPrompt
    {
      if generated.Some? {
        saved := [generated.value] + saved;
        generated := None;
        prompt := DefaultPrompt;
      }
    }

    /** `handleEditEmail`: the edited email replaces the saved ones with its id. */
    method EditEmail()
      modifies this`saved, this`editing
      ensures old(editing).None? ==> saved == old(saved) && editing == old(editing)
      ensures old(editing).Some? ==> saved == ReplaceById(old(saved), EmailId, old(editing).value) && editing == None
    {
      if editing.Some? {
        saved := ReplaceById(saved, EmailId, editing.value);
        editing := None;
      }
    }

    /** `handleDeleteEmail`: removes the saved emails with that id. */
    method DeleteEmail(id: int)
      modifies this`saved
      ensures saved == DeleteById(old(saved), EmailId, id)
    {
      saved := DeleteById(saved, EmailId, id);
    }

    /** `handleUseTemplate`: fills the send form from a saved email and opens it. */
    method UseTemplate(email: EmailTemplate, isoNow: string)
      modifies this`sendForm, this`showSendModal
      ensures sendForm == TemplateForm(email, isoNow) && showSendModal
    {
      sendForm := TemplateForm(email, isoNow);
      showSendModal := true;
    }

    /**
     * `handleSendEmail`: an incomplete form only sets the error. Otherwise the request is posted;
     * `thrown` is `None` when `send-email` answered with success, after which the form is emptied
     * and closed, and otherwise the message of what the call threw ("Failed to send email" for an
     * answer that is not ok, the runtime's own message for a failed request), which becomes the error.
     */
    method Send(thrown: Option<string>) returns (request: Option<SendEmail.Request>)
      modifies this`error, this`sendForm, this`showSendModal
      ensures Incomplete(old(sendForm)) ==>
                request == None && error == Some("Please fill in all required fields")
                && sendForm == old(sendForm) && showSendModal == old(showSendModal)
      ensures !Incomplete(old(sendForm)) ==> request == Some(RequestOf(old(sendForm)))
      ensures !Incomplete(old(sendForm)) && thrown.None? ==> error == None && sendForm == EmptyForm && !showSendModal
      ensures !Incomplete(old(sendForm)) && thrown.Some? ==>
                error == thrown && sendForm == old(sendForm) && showSendModal == old(showSendModal)
    {
      var form := sendForm;
      if Incomplete(form) {
        error := Some("Please fill in all required fields");
        return None;
      }
      request := Some(RequestOf(form));
      error := thrown;
      if thrown.None? {
        showSendModal := false;
        sendForm := EmptyForm;
      }
    }
  }

  /** Saving keeps the list's ids distinct as long as the generated email's id is new. */
  lemma SaveKeepsIdsUnique(saved: seq<EmailTemplate>, e: EmailTemplate)
    requires UniqueKeys(saved, EmailId) && !HasKey(saved, EmailId, e.id)
    ensures UniqueKeys([e] + saved, EmailId)
  {
    var r := [e] + saved;
    forall i, j | 0 <= i < j < |r| ensures r[i].id != r[j].id {
      assert r[j] == saved[j - 1];
      if i > 0 {
        assert r[i] == saved[i - 1];
      }
    }
  }
}

=== FILE: finance.dfy ===
/**
 * The financial tracker section: a transaction list with income, expense and net totals, and the
 * add (newest first), edit-save and delete handlers. Amounts are held in cents.
 */
module Finance {
  import opened Wrappers
  import opened Lists

  datatype Kind = Income | Expense
  datatype TransactionStatus = Completed | Pending | Recurring

  datatype Transaction = Transaction(
    id: int, kind: Kind, category: string, amount: int, date: string, description: string, status: TransactionStatus)

  /** The add form: a transaction without an id. */
  datatype TransactionForm = TransactionForm(
    kind: Kind, category: string, amount: int, date: string, description: string, status: TransactionStatus)

  function TransactionId(t: Transaction): int { t.id }
  function Amount(t: Transaction): int { t.amount }

  function OfKind(k: Kind): Transaction -> bool {
    (t: Transaction) => t.kind == k
  }

  /** The form as it starts and as it is reset: a completed income dated today. */
  function BlankForm(today: string): TransactionForm {
    TransactionForm(Income, "", 0, today, "", Completed)
  }

  /** `transactions.filter(t => t.type === kind).reduce((sum, t) => sum + t.amount, 0)` */
  function Total(ts: seq<Transaction>, k: Kind): int {
    Sum(Filter(ts, OfKind(k)), Amount)
  }

  function TotalIncome(ts: seq<Transaction>): int { Total(ts, Income) }
  function TotalExpenses(ts: seq<Transaction>): int { Total(ts, Expense) }

  /** `netIncome` */
  function NetIncome(ts: seq<Transaction>): int {
    TotalIncome(ts) - TotalExpenses(ts)
  }

  /** An independent reading of a total: every transaction counts its amount if it is of the kind, else nothing. */
  function AmountIf(k: Kind): Transaction -> int {
    (t: Transaction) => if t.kind == k then t.amount else 0
  }

  /** Filtering then summing is summing the amounts of the kind and zeros for the rest. */
  lemma {:induction false} TotalIsConditionalSum(ts: seq<Transaction>, k: Kind)
    ensures Total(ts, k) == Sum(ts, AmountIf(k))
  {
    if ts != [] {
      TotalIsConditionalSum(ts[1..], k);
      if ts[0].kind == k {
        assert Filter(ts, OfKind(k)) == [ts[0]] + Filter(ts[1..], OfKind(k));
        assert Filter(ts, OfKind(k))[1..] == Filter(ts[1..], OfKind(k));
      } else {
        assert Filter(ts, OfKind(k)) == Filter(ts[1..], OfKind(k));
      }
    }
  }

  /** Adding a transaction of one kind raises that kind's total by its amount and leaves the other total alone. */
  lemma AddMovesOneTotal(ts: seq<Transaction>, t: Transaction)
    ensures t.kind == Income ==> TotalIncome([t] + ts) == TotalIncome(ts) + t.amount && TotalExpenses([t] + ts) == TotalExpenses(ts)
    ensures t.kind == Expense ==> TotalExpenses([t] + ts) == TotalExpenses(ts) + t.amount && TotalIncome([t] + ts) == TotalIncome(ts)
    ensures t.kind == Income ==> NetIncome([t] + ts) == NetIncome(ts) + t.amount
    ensures t.kind == Expense ==> NetIncome([t] + ts) == NetIncome(ts) - t.amount
  {
    var r := [t] + ts;
    assert r[0] == t && r[1..] == ts;
    if t.kind == Income {
      assert Filter(r, OfKind(Income)) == [t] + Filter(ts, OfKind(Income));
      assert Filter(r, OfKind(Income))[1..] == Filter(ts, OfKind(Income));
      assert Filter(r, OfKind(Expense)) == Filter(ts, OfKind(Expense));
    } else {
      assert Filter(r, OfKind(Expense)) == [t] + Filter(ts, OfKind(Expense));
      assert Filter(r, OfKind(Expense))[1..] == Filter(ts, OfKind(Expense));
      assert Filter(r, OfKind(Income)) == Filter(ts, OfKind(Income));
    }
  }

  /** The add button is disabled without a category, a non-zero amount and a description. */
  predicate AddDisabled(form: TransactionForm) {
    form.category == [] || form.amount == 0 || form.description == []
  }

  function FromForm(id: int, form: TransactionForm): (t: Transaction)
    ensures t.id == id && t.kind == form.kind && t.category == form.category && t.amount == form.amount
    ensures t.date == form.date && t.description == form.description && t.status == form.status
  {
    Transaction(id, form.kind, form.category, form.amount, form.date, form.description, form.status)
  }

  /** `Math.max(...transactions.map(t => t.id)) + 1`, with no guard for an empty list. */
  function NewIdAsWritten(ts: seq<Transaction>): JsNumber {
    NextIdAsWritten(AsNumbers(Keys(ts, TransactionId)))
  }

  /** After the last transaction is deleted, the next one is added under the id `-Infinity`. */
  lemma NewIdAsWrittenFailsWhenEmpty(ts: seq<Transaction>)
    ensures ts == [] ==> NewIdAsWritten(ts) == NegInfinity
    ensures ts != [] ==> NewIdAsWritten(ts) == Finite(NextId(Keys(ts, TransactionId)))
  {
    NextIdAsWrittenOnEmpty();
    if ts != [] {
      NextIdAsWrittenAgrees(Keys(ts, TransactionId));
    }
  }

  class FinancialTracker {
    var transactions: seq<Transaction>
    var form: TransactionForm
    var selected: Option<Transaction>

    constructor(initial: seq<Transaction>, today: string)
      ensures transactions == initial && form == BlankForm(today) && selected == None
    {
      transactions := initial;
      form := BlankForm(today);
      selected := None;
    }

    /**
     * `handleAddTransaction`, with the empty-list guard the expression lacks: puts the form first
     * in the list under an id above every id in use, and resets the form.
     */
    method AddTransaction(today: string)
      modifies this`transactions, this`form
      ensures transactions == [FromForm(NextId(Keys(old(transactions), TransactionId)), old(form))] + old(transactions)
      ensures UniqueKeys(old(transactions), TransactionId) ==> UniqueKeys(transactions, TransactionId)
      ensures form == BlankForm(today)
    {
      var t := FromForm(NextId(Keys(transactions, TransactionId)), form);
      if UniqueKeys(transactions, TransactionId) {
        NextIdKeepsKeysUnique(transactions, TransactionId, t);
      }
      transactions := [t] + transactions;
      form := BlankForm(today);
    }

    /** `handleEditTransaction`: the selected transaction replaces the one with its id; without one it does nothing. */
    method EditTransaction()
      modifies this`transactions, this`selected
      ensures old(selected).None? ==> transactions == old(transactions) && selected == None
      ensures old(selected).Some? ==> transactions == ReplaceById(old(transactions), TransactionId, old(selected).value) && selected == None
    {
      if selected.Some? {
        transactions := ReplaceById(transactions, TransactionId, selected.value);
        selected := None;
      }
    }

    /** `handleDeleteTransaction` */
    method DeleteTransaction(id: int)
      modifies this`transactions
      ensures transactions == DeleteById(old(transactions), TransactionId, id)
    {
      transactions := DeleteById(transactions, TransactionId, id);
    }
  }
}

=== FILE: generate_email.dfy ===
/**
 * The `generate-email` edge function: it checks that the prompt names a topic, picks one of five
 * fixed email templates by the prompt's type (business when the type is unknown), and fills the
 * topic, the audience, the tone's greeting, the call to action and the story parts into it.
 */
module GenerateEmail {
  import opened Wrappers
  import opened Text
  import EmailMarketing

  /** The optional story parts; a part that is missing or not a string is `None`. */
  datatype Story = Story(core: Option<string>, emotion: Option<string>, lesson: Option<string>)

  /**
   * The request body. Every field may be missing; a `topic` that is not a string is `None` too.
   * The body's `length` is never read and is not carried.
   */
  datatype EmailPrompt = EmailPrompt(
    kind: Option<string>, topic: Option<string>, audience: Option<string>, tone: Option<string>,
    callToAction: Option<string>, story: Option<Story>)

  datatype Email = Email(subject: string, content: string)

  datatype EmailKind = Business | Marketing | Storytelling | Personal | Newsletter

  /** The `switch (prompt.type)`: the four named types, and business for anything else or nothing. */
  function KindOf(kind: Option<string>): (k: EmailKind)
    ensures k == Marketing <==> kind == Some("marketing")
    ensures k == Storytelling <==> kind == Some("storytelling")
    ensures k == Personal <==> kind == Some("personal")
    ensures k == Newsletter <==> kind == Some("newsletter")
  {
    if kind == Some("marketing") then Marketing
    else if kind == Some("storytelling") then Storytelling
    else if kind == Some("personal") then Personal
    else if kind == Some("newsletter") then Newsletter
    else Business
  }

  /** The business greeting: 'formal' and 'casual' have their own, every other tone gets "Hello". */
  function Greeting(tone: Option<string>): (g: string)
    ensures g == "Dear valued colleague" <==> tone == Some("formal")
    ensures g == "Hi there" <==> tone == Some("casual")
    ensures g == "Hello" <==> tone != Some("formal") && tone != Some("casual")
  {
    if tone == Some("formal") then "Dear valued colleague"
    else if tone == Some("casual") then "Hi there"
    else "Hello"
  }

  // The fixed text between the placeholders of each template.
  const BUSINESS_OPENING := "\n\nI trust this email finds you well. I am writing to provide a comprehensive update regarding "
  const BUSINESS_POINTS := ".\n\nAs we continue to evolve and adapt in our dynamic business environment, it's crucial that we address several key aspects of this matter:\n\n1. Current Situation\n   - We've carefully analyzed the current landscape\n   - Our team has identified significant opportunities\n   - Key stakeholders have provided valuable input\n\n2. Strategic Implications\n   - This initiative aligns perfectly with our long-term objectives\n   - We've observed substantial potential for growth and innovation\n   - The timing is optimal for implementation\n\n3. Proposed Action Steps\n   - Immediate implementation of core components\n   - Systematic rollout across all departments\n   - Regular monitoring and adjustment of strategies\n\n4. Expected Outcomes\n   - Enhanced operational efficiency\n   - Improved stakeholder satisfaction\n   - Measurable impact on key performance indicators\n\n"
  const BUSINESS_CLOSING := "\n\nI would greatly appreciate your thoughts on this matter. Please don't hesitate to reach out if you need any clarification or have suggestions to share.\n\nLooking forward to our continued collaboration.\n\nBest regards,\n[Your Name]\n[Your Position]\n[Contact Information]\n\nP.S. I've attached detailed documentation for your reference. Please review at your earliest convenience."
  const MARKETING_OPENING := "\n\nAre you ready to revolutionize your approach to "
  const MARKETING_OFFER := "?\n\n\U{1F680} Introducing a Game-Changing Opportunity\n\nImagine having the power to:\n\U{2728} Transform your results overnight\n\U{2728} Achieve unprecedented success\n\U{2728} Stand out from the competition\n\nHere's What Makes This Special:\n\n1. Unmatched Value\n   \U{2022} Premium features designed for your success\n   \U{2022} Exclusive bonuses worth over $1,000\n   \U{2022} Limited-time special pricing\n\n2. Real Results\n   \U{2022} 95% satisfaction rate\n   \U{2022} Proven track record of success\n   \U{2022} Testimonials from industry leaders\n\n3. Expert Support\n   \U{2022} 24/7 dedicated assistance\n   \U{2022} Personalized strategy sessions\n   \U{2022} Regular updates and improvements\n\nBut Don't Just Take Our Word For It...\n\n\"This completely transformed our business...\" - Sarah Johnson, CEO\n\"The results exceeded our expectations...\" - Michael Chen, Director\n\"A game-changer for our team...\" - Emily Rodriguez, Manager\n\n\U{1F381} Special Bonus Offer:\nAct now and receive:\n\U{2022} Exclusive strategy guide ($297 value)\n\U{2022} Private consultation session ($500 value)\n\U{2022} Priority support access ($200 value)\n\n"
  const MARKETING_CLOSING := "\n\n\U{23F0} Limited Time Offer:\nThis exclusive opportunity is only available for the next 48 hours!\n\nP.S. Don't miss out on this transformative opportunity. Your success story begins here!\n\nBest regards,\n[Your Name]\n[Company Name]\n\n---\nTo unsubscribe, click here\n[Company Address]"
  const STORY_OPENING := "\n\nI want to share a story that I believe will resonate deeply with you...\n\n"
  const CORE_BEFORE := "It was a typical Tuesday morning when everything changed. The sun had barely risen over the horizon, casting long shadows across "
  const CORE_AFTER := ". Little did I know, this day would transform my entire perspective."
  const STORY_JOURNEY := "\n\nThe Journey Begins...\n\nPicture this:\n\U{2022} The anticipation building in the air\n\U{2022} A moment of truth approaching\n\U{2022} The unexpected twist that changed everything\n\n"
  const EMOTION_FALLBACK := "The air was thick with possibility. Every step forward felt like walking through history in the making. Hearts racing, minds focused, we knew this was more than just another day."
  const STORY_TURN := "\n\nThe Turning Point:\n\nWhat happened next was extraordinary. In that pivotal moment:\n1. Reality shifted\n2. Perspectives transformed\n3. New possibilities emerged\n\nThe Revelation:\n\n"
  const LESSON_BEFORE := "Sometimes, the most profound lessons come from the most unexpected places. This experience taught us that "
  const LESSON_AFTER := " isn't just about the destination \U{2013} it's about the journey, the growth, and the transformation along the way."
  const STORY_CLOSING := "\n\nKey Takeaways:\n\n1. Trust the Process\n   - Every challenge has its purpose\n   - Growth comes from embracing uncertainty\n   - Success leaves clues\n\n2. Embrace Change\n   - Adaptation leads to innovation\n   - Comfort zones limit potential\n   - Progress requires courage\n\n3. Create Impact\n   - Small actions create ripples\n   - Authenticity resonates\n   - Legacy matters\n\nLooking Forward:\n\nThis story isn't just about the past \U{2013} it's about the future we're creating together. Every day brings new opportunities to write our own chapters, to make our own impact.\n\nWhat's Your Story?\n\nI'd love to hear how this resonates with you. What chapter are you writing in your journey?\n\nWith gratitude and anticipation,\n[Your Name]\n\nP.S. Sometimes the best stories are the ones we create together. Let's write the next chapter."
  const PERSONAL_OPENING := "Dear friend,\n\nI hope this message finds you well. I've been thinking about you and wanted to share something personal that's been on my mind regarding "
  const PERSONAL_BODY := ".\n\nThe Past Few Months...\n\nIt's amazing how life has a way of surprising us, teaching us, and helping us grow. Here's what's been happening:\n\n\U{2022} The Unexpected Journey\n  - Discovering new perspectives\n  - Embracing change\n  - Finding strength in vulnerability\n\n\U{2022} Valuable Lessons\n  - The importance of authenticity\n  - The power of connection\n  - The beauty of growth\n\n\U{2022} Looking Forward\n  - Exciting new possibilities\n  - Fresh perspectives\n  - Stronger relationships\n\nWhat This Means...\n\nThis experience has taught me so much about:\n1. The value of true friendship\n2. The importance of staying connected\n3. The power of sharing our stories\n\nI'd love to hear your thoughts and catch up soon. Perhaps we could:\n\U{2022} Schedule a video call\n\U{2022} Meet for coffee\n\U{2022} Plan a weekend get-together\n\nYour friendship means the world to me, and I'm grateful for the opportunity to share this with you.\n\nLooking forward to hearing from you!\n\nWith warmth and appreciation,\n[Your Name]\n\nP.S. Let's not let too much time pass before we connect again."
  const NEWSLETTER_OPENING := "Dear Valued Subscriber,\n\nWelcome to your exclusive monthly update on "
  const NEWSLETTER_BODY := ". We've curated the most important insights, trends, and opportunities just for you.\n\n\U{1F31F} This Month's Highlights\n\n1. Breaking News\n   \U{2022} Industry-shaking developments\n   \U{2022} Expert analysis and insights\n   \U{2022} Future predictions and trends\n\n2. Deep Dive: Industry Trends\n   \U{2022} Market analysis and predictions\n   \U{2022} Emerging opportunities\n   \U{2022} Expert interviews and insights\n\n3. Success Stories\n   \U{2022} Case studies from industry leaders\n   \U{2022} Breakthrough achievements\n   \U{2022} Lessons learned and best practices\n\n4. Professional Development\n   \U{2022} Upcoming workshops and webinars\n   \U{2022} Skill-building opportunities\n   \U{2022} Networking events\n\n5. Resources & Tools\n   \U{2022} New technology releases\n   \U{2022} Productivity enhancers\n   \U{2022} Must-read articles and books\n\n\U{1F3AF} Action Items for Success\n\U{2022} Implement key learnings\n\U{2022} Connect with industry peers\n\U{2022} Stay ahead of trends\n\n\U{1F4CA} Market Insights\n\U{2022} Current market analysis\n\U{2022} Future predictions\n\U{2022} Investment opportunities\n\n\U{1F4A1} Pro Tips\n1. Maximize your potential\n2. Stay ahead of competition\n3. Optimize your strategy\n\n\U{1F4C5} Upcoming Events\n\U{2022} Virtual conferences\n\U{2022} Networking sessions\n\U{2022} Training workshops\n\n\U{1F50D} Featured Resources\n\U{2022} Downloadable guides\n\U{2022} Video tutorials\n\U{2022} Expert interviews\n\nThank you for being part of our community. Your growth and success are our priority.\n\nBest regards,\n[Your Name]\n[Publication Name]\n\n---\nCurated with \U{2764}\U{FE0F} for our valued subscribers\nTo update your preferences or unsubscribe, click here"

  const DEFAULT_CTA := "Click Here to Get Started Now! \U{2192}"

  /** The business line for a call to action; nothing at all when there is none. */
  function NextSteps(cta: Option<string>): string {
    if Truthy(cta) then "\n" + ("Next Steps: " + cta.value) + "\n" else ""
  }

  /** The marketing call to action, or the stock button text. */
  function MarketingCta(cta: Option<string>): string {
    "\n" + (if Truthy(cta) then cta.value else DEFAULT_CTA) + "\n"
  }

  /** `prompt.story?.<part> || fallback` */
  function StoryPart(part: Option<string>, fallback: string): string {
    if Truthy(part) then part.value else fallback
  }

  function Core(story: Option<Story>): Option<string> {
    if story.Some? then story.value.core else None
  }

  function Emotion(story: Option<Story>): Option<string> {
    if story.Some? then story.value.emotion else None
  }

  function Lesson(story: Option<Story>): Option<string> {
    if story.Some? then story.value.lesson else None
  }

  function CoreFallback(topic: string): string {
    CORE_BEFORE + topic + CORE_AFTER
  }

  function LessonFallback(topic: string): string {
    LESSON_BEFORE + topic + LESSON_AFTER
  }

  function BusinessEmail(topic: string, p: EmailPrompt): Email {
    Email("Important: " + topic + " - Professional Update and Next Steps",
          Greeting(p.tone) + "," + BUSINESS_OPENING + topic + BUSINESS_POINTS + NextSteps(p.callToAction) + BUSINESS_CLOSING)
  }

  function MarketingEmail(topic: string, p: EmailPrompt): Email {
    Email("\U{1F31F} Exclusive: Transform Your " + topic + " Experience Today!",
          "Dear " + JsText(p.audience) + "," + MARKETING_OPENING + topic + MARKETING_OFFER + MarketingCta(p.callToAction) + MARKETING_CLOSING)
  }

  function StoryEmail(topic: string, p: EmailPrompt): Email {
    Email("A Powerful Story: How " + topic + " Changed Everything",
          "Dear " + JsText(p.audience) + "," + STORY_OPENING
          + StoryPart(Core(p.story), CoreFallback(topic)) + STORY_JOURNEY
          + StoryPart(Emotion(p.story), EMOTION_FALLBACK) + STORY_TURN
          + StoryPart(Lesson(p.story), LessonFallback(topic)) + STORY_CLOSING)
  }

  function PersonalEmail(topic: string): Email {
    Email("Personal Update: A Journey Through " + topic, PERSONAL_OPENING + topic + PERSONAL_BODY)
  }

  function NewsletterEmail(topic: string): Email {
    Email("\U{1F4F0} " + topic + " - Your Monthly Insider Update", NEWSLETTER_OPENING + topic + NEWSLETTER_BODY)
  }

  /** The email of the chosen template for a topic. */
  function Compose(k: EmailKind, topic: string, p: EmailPrompt): Email {
    match k
    case Business => BusinessEmail(topic, p)
    case Marketing => MarketingEmail(topic, p)
    case Storytelling => StoryEmail(topic, p)
    case Personal => PersonalEmail(topic)
    case Newsletter => NewsletterEmail(topic)
  }

  /** Every subject names the topic. */
  lemma SubjectNamesTopic(k: EmailKind, topic: string, p: EmailPrompt)
    ensures Contains(Compose(k, topic, p).subject, topic)
  {
    match k
    case Business => Embeds("Important: ", topic, " - Professional Update and Next Steps");
    case Marketing => Embeds("\U{1F31F} Exclusive: Transform Your ", topic, " Experience Today!");
    case Storytelling => Embeds("A Powerful Story: How ", topic, " Changed Everything");
    case Personal =>
      Embeds("Personal Update: A Journey Through ", topic, "");
      assert "Personal Update: A Journey Through " + topic + "" == PersonalEmail(topic).subject;
    case Newsletter => Embeds("\U{1F4F0} ", topic, " - Your Monthly Insider Update");
  }

  datatype EmailResponse = Preflight | Generated(email: Email) | BadRequest(error: string) | ServerError(error: string)

  const INVALID_PROMPT := "Invalid prompt provided"
  const GENERATION_FAILED := "Internal server error while generating email"

  /**
   * The handler. OPTIONS gets the CORS headers with 204; a body that does not parse is a 500; a
   * null body, or a topic that is missing, not a string or empty, is a 400; anything else is the
   * email of the template its type picks.
   */
  function Handle(isOptions: bool, body: Result<Option<EmailPrompt>>): (r: EmailResponse)
    ensures isOptions ==> r == Preflight
    ensures !isOptions && body.Failure? ==> r == ServerError(GENERATION_FAILED)
    ensures !isOptions && body.Success? && (body.value.None? || !Truthy(body.value.value.topic)) ==> r == BadRequest(INVALID_PROMPT)
    ensures r.Generated? <==> !isOptions && body.Success? && body.value.Some? && Truthy(body.value.value.topic)
    ensures r.Generated? ==> Contains(r.email.subject, body.value.value.topic.value)
  {
    if isOptions then Preflight
    else if body.Failure? then ServerError(GENERATION_FAILED)
    else if body.value.None? || !Truthy(body.value.value.topic) then BadRequest(INVALID_PROMPT)
    else
      var p := body.value.value;
      SubjectNamesTopic(KindOf(p.kind), p.topic.value, p);
      Generated(Compose(KindOf(p.kind), p.topic.value, p))
  }

  /** A prompt with a topic is answered with the email of the template its type picks. */
  lemma Answered(p: EmailPrompt)
    requires Truthy(p.topic)
    ensures Handle(false, Success(Some(p))) == Generated(Compose(KindOf(p.kind), p.topic.value, p))
  {
  }

  /** A type that is none of the four named ones is answered exactly as 'business' is. */
  lemma UnknownTypeIsBusiness(p: EmailPrompt)
    requires p.kind !in {Some("marketing"), Some("storytelling"), Some("personal"), Some("newsletter")}
    ensures Handle(false, Success(Some(p))) == Handle(false, Success(Some(p.(kind := Some("business")))))
  {
    var q := p.(kind := Some("business"));
    assert KindOf(p.kind) == KindOf(q.kind) == Business;
    assert q.topic == p.topic && q.tone == p.tone && q.callToAction == p.callToAction;
  }

  /** The business email opens with the tone's greeting. */
  lemma BusinessGreets(topic: string, p: EmailPrompt)
    ensures StartsWith(BusinessEmail(topic, p).content, Greeting(p.tone) + ",")
  {
    var g := Greeting(p.tone) + ",";
    Extends(g, BUSINESS_OPENING, g);
    Extends(g + BUSINESS_OPENING, topic, g);
    Extends(g + BUSINESS_OPENING + topic, BUSINESS_POINTS, g);
    Extends(g + BUSINESS_OPENING + topic + BUSINESS_POINTS, NextSteps(p.callToAction), g);
    Extends(g + BUSINESS_OPENING + topic + BUSINESS_POINTS + NextSteps(p.callToAction), BUSINESS_CLOSING, g);
  }

  /** The marketing and story emails open by addressing the audience, printed "undefined" when it is missing. */
  lemma AudienceAddressed(topic: string, p: EmailPrompt)
    ensures StartsWith(MarketingEmail(topic, p).content, "Dear " + JsText(p.audience) + ",")
    ensures StartsWith(StoryEmail(topic, p).content, "Dear " + JsText(p.audience) + ",")
  {
    var g := "Dear " + JsText(p.audience) + ",";
    Extends(g, MARKETING_OPENING, g);
    Extends(g + MARKETING_OPENING, topic, g);
    Extends(g + MARKETING_OPENING + topic, MARKETING_OFFER, g);
    Extends(g + MARKETING_OPENING + topic + MARKETING_OFFER, MarketingCta(p.callToAction), g);
    Extends(g + MARKETING_OPENING + topic + MARKETING_OFFER + MarketingCta(p.callToAction), MARKETING_CLOSING, g);
    var core := StoryPart(Core(p.story), CoreFallback(topic));
    var emotion := StoryPart(Emotion(p.story), EMOTION_FALLBACK);
    var lesson := StoryPart(Lesson(p.story), LessonFallback(topic));
    Extends(g, STORY_OPENING, g);
    Extends(g + STORY_OPENING, core, g);
    Extends(g + STORY_OPENING + core, STORY_JOURNEY, g);
    Extends(g + STORY_OPENING + core + STORY_JOURNEY, emotion, g);
    Extends(g + STORY_OPENING + core + STORY_JOURNEY + emotion, STORY_TURN, g);
    Extends(g + STORY_OPENING + core + STORY_JOURNEY + emotion + STORY_TURN, lesson, g);
    Extends(g + STORY_OPENING + core + STORY_JOURNEY + emotion + STORY_TURN + lesson, STORY_CLOSING, g);
  }

  /**
   * A call to action, when given, appears in the business email as "Next Steps: ..." and in the
   * marketing email as is; without one the business email has no such line at all and the
   * marketing email shows the stock button text.
   */
  lemma CallToActionShown(topic: string, p: EmailPrompt)
    ensures Truthy(p.callToAction) ==> Contains(BusinessEmail(topic, p).content, "Next Steps: " + p.callToAction.value)
    ensures Truthy(p.callToAction) ==> Contains(MarketingEmail(topic, p).content, p.callToAction.value)
    ensures !Truthy(p.callToAction) ==> BusinessEmail(topic, p) == BusinessEmail(topic, p.(callToAction := None))
    ensures !Truthy(p.callToAction) ==> Contains(MarketingEmail(topic, p).content, DEFAULT_CTA)
  {
    var b := Greeting(p.tone) + "," + BUSINESS_OPENING + topic + BUSINESS_POINTS;
    var m := "Dear " + JsText(p.audience) + "," + MARKETING_OPENING + topic + MARKETING_OFFER;
    var action := if Truthy(p.callToAction) then p.callToAction.value else DEFAULT_CTA;
    Embeds("\n", action, "\n");
    ContainsPrepend(m, MarketingCta(p.callToAction), action);
    ContainsAppend(m + MarketingCta(p.callToAction), MARKETING_CLOSING, action);
    if Truthy(p.callToAction) {
      var line := "Next Steps: " + p.callToAction.value;
      Embeds("\n", line, "\n");
      ContainsPrepend(b, NextSteps(p.callToAction), line);
      ContainsAppend(b + NextSteps(p.callToAction), BUSINESS_CLOSING, line);
    }
  }

  /** Each story part the prompt gives is told; each one it leaves out is replaced by the stock paragraph. */
  lemma StoryPartsTold(topic: string, p: EmailPrompt)
    ensures Contains(StoryEmail(topic, p).content, if Truthy(Core(p.story)) then Core(p.story).value else CoreFallback(topic))
    ensures Contains(StoryEmail(topic, p).content, if Truthy(Emotion(p.story)) then Emotion(p.story).value else EMOTION_FALLBACK)
    ensures Contains(StoryEmail(topic, p).content, if Truthy(Lesson(p.story)) then Lesson(p.story).value else LessonFallback(topic))
  {
    var g := "Dear " + JsText(p.audience) + "," + STORY_OPENING;
    var core := StoryPart(Core(p.story), CoreFallback(topic));
    var emotion := StoryPart(Emotion(p.story), EMOTION_FALLBACK);
    var lesson := StoryPart(Lesson(p.story), LessonFallback(topic));
    var c1 := g + core + STORY_JOURNEY;
    var c2 := c1 + emotion + STORY_TURN;
    var c3 := c2 + lesson + STORY_CLOSING;
    Embeds(g, core, STORY_JOURNEY);
    Embeds(c1, emotion, STORY_TURN);
    Embeds(c2, lesson, STORY_CLOSING);
    ContainsAppend(c1, emotion, core);
    ContainsAppend(c1 + emotion, STORY_TURN, core);
    ContainsAppend(c2, lesson, core);
    ContainsAppend(c2, lesson, emotion);
    ContainsAppend(c2 + lesson, STORY_CLOSING, core);
    ContainsAppend(c2 + lesson, STORY_CLOSING, emotion);
  }

  /**
   * The content names the topic, except in a story whose opening and lesson both come from the
   * prompt: only the stock story paragraphs mention it.
   */
  lemma ContentNamesTopic(k: EmailKind, topic: string, p: EmailPrompt)
    requires k == Storytelling ==> !Truthy(Core(p.story)) || !Truthy(Lesson(p.story))
    ensures Contains(Compose(k, topic, p).content, topic)
  {
    match k
    case Business => BusinessNamesTopic(topic, p);
    case Marketing => MarketingNamesTopic(topic, p);
    case Storytelling => StoryNamesTopic(topic, p);
    case Personal => Embeds(PERSONAL_OPENING, topic, PERSONAL_BODY);
    case Newsletter => Embeds(NEWSLETTER_OPENING, topic, NEWSLETTER_BODY);
  }

  lemma BusinessNamesTopic(topic: string, p: EmailPrompt)
    ensures Contains(BusinessEmail(topic, p).content, topic)
  {
    var a := Greeting(p.tone) + "," + BUSINESS_OPENING;
    Embeds(a, topic, BUSINESS_POINTS);
    ContainsAppend(a + topic + BUSINESS_POINTS, NextSteps(p.callToAction), topic);
    ContainsAppend(a + topic + BUSINESS_POINTS + NextSteps(p.callToAction), BUSINESS_CLOSING, topic);
  }

  lemma MarketingNamesTopic(topic: string, p: EmailPrompt)
    ensures Contains(MarketingEmail(topic, p).content, topic)
  {
    var a := "Dear " + JsText(p.audience) + "," + MARKETING_OPENING;
    Embeds(a, topic, MARKETING_OFFER);
    ContainsAppend(a + topic + MARKETING_OFFER, MarketingCta(p.callToAction), topic);
    ContainsAppend(a + topic + MARKETING_OFFER + MarketingCta(p.callToAction), MARKETING_CLOSING, topic);
  }

  lemma StoryNamesTopic(topic: string, p: EmailPrompt)
    requires !Truthy(Core(p.story)) || !Truthy(Lesson(p.story))
    ensures Contains(StoryEmail(topic, p).content, topic)
  {
    var content := StoryEmail(topic, p).content;
    StoryPartsTold(topic, p);
    if !Truthy(Core(p.story)) {
      assert Contains(content, CoreFallback(topic));
      Embeds(CORE_BEFORE, topic, CORE_AFTER);
      Inside(content, CoreFallback(topic), topic);
    } else {
      assert Contains(content, LessonFallback(topic));
      Embeds(LESSON_BEFORE, topic, LESSON_AFTER);
      Inside(content, LessonFallback(topic), topic);
    }
  }

  /** Containment is transitive. */
  lemma Inside(s: string, mid: string, sub: string)
    requires Contains(s, mid) && Contains(mid, sub)
    ensures Contains(s, sub)
  {
    var i :| 0 <= i <= |s| && StartsWith(s[i..], mid);
    var j :| 0 <= j <= |mid| && StartsWith(mid[j..], sub);
    forall k | 0 <= k < |sub| ensures s[i + j + k] == sub[k] {
      assert mid[j..][..|sub|][k] == sub[k];
      assert s[i..][..|mid|][j + k] == mid[j + k];
    }
    assert s[i + j..][..|sub|] == sub;
  }

  /** The personal and newsletter emails depend on the topic alone. */
  lemma OnlyTopicShapes(topic: string, p: EmailPrompt, q: EmailPrompt)
    ensures Compose(Personal, topic, p) == Compose(Personal, topic, q)
    ensures Compose(Newsletter, topic, p) == Compose(Newsletter, topic, q)
  {
  }

  /** `JSON.stringify(emailPrompt)` from the email-marketing section, as the function reads it back. */
  function BodyOf(p: EmailMarketing.EmailPrompt): (b: EmailPrompt)
    ensures b.topic == Some(p.topic) && b.audience == Some(p.audience) && b.callToAction == p.callToAction
    ensures b.kind == Some(EmailMarketing.TypeName(p.kind))
  {
    var tone := match p.tone
      case Formal => "formal"
      case Casual => "casual"
      case Inspirational => "inspirational"
      case Professional => "professional";
    var story := if p.story.None? then None
                 else Some(Story(Some(p.story.value.core), Some(p.story.value.emotion), Some(p.story.value.lesson)));
    EmailPrompt(Some(EmailMarketing.TypeName(p.kind)), Some(p.topic), Some(p.audience), Some(tone), p.callToAction, story)
  }

  /** The template the section's type selects: each of the five types names its own. */
  function KindFor(t: EmailMarketing.EmailType): EmailKind {
    match t
    case Business => Business
    case Marketing => Marketing
    case Storytelling => Storytelling
    case Personal => Personal
    case Newsletter => Newsletter
  }

  /**
   * A prompt the section lets through (its topic is not blank) is never refused by the function,
   * and the template is picked by the type chosen in the section.
   */
  lemma SectionPromptAccepted(p: EmailMarketing.EmailPrompt)
    requires !Blank(p.topic)
    ensures Handle(false, Success(Some(BodyOf(p)))).Generated?
    ensures KindOf(BodyOf(p).kind) == KindFor(p.kind)
  {
    NotBlankIsNonEmpty(p.topic);
    TopicSent(p);
  }

  lemma TopicSent(p: EmailMarketing.EmailPrompt)
    requires p.topic != []
    ensures Handle(false, Success(Some(BodyOf(p)))).Generated?
    ensures KindOf(BodyOf(p).kind) == KindFor(p.kind)
  {
  }
}

=== FILE: generate_ideas.dfy ===
/**
 * The `generate-ideas` edge function: without a selected idea it answers five post ideas built
 * around the prompt; with one it answers a post for each of the four platforms. Both are chosen
 * by the voice: 'humorous', 'casual', or anything else (the professional texts).
 */
module GenerateIdeas {
  import opened Wrappers
  import opened Text

  datatype SocialPost = SocialPost(content: string, hashtags: Option<seq<string>>, imagePrompt: Option<string>, callToAction: Option<string>)
  datatype PlatformContent = PlatformContent(twitter: SocialPost, facebook: SocialPost, instagram: SocialPost, linkedin: SocialPost)
  datatype Platform = Twitter | Facebook | Instagram | Linkedin

  /** `platformContent[platform]` */
  function PostFor(pc: PlatformContent, platform: Platform): SocialPost {
    match platform
    case Twitter => pc.twitter
    case Facebook => pc.facebook
    case Instagram => pc.instagram
    case Linkedin => pc.linkedin
  }

  datatype Voice = Humorous | Casual | Professional

  /** The voice a request asks for: missing means 'professional', and any unknown name reads as professional too. */
  function VoiceOf(voice: Option<string>): (v: Voice)
    ensures voice.None? ==> v == Professional
    ensures v == Humorous <==> voice == Some("humorous")
    ensures v == Casual <==> voice == Some("casual")
  {
    var name := voice.GetOr("professional");
    if name == "humorous" then Humorous else if name == "casual" then Casual else Professional
  }

  /** The five ideas for a prompt, by voice. */
  function Ideas(v: Voice, p: string): (ideas: seq<string>)
    ensures |ideas| == 5
  {
    match v
    case Humorous => [
      "Why " + p + " deserve an Oscar for \"Best Drama Queen\" during bath time \U{1F6C1}",
      "Breaking News: " + p + " discovers belly rubs are the secret to world peace! \U{1F30D}",
      "The secret life of " + p + ": When humans aren't looking \U{1F440}",
      "If " + p + " wrote a self-help book: \"How to Train Your Human\" \U{1F4DA}",
      "Confessions of a " + p + ": \"I only pretend to not know where the treats are!\" \U{1F9B4}"]
    case Casual => [
      "Just another day with " + p + " - pure joy! \U{1F43E}",
      "The best thing about " + p + "? Everything! \U{2764}\U{FE0F}",
      "Life lessons from " + p + " - keeping it real",
      "Weekend adventures with " + p,
      p + " being their adorable self again!"]
    case Professional => [
      "The joy of sharing life with " + p,
      "Creating precious moments with " + p,
      "Understanding the unique personality of " + p,
      "Daily adventures: Life with " + p,
      "Building lasting bonds with " + p]
  }

  function HumorousContent(p: string): PlatformContent {
    PlatformContent(
      SocialPost("\U{1F415} Breaking Pup News: Local dog discovers " + p + " is actually just an excuse for more belly rubs!\n\nSources say tail wagging increased by 1000%! No complaints filed... except for the cat \U{1F638}\n\nWho else's furry friend is living their best life? \U{1F9AE}",
                 Some(["#DogLife", "#PawsomeMoments", "#HappyPups", "#DogsOfTwitter"]), None, None),
      SocialPost("\U{1F43E} ATTENTION: This is not a drill! " + p + " just broke the cuteness meter!\n\n\U{1F9B4} Side effects include:\n\U{2022} Uncontrollable \"awwwws\"\n\U{2022} Excessive treat giving\n\U{2022} Spontaneous belly rub sessions\n\U{2022} Chronic happiness\n\nWarning: May cause extreme joy and random happy dances with your fur baby! \U{1F415}",
                 None, Some("Happy dog playing with toys and smiling"), None),
      SocialPost("\U{1F31F} When your " + p + " game is so strong, even the mailman stops to play!\n\n\U{1F3AF} Pro tip: If your dog isn't giving you the \"best human ever\" look, you're doing it wrong!\n\nSwipe for more pawsome moments! \U{1F43E}\U{2728}",
                 Some(["#DogsOfInstagram", "#PuppyLove", "#DogLife", "#HappyDogs", "#PawfectDay"]), Some("Playful dog with a big smile and wagging tail"), None),
      SocialPost("\U{1F415} Scientific Discovery: " + p + " proven to be the leading cause of happiness!\n\nBreaking Research:\n\U{2022} Tail wags per minute: Infinite\n\U{2022} Smile factor: Over 9000\n\U{2022} Joy levels: Through the woof!\n\nP.S. No tennis balls were harmed in this study! \U{1F3BE}",
                 Some(["#DogLovers", "#PawsitiveMoments", "#HappyLife"]), None, Some("Double tap if your dog is your best coworker! \U{1F43E}")))
  }

  function ProfessionalContent(idea: string, p: string): PlatformContent {
    PlatformContent(
      SocialPost("\U{1F415} " + idea + "\n\nKey insight: " + p + "\n\nShare your experiences below! \U{1F43E}",
                 Some(["#DogCare", "#PetLife", "#DogLovers"]), None, None),
      SocialPost("\U{1F43E} " + idea + "\n\n" + p + " brings joy to our lives. Here's why:\n\n\U{2022} Unconditional love\n\U{2022} Endless happiness\n\U{2022} Pure companionship\n\nWhat's your favorite moment with your furry friend? \U{1F49D}",
                 None, Some("Professional photo of a happy dog outdoors"), None),
      SocialPost("\U{2728} " + idea + "\n\n" + p + " makes every day better! \U{1F415}\n\nSwipe \U{27A1}\U{FE0F} to see more joy!\n\nDouble tap if your dog makes you smile! \U{1F43E}",
                 Some(["#DogLife", "#PetLove", "#DogCare", "#PawfectMoments"]), Some("Heartwarming moment between dog and owner"), None),
      SocialPost("\U{1F3AF} " + idea + "\n\nLet me share how " + p + " brings happiness to our lives.\n\nKey Benefits:\n\U{2022} Daily joy\n\U{2022} Stress relief\n\U{2022} Unconditional love\n\nWhat's your experience with furry friends? Share below! \U{1F4AD}",
                 Some(["#DogLovers", "#PetLife", "#JoyfulMoments"]), None, Some("Share your favorite pet moment in the comments!")))
  }

  function CasualContent(p: string): PlatformContent {
    PlatformContent(
      SocialPost("Hey dog lovers! \U{1F44B} Check this out:\n\n" + p + " just made my day! Here's why... \U{1F415}\n\nAnyone else's pup doing this? Share your stories! \U{1F43E}",
                 Some(["#DogLife", "#PuppyLove", "#PawsomeMoments"]), None, None),
      SocialPost("Hey friends! \U{1F43E}\n\nJust had to share this adorable moment with " + p + "...\n\nReal talk:\n\U{2022} Pure joy\n\U{2022} So much love\n\U{2022} Endless cuteness\n\nWho else has stories to share? \U{1F415}",
                 None, Some("Candid moment of dog happiness"), None),
      SocialPost("\U{270C}\U{FE0F} Living our best life with " + p + "\n\nNo filters needed - just pure happiness!\n\nTap through for more cuteness \U{1F449}\n\nDrop a \U{2764}\U{FE0F} if your dog makes you smile!",
                 Some(["#DogLife", "#PuppyLove", "#HappyDogs", "#PawfectMoments"]), Some("Natural, joyful moment with a dog"), None),
      SocialPost("Hey pet lovers! \U{1F44B}\n\nCan we talk about " + p + " for a moment?\n\nHere's what makes it special:\n\U{2022} Pure happiness\n\U{2022} Endless love\n\U{2022} Daily adventures\n\nWhat's your favorite pet story? Let's share! \U{1F4AC}",
                 Some(["#DogLovers", "#PetLife", "#JoyfulMoments"]), None, Some("Share your favorite pet memory - let's spread some joy!")))
  }

  /** The four posts for a selected idea, by voice; the humorous and casual texts do not use the idea. */
  function ContentFor(v: Voice, idea: string, p: string): PlatformContent {
    match v
    case Humorous => HumorousContent(p)
    case Casual => CasualContent(p)
    case Professional => ProfessionalContent(idea, p)
  }

  /** The request body; a `prompt` that is missing or not a string is `None`. */
  datatype IdeasRequest = IdeasRequest(prompt: Option<string>, selectedIdea: Option<string>, voice: Option<string>)

  datatype IdeasResponse = Preflight | IdeasOk(ideas: seq<string>) | PlatformsOk(platformContent: PlatformContent) | BadRequest(error: string)

  const INVALID_PROMPT := "Invalid prompt provided - prompt must be a non-empty string"

  /**
   * The handler: OPTIONS gets the CORS headers. A body that cannot be read as a request (not JSON,
   * or `null`) is `Failure` with the runtime's message and is answered 400 with it, as is the
   * invalid-prompt error. An empty or missing `selectedIdea` asks for the five ideas of the
   * request's voice, anything else for the four posts of that voice.
   */
  function Handle(isOptions: bool, body: Result<IdeasRequest>): (r: IdeasResponse)
    ensures isOptions ==> r == Preflight
    ensures !isOptions && body.Failure? ==> r == BadRequest(body.error)
    ensures !isOptions && body.Success? ==>
              var req := body.value;
              if req.selectedIdea.None? || req.selectedIdea.value == [] then
                if req.prompt.None? || Blank(req.prompt.value) then r == BadRequest(INVALID_PROMPT)
                else r == IdeasOk(Ideas(VoiceOf(req.voice), req.prompt.value))
              else r == PlatformsOk(ContentFor(VoiceOf(req.voice), req.selectedIdea.value, JsText(req.prompt)))
  {
    if isOptions then Preflight
    else if body.Failure? then BadRequest(body.error)
    else
      var req := body.value;
      if req.selectedIdea.None? || req.selectedIdea.value == [] then
        if req.prompt.None? || Blank(req.prompt.value) then BadRequest(INVALID_PROMPT)
        else IdeasOk(Ideas(VoiceOf(req.voice), req.prompt.value))
      else
        PlatformsOk(ContentFor(VoiceOf(req.voice), req.selectedIdea.value, JsText(req.prompt)))
  }

  /** Every idea the handler answers contains the prompt it was given. */
  lemma AnsweredIdeasEmbedPrompt(req: IdeasRequest)
    requires Handle(false, Success(req)).IdeasOk?
    ensures req.prompt.Some? && !Blank(req.prompt.value)
    ensures |Handle(false, Success(req)).ideas| == 5
    ensures forall i :: 0 <= i < 5 ==> Contains(Handle(false, Success(req)).ideas[i], req.prompt.value)
  {
    IdeasEmbedPrompt(VoiceOf(req.voice), req.prompt.value);
  }

  /** Every idea is built around the prompt, whatever the voice. */
  lemma IdeasEmbedPrompt(v: Voice, p: string)
    ensures forall i :: 0 <= i < 5 ==> Contains(Ideas(v, p)[i], p)
  {
    match v
    case Humorous => HumorousIdeasEmbedPrompt(p);
    case Casual => CasualIdeasEmbedPrompt(p);
    case Professional => ProfessionalIdeasEmbedPrompt(p);
  }

  lemma HumorousIdeasEmbedPrompt(p: string)
    ensures forall i :: 0 <= i < 5 ==> Contains(Ideas(Humorous, p)[i], p)
  {
    Embeds("Why ", p, " deserve an Oscar for \"Best Drama Queen\" during bath time \U{1F6C1}");
    Embeds("Breaking News: ", p, " discovers belly rubs are the secret to world peace! \U{1F30D}");
    Embeds("The secret life of ", p, ": When humans aren't looking \U{1F440}");
    Embeds("If ", p, " wrote a self-help book: \"How to Train Your Human\" \U{1F4DA}");
    Embeds("Confessions of a ", p, ": \"I only pretend to not know where the treats are!\" \U{1F9B4}");
  }

  lemma CasualIdeasEmbedPrompt(p: string)
    ensures forall i :: 0 <= i < 5 ==> Contains(Ideas(Casual, p)[i], p)
  {
    Embeds("Just another day with ", p, " - pure joy! \U{1F43E}");
    Embeds("The best thing about ", p, "? Everything! \U{2764}\U{FE0F}");
    Embeds("Life lessons from ", p, " - keeping it real");
    EmbedsAtEnd("Weekend adventures with ", p);
    EmbedsAtStart(p, " being their adorable self again!");
  }

  lemma ProfessionalIdeasEmbedPrompt(p: string)
    ensures forall i :: 0 <= i < 5 ==> Contains(Ideas(Professional, p)[i], p)
  {
    var ideas := Ideas(Professional, p);
    forall i | 0 <= i < 5 ensures Contains(ideas[i], p) {
      var prefix := ["The joy of sharing life with ", "Creating precious moments with ", "Understanding the unique personality of ",
                     "Daily adventures: Life with ", "Building lasting bonds with "][i];
      EmbedsAtEnd(prefix, p);
    }
  }

  /** An unknown voice, or none, gets exactly what 'professional' gets. */
  lemma UnknownVoiceIsProfessional(isOptions: bool, req: IdeasRequest)
    requires req.voice != Some("humorous") && req.voice != Some("casual")
    ensures Handle(isOptions, Success(req)) == Handle(isOptions, Success(req.(voice := Some("professional"))))
  {
    var other := req.(voice := Some("professional"));
    assert VoiceOf(req.voice) == VoiceOf(other.voice) == Professional;
    assert other.prompt == req.prompt && other.selectedIdea == req.selectedIdea;
  }

  /** With a selected idea the prompt is not checked: a blank or missing one is still answered with posts. */
  lemma PromptUncheckedWithIdea(idea: string, prompt: Option<string>, voice: Option<string>)
    requires idea != [] && (prompt.None? || prompt == Some(""))
    ensures Handle(false, Success(IdeasRequest(prompt, Some(idea), voice))).PlatformsOk?
  {
  }

  /** An empty selected idea counts as none, so a missing prompt is then refused. */
  lemma EmptyIdeaIsNoIdea(voice: Option<string>)
    ensures Handle(false, Success(IdeasRequest(None, Some(""), voice))) == BadRequest(INVALID_PROMPT)
  {
  }
}

=== FILE: generate_template.dfy ===
/**
 * The `generate-template` edge function: from a template form it builds a Notion template with a
 * two-section structure, one entry per requested database with three views, and fixed widgets,
 * automations, embeds and API integration details.
 */
module GenerateTemplate {
  import opened Wrappers
  import opened NotionGenerator

  datatype DatabaseConfig = DatabaseConfig(name: string, kind: string, properties: seq<PropertyEntry>)

  /** The request body; `features` or `databases` that are missing are `None`. */
  datatype TemplateRequest = TemplateRequest(
    purpose: string, audience: string, features: Option<seq<string>>, layout: string, colorScheme: string,
    databases: Option<seq<DatabaseConfig>>)

  /** A database's views: its own type, then two others chosen by that type. */
  function Views(kind: string): (views: seq<string>)
    ensures |views| == 3 && views[0] == kind
    ensures views[0] != views[1] && views[0] != views[2] && views[1] != views[2]
    ensures kind != "table" ==> views[1] == "table"
    ensures kind == "table" ==> views[1..] == ["calendar", "gallery"]
  {
    [kind] + (if kind == "table" then ["calendar", "gallery"]
              else if kind == "calendar" then ["table", "list"]
              else if kind == "gallery" then ["table", "list"]
              else if kind == "list" then ["table", "calendar"]
              else ["table", "calendar"])
  }

  function DatabaseOf(db: DatabaseConfig): DatabaseEntry {
    DatabaseEntry(Some(db.name), None, Some(Views(db.kind)), Some(db.properties))
  }

  /** One entry per requested database, in order, keeping its name and properties. */
  function Databases(dbs: seq<DatabaseConfig>): (r: seq<DatabaseEntry>)
    ensures |r| == |dbs|
    ensures forall i :: 0 <= i < |dbs| ==>
              r[i].name == Some(dbs[i].name) && r[i].properties == Some(dbs[i].properties) && r[i].views == Some(Views(dbs[i].kind))
  {
    seq(|dbs|, i requires 0 <= i < |dbs| => DatabaseOf(dbs[i]))
  }

  /** `${feature} section`, one per feature. */
  function FeatureSections(features: seq<string>): (r: seq<string>)
    ensures |r| == |features|
    ensures forall i :: 0 <= i < |features| ==> r[i] == features[i] + " section"
  {
    seq(|features|, i requires 0 <= i < |features| => features[i] + " section")
  }

  /** The feature names come back from the dashboard entries by dropping the " section" suffix. */
  lemma FeaturesRecoverable(features: seq<string>)
    ensures forall i :: 0 <= i < |features| ==>
              var e := FeatureSections(features)[i];
              |e| >= 8 && e[..|e| - 8] == features[i] && e[|e| - 8..] == " section"
  {
    forall i | 0 <= i < |features|
      ensures var e := FeatureSections(features)[i]; |e| >= 8 && e[..|e| - 8] == features[i] && e[|e| - 8..] == " section"
    {
      var e := FeatureSections(features)[i];
      assert e == features[i] + " section";
      assert e[..|e| - 8] == features[i];
    }
  }

  function Structure(features: seq<string>): (r: seq<StructureEntry>)
    ensures |r| == 2
    ensures r[0].section == Some("Overview") && r[1].section == Some("Main Dashboard")
    ensures r[1].content == Some(FeatureSections(features))
  {
    [StructureEntry(Some("Overview"), Some(["Quick summary and purpose", "Getting started guide", "Key features and functionality", "Navigation instructions"])),
     StructureEntry(Some("Main Dashboard"), Some(FeatureSections(features)))]
  }

  /** The step-by-step implementation texts, one step per line. */
  const QuickActionsSteps := "1. Create a new callout block at the top of your dashboard\n2. Add button blocks for each quick action\n3. Link each button to its corresponding page or database\n4. Style buttons using your chosen color scheme\n5. Test each action to ensure proper functionality"
  const ProgressOverviewSteps := "1. Add a new database view block\n2. Select 'Gallery' view type\n3. Configure progress property as primary display\n4. Add progress bar visualization\n5. Set up automatic calculations for progress tracking"
  const RecentActivitySteps := "1. Create a linked database view\n2. Filter by last modified date\n3. Sort by most recent first\n4. Limit display to 5-10 items\n5. Configure automatic refresh interval"
  const NewItemSteps := "1. Open the database settings\n2. Navigate to the Automations tab\n3. Create new automation with \"When new item is created\" trigger\n4. Add \"Send notification\" action\n5. Configure notification recipients and message template\n6. Test the automation with a sample item"
  const DueDateSteps := "1. Set up a new automation\n2. Choose \"When date property is within X days\" trigger\n3. Configure reminder message template\n4. Set reminder frequency and conditions\n5. Add conditional logic for different deadline types\n6. Test with various due dates"
  const StatusChangeSteps := "1. Create new automation\n2. Select \"When status changes\" trigger\n3. Add conditions for specific status changes\n4. Configure related item updates\n5. Set up proper relationships between items\n6. Test with sample status changes"

  function Widgets(): (r: seq<WidgetEntry>)
    ensures |r| == 3
  {
    [WidgetEntry(Some("Quick Actions"), Some("Access frequently used functions"), Some("Top of dashboard"),
       Some(QuickActionsSteps)),
     WidgetEntry(Some("Progress Overview"), Some("Visual representation of progress"), Some("Dashboard sidebar"),
       Some(ProgressOverviewSteps)),
     WidgetEntry(Some("Recent Activity"), Some("Track latest updates and changes"), Some("Dashboard sidebar"),
       Some(RecentActivitySteps))]
  }

  function Automations(): (r: seq<AutomationEntry>)
    ensures |r| == 3
  {
    [AutomationEntry(Some("New item is created"), Some("Send notification"), Some("Automatically notify team members when new items are added"),
       Some(NewItemSteps)),
     AutomationEntry(Some("Due date approaches"), Some("Send reminder"), Some("Send reminders for upcoming deadlines"),
       Some(DueDateSteps)),
     AutomationEntry(Some("Status changes"), Some("Update related items"), Some("Automatically update dependent tasks or items"),
       Some(StatusChangeSteps))]
  }

  function Embeds(): (r: seq<EmbedEntry>)
    ensures |r| == 2
  {
    [EmbedEntry(Some("Calendar Integration"), Some("Sync with external calendar services"),
       Some(["Enable calendar sync in settings", "Configure calendar permissions", "Set up two-way sync options", "Test calendar event creation"])),
     EmbedEntry(Some("File Storage"), Some("Connect to cloud storage services"),
       Some(["Configure storage provider connection", "Set up file access permissions", "Enable automatic file organization", "Test file upload and retrieval"]))]
  }

  const Api := ApiEntry(Some("https://api.notion.com/v1/databases/{database_id}"), Some("PATCH"),
                        Some(["Read database content", "Update database properties", "Create new pages", "Manage automations"]),
                        Some("3 requests per second per integration"), Some("https://developers.notion.com/reference/intro"))

  datatype TemplateResponse = Preflight | TemplateOk(template: Generated) | ServerError(error: string)

  /**
   * The handler: OPTIONS gets the CORS headers. `body` is the parsed request, or the parse error;
   * missing `features` or `databases` make the handler fail with `mapError`, the runtime's message.
   */
  function Handle(isOptions: bool, body: Result<TemplateRequest>, mapError: string): (r: TemplateResponse)
    ensures isOptions ==> r == Preflight
    ensures !isOptions && body.Failure? ==> r == ServerError(body.error)
    ensures !isOptions && body.Success? && (body.value.features.None? || body.value.databases.None?) ==> r == ServerError(mapError)
    ensures !isOptions && body.Success? && body.value.features.Some? && body.value.databases.Some? ==> r.TemplateOk?
    ensures r.TemplateOk? ==>
              && body.Success? && body.value.features.Some? && body.value.databases.Some?
              && r.template.structure == Some(Structure(body.value.features.value))
              && r.template.databases == Some(Databases(body.value.databases.value))
              && r.template.widgets == Some(Widgets()) && r.template.automations == Some(Automations()) && r.template.embeds == Some(Embeds())
              && r.template.apiIntegration == Some(Api)
  {
    if isOptions then Preflight
    else if body.Failure? then ServerError(body.error)
    else if body.value.features.None? || body.value.databases.None? then ServerError(mapError)
    else
      TemplateOk(Generated(Some(Structure(body.value.features.value)), Some(Databases(body.value.databases.value)),
                           Some(Widgets()), Some(Automations()), Some(Embeds()), Some(Api)))
  }

  /** The answer does not depend on the purpose, the audience, the layout or the colour scheme. */
  lemma OnlyFeaturesAndDatabasesMatter(a: TemplateRequest, b: TemplateRequest, mapError: string)
    requires a.features == b.features && a.databases == b.databases
    ensures Handle(false, Success(a), mapError) == Handle(false, Success(b), mapError)
  {
  }
}

=== FILE: lists.dfy ===
/**
 * The array idioms every dashboard section uses on its React state: `filter`, the
 * `map(x => x.id === id ? f(x) : x)` replace-by-id, `filter(x => x.id !== id)` delete-by-id,
 * `reduce` sums and the `Math.max(...ids) + 1` fresh id.
 */
module Lists {
  import opened Wrappers

  /** `xs.filter(p)` */
  function Filter<T>(xs: seq<T>, p: T -> bool): (r: seq<T>)
    ensures |r| <= |xs|
  {
    if xs == [] then [] else (if p(xs[0]) then [xs[0]] else []) + Filter(xs[1..], p)
  }

  /** The filter keeps exactly the elements that pass the test. */
  lemma {:induction false} FilterMembers<T>(xs: seq<T>, p: T -> bool)
    ensures forall i :: 0 <= i < |Filter(xs, p)| ==> Filter(xs, p)[i] in xs && p(Filter(xs, p)[i])
    ensures forall i :: 0 <= i < |xs| && p(xs[i]) ==> xs[i] in Filter(xs, p)
  {
    if xs != [] {
      FilterMembers(xs[1..], p);
      var r := Filter(xs, p);
      var t := Filter(xs[1..], p);
      assert forall i :: 1 <= i < |xs| ==> xs[i] == xs[1..][i - 1];
      assert forall x :: x in t ==> x in r;
    }
  }

  /** Filtering works element by element, so it keeps the relative order of what it keeps. */
  lemma {:induction false} FilterConcat<T>(a: seq<T>, b: seq<T>, p: T -> bool)
    ensures Filter(a + b, p) == Filter(a, p) + Filter(b, p)
  {
    if a == [] {
      assert a + b == b;
    } else {
      var head := if p(a[0]) then [a[0]] else [];
      assert (a + b)[0] == a[0];
      assert (a + b)[1..] == a[1..] + b;
      assert Filter(a + b, p) == head + Filter(a[1..] + b, p);
      assert Filter(a, p) == head + Filter(a[1..], p);
      FilterConcat(a[1..], b, p);
      assert head + (Filter(a[1..], p) + Filter(b, p)) == head + Filter(a[1..], p) + Filter(b, p);
    }
  }

  /** A filter keeps any order relation that holds between every earlier and later element. */
  lemma {:induction false} FilterKeepsOrder<T>(xs: seq<T>, p: T -> bool, before: (T, T) -> bool)
    requires forall i, j :: 0 <= i < j < |xs| ==> before(xs[i], xs[j])
    ensures forall i, j :: 0 <= i < j < |Filter(xs, p)| ==> before(Filter(xs, p)[i], Filter(xs, p)[j])
  {
    if xs != [] {
      var t := xs[1..];
      forall i, j | 0 <= i < j < |t| ensures before(t[i], t[j]) {
        assert t[i] == xs[i + 1] && t[j] == xs[j + 1];
      }
      FilterKeepsOrder(t, p, before);
      FilterMembers(t, p);
      var r, ft := Filter(xs, p), Filter(t, p);
      if p(xs[0]) {
        assert r == [xs[0]] + ft;
        forall i, j | 0 <= i < j < |r| ensures before(r[i], r[j]) {
          if i == 0 {
            assert r[j] == ft[j - 1] && ft[j - 1] in t;
            var m :| 0 <= m < |t| && t[m] == ft[j - 1];
            assert xs[m + 1] == t[m];
          } else {
            assert r[i] == ft[i - 1] && r[j] == ft[j - 1];
          }
        }
      } else {
        assert r == ft;
      }
    }
  }

  /** A filter that rejects nothing is the identity. */
  lemma {:induction false} FilterKeepsAll<T>(xs: seq<T>, p: T -> bool)
    requires forall i :: 0 <= i < |xs| ==> p(xs[i])
    ensures Filter(xs, p) == xs
  {
    if xs != [] {
      FilterKeepsAll(xs[1..], p);
    }
  }

  /** The position of the first element passing the test: a `findFirst` over a table in row order. */
  function FirstIndex<T>(xs: seq<T>, p: T -> bool): (r: Option<nat>)
    ensures r.Some? ==> r.value < |xs| && p(xs[r.value]) && forall j :: 0 <= j < r.value ==> !p(xs[j])
    ensures r.None? ==> forall j :: 0 <= j < |xs| ==> !p(xs[j])
  {
    if xs == [] then None
    else if p(xs[0]) then Some(0)
    else
      match FirstIndex(xs[1..], p)
      case None => None
      case Some(k) => Some(k + 1)
  }

  /** `xs.find(p)`: the first element satisfying `p`, if any. */
  function Find<T>(xs: seq<T>, p: T -> bool): (r: Option<T>)
    ensures r.Some? ==> r.value in xs && p(r.value)
    ensures r.None? ==> forall i :: 0 <= i < |xs| ==> !p(xs[i])
  {
    match FirstIndex(xs, p)
    case None => None
    case Some(k) => Some(xs[k])
  }

  /** Splitting off the first element commutes with appending. */
  lemma SplitHead<T>(xs: seq<T>, u: seq<T>)
    requires xs != []
    ensures xs + u == [xs[0]] + (xs[1..] + u)
  {
    assert xs == [xs[0]] + xs[1..];
  }

  /** Two keys never coincide: the `id` field is a key of the list. */
  predicate UniqueKeys<T>(xs: seq<T>, key: T -> int) {
    forall i, j :: 0 <= i < j < |xs| ==> key(xs[i]) != key(xs[j])
  }

  predicate HasKey<T>(xs: seq<T>, key: T -> int, id: int) {
    exists i :: 0 <= i < |xs| && key(xs[i]) == id
  }

  /** `xs.map(x => key(x) === id ? f(x) : x)`: every element with that key is rewritten, the others are kept. */
  function MapWhere<T>(xs: seq<T>, key: T -> int, id: int, f: T -> T): (r: seq<T>)
    ensures |r| == |xs|
    ensures forall i :: 0 <= i < |xs| && key(xs[i]) != id ==> r[i] == xs[i]
    ensures forall i :: 0 <= i < |xs| && key(xs[i]) == id ==> r[i] == f(xs[i])
  {
    seq(|xs|, i requires 0 <= i < |xs| => if key(xs[i]) == id then f(xs[i]) else xs[i])
  }

  /** Rewriting an absent key changes nothing. */
  lemma MapWhereAbsent<T>(xs: seq<T>, key: T -> int, id: int, f: T -> T)
    requires !HasKey(xs, key, id)
    ensures MapWhere(xs, key, id, f) == xs
  {
  }

  /** Under unique keys, rewriting the key held at index k changes that element and no other. */
  lemma MapWhereAt<T>(xs: seq<T>, key: T -> int, k: int, f: T -> T)
    requires UniqueKeys(xs, key) && 0 <= k < |xs|
    ensures MapWhere(xs, key, key(xs[k]), f) == xs[k := f(xs[k])]
  {
  }

  /** A key-preserving involution (a flag flip) applied twice to the same key restores the list. */
  lemma MapWhereInvolution<T>(xs: seq<T>, key: T -> int, id: int, f: T -> T)
    requires forall x :: key(f(x)) == key(x) && f(f(x)) == x
    ensures MapWhere(MapWhere(xs, key, id, f), key, id, f) == xs
  {
  }

  /** Rewriting keeps every key, so it keeps keys unique. */
  lemma MapWhereKeepsKeys<T>(xs: seq<T>, key: T -> int, id: int, f: T -> T)
    requires UniqueKeys(xs, key)
    requires forall x :: key(f(x)) == key(x)
    ensures UniqueKeys(MapWhere(xs, key, id, f), key)
  {
    var r := MapWhere(xs, key, id, f);
    forall i, j | 0 <= i < j < |r| ensures key(r[i]) != key(r[j]) {
      assert key(r[i]) == key(xs[i]) && key(r[j]) == key(xs[j]);
    }
  }

  /** `xs.map(x => key(x) === key(y) ? y : x)`: the edit-save handlers. */
  function ReplaceById<T>(xs: seq<T>, key: T -> int, y: T): (r: seq<T>)
    ensures |r| == |xs|
    ensures forall i :: 0 <= i < |xs| ==> r[i] == (if key(xs[i]) == key(y) then y else xs[i])
  {
    MapWhere(xs, key, key(y), _ => y)
  }

  /** Under unique keys, saving an edited element replaces exactly the element with its key, in place. */
  lemma ReplaceByIdAt<T>(xs: seq<T>, key: T -> int, k: int, y: T)
    requires UniqueKeys(xs, key) && 0 <= k < |xs| && key(y) == key(xs[k])
    ensures ReplaceById(xs, key, y) == xs[k := y]
  {
  }

  /** Saving an element whose key is no longer in the list (it was deleted meanwhile) changes nothing. */
  lemma ReplaceByIdAbsent<T>(xs: seq<T>, key: T -> int, y: T)
    requires !HasKey(xs, key, key(y))
    ensures ReplaceById(xs, key, y) == xs
  {
  }

  function KeyIsNot<T>(key: T -> int, id: int): T -> bool {
    x => key(x) != id
  }

  /** `xs.filter(x => key(x) !== id)` */
  function DeleteById<T>(xs: seq<T>, key: T -> int, id: int): (r: seq<T>)
    ensures !HasKey(r, key, id)
    ensures forall i :: 0 <= i < |r| ==> r[i] in xs
    ensures forall i :: 0 <= i < |xs| && key(xs[i]) != id ==> xs[i] in r
  {
    FilterMembers(xs, KeyIsNot(key, id));
    var r := Filter(xs, KeyIsNot(key, id));
    assert forall i :: 0 <= i < |r| ==> r[i] in r;
    r
  }

  /** Under unique keys, deleting the key held at index k removes exactly that element and keeps the order. */
  lemma DeleteByIdAt<T>(xs: seq<T>, key: T -> int, k: int)
    requires UniqueKeys(xs, key) && 0 <= k < |xs|
    ensures DeleteById(xs, key, key(xs[k])) == xs[..k] + xs[k + 1..]
  {
    FilterWithoutAt(xs, key, k);
  }

  lemma {:induction false} FilterWithoutAt<T>(xs: seq<T>, key: T -> int, k: int)
    requires UniqueKeys(xs, key) && 0 <= k < |xs|
    ensures Filter(xs, KeyIsNot(key, key(xs[k]))) == xs[..k] + xs[k + 1..]
  {
    var a, b := xs[..k], xs[k + 1..];
    OthersKept(xs, key, k, a, b);
    FilterDropsOne(a, xs[k], b, KeyIsNot(key, key(xs[k])));
    assert xs == a + ([xs[k]] + b);
  }

  lemma {:induction false} FilterDropsOne<T>(a: seq<T>, x: T, b: seq<T>, p: T -> bool)
    requires forall i :: 0 <= i < |a| ==> p(a[i])
    requires forall i :: 0 <= i < |b| ==> p(b[i])
    requires !p(x)
    ensures Filter(a + ([x] + b), p) == a + b
  {
    FilterKeepsAll(a, p);
    FilterKeepsAll(b, p);
    FilterSingleDropped(x, p);
    FilterConcat([x], b, p);
    FilterConcat(a, [x] + b, p);
  }

  lemma OthersKept<T>(xs: seq<T>, key: T -> int, k: int, a: seq<T>, b: seq<T>)
    requires UniqueKeys(xs, key) && 0 <= k < |xs| && a == xs[..k] && b == xs[k + 1..]
    ensures forall i :: 0 <= i < |a| ==> KeyIsNot(key, key(xs[k]))(a[i])
    ensures forall i :: 0 <= i < |b| ==> KeyIsNot(key, key(xs[k]))(b[i])
  {
    forall i | 0 <= i < |b| ensures KeyIsNot(key, key(xs[k]))(b[i]) {
      assert b[i] == xs[k + 1 + i];
    }
  }

  lemma FilterSingleDropped<T>(x: T, p: T -> bool)
    requires !p(x)
    ensures Filter([x], p) == []
  {
    assert [x][1..] == [];
  }

  /** Deleting a key that is not there changes nothing; deleting twice is deleting once. */
  lemma DeleteByIdIdempotent<T>(xs: seq<T>, key: T -> int, id: int)
    ensures !HasKey(xs, key, id) ==> DeleteById(xs, key, id) == xs
    ensures DeleteById(DeleteById(xs, key, id), key, id) == DeleteById(xs, key, id)
  {
    if !HasKey(xs, key, id) {
      FilterKeepsAll(xs, KeyIsNot(key, id));
    }
    var r := DeleteById(xs, key, id);
    FilterKeepsAll(r, KeyIsNot(key, id));
  }

  /** `xs.reduce((sum, x) => sum + f(x), 0)` */
  function Sum<T>(xs: seq<T>, f: T -> int): (r: int)
    ensures (forall i :: 0 <= i < |xs| ==> f(xs[i]) >= 0) ==> r >= 0
  {
    if xs == [] then 0 else f(xs[0]) + Sum(xs[1..], f)
  }

  /** A sum over two lists is the sum of their sums, so the totals do not depend on where an element sits. */
  lemma {:induction false} SumConcat<T>(a: seq<T>, b: seq<T>, f: T -> int)
    ensures Sum(a + b, f) == Sum(a, f) + Sum(b, f)
  {
    if a == [] {
      assert a + b == b;
    } else {
      assert (a + b)[0] == a[0];
      assert (a + b)[1..] == a[1..] + b;
      SumConcat(a[1..], b, f);
    }
  }

  /** The keys, in list order: `xs.map(x => x.id)`. */
  function Keys<T>(xs: seq<T>, key: T -> int): (r: seq<int>)
    ensures |r| == |xs|
    ensures forall i :: 0 <= i < |xs| ==> r[i] == key(xs[i])
  {
    seq(|xs|, i requires 0 <= i < |xs| => key(xs[i]))
  }

  /** `Math.max(...ids)` on a non-empty list. */
  function Max(ids: seq<int>): (m: int)
    requires |ids| >= 1
    ensures m in ids
    ensures forall i :: 0 <= i < |ids| ==> ids[i] <= m
  {
    if |ids| == 1 then ids[0]
    else
      var m := Max(ids[1..]);
      assert forall i :: 1 <= i < |ids| ==> ids[i] == ids[1..][i - 1];
      if ids[0] >= m then ids[0] else m
  }

  /** `ids.length > 0 ? Math.max(...ids) + 1 : 1`: an id above every id in use. */
  function NextId(ids: seq<int>): (r: int)
    ensures forall i :: 0 <= i < |ids| ==> ids[i] < r
    ensures ids == [] ==> r == 1
  {
    if |ids| == 0 then 1 else Max(ids) + 1
  }

  /** Adding an element under the next id, at either end, keeps keys unique. */
  lemma NextIdKeepsKeysUnique<T>(xs: seq<T>, key: T -> int, x: T)
    requires UniqueKeys(xs, key) && key(x) == NextId(Keys(xs, key))
    ensures UniqueKeys(xs + [x], key)
    ensures UniqueKeys([x] + xs, key)
  {
    var ks := Keys(xs, key);
    assert forall i :: 0 <= i < |xs| ==> key(xs[i]) == ks[i] < key(x);
    var a := xs + [x];
    forall i, j | 0 <= i < j < |a| ensures key(a[i]) != key(a[j]) {
      if j == |xs| {
        assert key(a[i]) == ks[i];
      }
    }
    var b := [x] + xs;
    forall i, j | 0 <= i < j < |b| ensures key(b[i]) != key(b[j]) {
      if i == 0 {
        assert key(b[j]) == ks[j - 1];
      } else {
        assert b[i] == xs[i - 1] && b[j] == xs[j - 1];
      }
    }
  }

  /** A JavaScript number as far as `Math.max(...ids) + 1` goes: an integer or minus infinity. */
  datatype JsNumber = Finite(n: int) | NegInfinity

  /** `Math.max(...xs)`: minus infinity for an empty list, as JavaScript defines it. */
  function MathMax(xs: seq<JsNumber>): (r: JsNumber)
    ensures r.Finite? <==> exists i :: 0 <= i < |xs| && xs[i].Finite?
  {
    if xs == [] then NegInfinity
    else
      var m := MathMax(xs[1..]);
      assert forall i :: 1 <= i < |xs| ==> xs[i] == xs[1..][i - 1];
      match (xs[0], m)
      case (NegInfinity, _) => m
      case (_, NegInfinity) => xs[0]
      case (Finite(a), Finite(b)) => Finite(if a >= b then a else b)
  }

  /** `x + 1`: minus infinity absorbs the increment. */
  function PlusOne(x: JsNumber): (r: JsNumber)
    ensures r.Finite? <==> x.Finite?
  {
    match x
    case Finite(n) => Finite(n + 1)
    case NegInfinity => NegInfinity
  }

  /** `Math.max(...ids) + 1` with no empty-list guard, as the projects and transactions lists compute it. */
  function NextIdAsWritten(ids: seq<JsNumber>): (r: JsNumber)
    ensures r.Finite? <==> exists i :: 0 <= i < |ids| && ids[i].Finite?
  {
    PlusOne(MathMax(ids))
  }

  function AsNumbers(ids: seq<int>): (r: seq<JsNumber>)
    ensures |r| == |ids|
    ensures forall i :: 0 <= i < |ids| ==> r[i] == Finite(ids[i])
  {
    seq(|ids|, i requires 0 <= i < |ids| => Finite(ids[i]))
  }

  /**
   * Without the guard, an empty list gets the id minus infinity, and so does every element added after it:
   * two elements then share one id, and deleting either removes both.
   */
  lemma NextIdAsWrittenOnEmpty()
    ensures NextIdAsWritten([]) == NegInfinity
    ensures NextIdAsWritten([NegInfinity]) == NegInfinity
  {
  }

  /** On a non-empty list of integer ids the unguarded form agrees with the guarded one. */
  lemma {:induction false} NextIdAsWrittenAgrees(ids: seq<int>)
    requires |ids| >= 1
    ensures NextIdAsWritten(AsNumbers(ids)) == Finite(NextId(ids))
  {
    MathMaxOfIntegers(ids);
  }

  lemma {:induction false} MathMaxOfIntegers(ids: seq<int>)
    requires |ids| >= 1
    ensures MathMax(AsNumbers(ids)) == Finite(Max(ids))
  {
    if |ids| > 1 {
      MathMaxOfIntegers(ids[1..]);
      assert AsNumbers(ids)[1..] == AsNumbers(ids[1..]);
    } else {
      assert AsNumbers(ids)[1..] == [];
    }
  }
}

=== FILE: notion_generator.dfy ===
/**
 * The Notion template generator: a form that collects a purpose, an audience, a layout and the
 * databases to include, asks the backend for a template, renders the answer as a Markdown
 * document of tables, and saves that document to the browser's template list.
 */
module NotionGenerator {
  import opened Wrappers
  import opened Text
  import NotionTemplates

  /** The template as the backend answers it; every field may be missing. */
  datatype StructureEntry = StructureEntry(section: Option<string>, content: Option<seq<string>>)
  datatype PropertyEntry = PropertyEntry(name: Option<string>, kind: Option<string>)
  datatype DatabaseEntry = DatabaseEntry(name: Option<string>, kind: Option<string>, views: Option<seq<string>>, properties: Option<seq<PropertyEntry>>)
  datatype WidgetEntry = WidgetEntry(kind: Option<string>, purpose: Option<string>, placement: Option<string>, implementation: Option<string>)
  datatype AutomationEntry = AutomationEntry(trigger: Option<string>, action: Option<string>, description: Option<string>, implementation: Option<string>)
  datatype EmbedEntry = EmbedEntry(kind: Option<string>, purpose: Option<string>, setup: Option<seq<string>>)
  datatype ApiEntry = ApiEntry(endpoint: Option<string>, verb: Option<string>, permissions: Option<seq<string>>, rateLimit: Option<string>, documentation: Option<string>)

  datatype Generated = Generated(
    structure: Option<seq<StructureEntry>>, databases: Option<seq<DatabaseEntry>>, widgets: Option<seq<WidgetEntry>>,
    automations: Option<seq<AutomationEntry>>, embeds: Option<seq<EmbedEntry>>, apiIntegration: Option<ApiEntry>)

  /** `value || ''` */
  function Or(s: Option<string>): string {
    s.GetOr("")
  }

  /** `text.split('\n').join('; ')`: the same text on one line. */
  function OneLine(s: string): (r: string)
    ensures '\n' !in r
  {
    var parts := Split(s, '\n');
    JoinAvoids(parts, "; ", '\n');
    Join(parts, "; ")
  }

  /** A join of pieces and a separator that all avoid a character avoids it too. */
  lemma {:induction false} JoinAvoids(parts: seq<string>, sep: string, c: char)
    requires forall i :: 0 <= i < |parts| ==> c !in parts[i]
    requires c !in sep
    ensures c !in Join(parts, sep)
  {
    if |parts| > 1 {
      JoinAvoids(parts[1..], sep, c);
    }
  }

  /** The first line of the purpose, or a fallback when that line is empty. */
  function FirstLineOr(purpose: string, fallback: string): (r: string)
    ensures '\n' !in r || r == fallback
  {
    var first := Split(purpose, '\n')[0];
    if first == [] then fallback else first
  }

  /** A purpose whose first line is `line` is titled by that line, and an empty purpose by the fallback. */
  lemma FirstLineOrRule(line: string, rest: string, fallback: string)
    requires '\n' !in line && line != []
    ensures FirstLineOr(line + "\n" + rest, fallback) == line
    ensures FirstLineOr(line, fallback) == line
    ensures FirstLineOr("", fallback) == fallback
  {
    SplitAtFirstSeparator(line, '\n', rest);
    assert line + ['\n'] + rest == line + "\n" + rest;
    SplitNoSeparator(line, '\n');
  }

  function StructureRow(e: StructureEntry): string {
    "| " + JsText(e.section) + " | " + Join(e.content.GetOr([]), ", ") + " |"
  }

  function PropertyText(p: PropertyEntry): string {
    Or(p.name) + " (" + Or(p.kind) + ")"
  }

  function DatabaseRow(d: DatabaseEntry): string {
    var props := d.properties.GetOr([]);
    "| " + Or(d.name) + " | " + Or(d.kind) + " | " + Join(d.views.GetOr([]), ", ") + " | "
    + Join(seq(|props|, i requires 0 <= i < |props| => PropertyText(props[i])), ", ") + " |"
  }

  function WidgetRow(w: WidgetEntry): string {
    "| " + Or(w.kind) + " | " + Or(w.purpose) + " | " + Or(w.placement) + " | " + OneLine(Or(w.implementation)) + " |"
  }

  function AutomationRow(a: AutomationEntry): string {
    "| " + Or(a.trigger) + " | " + Or(a.action) + " | " + Or(a.description) + " | " + OneLine(Or(a.implementation)) + " |"
  }

  function EmbedRow(e: EmbedEntry): string {
    "| " + Or(e.kind) + " | " + Or(e.purpose) + " | " + Join(e.setup.GetOr([]), "; ") + " |"
  }

  function ApiRow(a: ApiEntry): string {
    "| " + Or(a.endpoint) + " | " + Or(a.verb) + " | " + Join(a.permissions.GetOr([]), ", ") + " | " + Or(a.rateLimit) + " |"
  }

  /** One row per element, in order. */
  function Rows<T>(xs: seq<T>, row: T -> string): (r: seq<string>)
    ensures |r| == |xs| && forall i :: 0 <= i < |xs| ==> r[i] == row(xs[i])
  {
    if xs == [] then [] else [row(xs[0])] + Rows(xs[1..], row)
  }

  lemma RowsSnoc<T>(xs: seq<T>, row: T -> string, i: int)
    requires 0 <= i < |xs|
    ensures Rows(xs[..i + 1], row) == Rows(xs[..i], row) + [row(xs[i])]
  {
  }

  /** Each row followed by a line break. */
  function Lines(rows: seq<string>): string {
    if rows == [] then [] else rows[0] + "\n" + Lines(rows[1..])
  }

  lemma {:induction false} LinesSnoc(rows: seq<string>, x: string)
    ensures Lines(rows + [x]) == Lines(rows) + x + "\n"
  {
    if rows != [] {
      assert (rows + [x])[1..] == rows[1..] + [x];
      LinesSnoc(rows[1..], x);
    } else {
      assert Lines([x]) == x + "\n" + Lines([]);
    }
  }

  lemma {:induction false} LinesAsJoin(rows: seq<string>)
    ensures Lines(rows) == Join(rows + [[]], "\n")
  {
    if rows != [] {
      LinesAsJoin(rows[1..]);
      assert (rows + [[]])[1..] == rows[1..] + [[]];
    }
  }

  /** Rows without line breaks read back one line per row: a table body holds exactly one line per entry. */
  lemma OneLinePerRow(rows: seq<string>)
    requires forall i :: 0 <= i < |rows| ==> '\n' !in rows[i]
    ensures Split(Lines(rows), '\n') == rows + [[]]
  {
    LinesAsJoin(rows);
    SplitJoin(rows + [[]], '\n');
  }

  /** Widget and automation rows are single lines whatever their implementation text holds. */
  lemma RowsAreSingleLines(w: WidgetEntry, a: AutomationEntry)
    requires '\n' !in Or(w.kind) && '\n' !in Or(w.purpose) && '\n' !in Or(w.placement)
    requires '\n' !in Or(a.trigger) && '\n' !in Or(a.action) && '\n' !in Or(a.description)
    ensures '\n' !in WidgetRow(w) && '\n' !in AutomationRow(a)
  {
  }

  /** A table's heading, column names and rule line; its rows and a blank line follow. */
  function TableHead(heading: string, columns: string, rule: string): string {
    "## " + heading + "\n\n" + columns + "\n" + rule + "\n"
  }

  function Header(purpose: string): (h: string)
    ensures |h| >= 2 && h[..2] == "# "
  {
    "# " + FirstLineOr(purpose, "Notion Template") + "\n\n" + purpose + "\n\n"
  }

  const StructureColumns := "| Section | Content |"
  const StructureRule := "|---------|----------|"
  const DatabaseColumns := "| Database | Type | Views | Properties |"
  const DatabaseRule := "|-----------|------|--------|------------|"
  const WidgetColumns := "| Type | Purpose | Placement | Implementation |"
  const WidgetRule := "|------|---------|-----------|----------------|"
  const AutomationColumns := "| Trigger | Action | Description | Implementation |"
  const AutomationRule := "|---------|--------|-------------|----------------|"
  const EmbedColumns := "| Type | Purpose | Setup |"
  const EmbedRule := "|------|---------|-------|"
  const ApiColumns := "| Endpoint | Method | Permissions | Rate Limit |"
  const ApiRule := "|----------|--------|-------------|------------|"

  /** One table: its heading, column names and rule line, one line per row, and a blank line. */
  function Section(heading: string, columns: string, rule: string, rows: seq<string>): string {
    TableHead(heading, columns, rule) + Lines(rows) + "\n"
  }

  /** Everything before the API Integration table: the title, the purpose and five tables, in this order. */
  function Body(purpose: string, t: Generated): string {
    Header(purpose)
    + Section("Structure", StructureColumns, StructureRule, Rows(t.structure.GetOr([]), StructureRow))
    + Section("Databases", DatabaseColumns, DatabaseRule, Rows(t.databases.GetOr([]), DatabaseRow))
    + Section("Widgets", WidgetColumns, WidgetRule, Rows(t.widgets.GetOr([]), WidgetRow))
    + Section("Automations", AutomationColumns, AutomationRule, Rows(t.automations.GetOr([]), AutomationRow))
    + Section("Embeds", EmbedColumns, EmbedRule, Rows(t.embeds.GetOr([]), EmbedRow))
  }

  /** The API Integration data row, when the answer has one. */
  function ApiLines(t: Generated): string {
    if t.apiIntegration.Some? then ApiRow(t.apiIntegration.value) + "\n" else []
  }

  /** The whole document: the body, then the API Integration table with at most one row. */
  function Document(purpose: string, t: Generated): string {
    Body(purpose, t) + TableHead("API Integration", ApiColumns, ApiRule) + ApiLines(t)
  }

  /** The document opens with the header: "# ", the title taken from the purpose's first line, and the purpose. */
  lemma StartsWithHeader(purpose: string, t: Generated)
    ensures |Document(purpose, t)| >= |Header(purpose)|
    ensures Document(purpose, t)[..|Header(purpose)|] == Header(purpose)
  {
    var h := Header(purpose);
    var s1 := Section("Structure", StructureColumns, StructureRule, Rows(t.structure.GetOr([]), StructureRow));
    var s2 := Section("Databases", DatabaseColumns, DatabaseRule, Rows(t.databases.GetOr([]), DatabaseRow));
    var s3 := Section("Widgets", WidgetColumns, WidgetRule, Rows(t.widgets.GetOr([]), WidgetRow));
    var s4 := Section("Automations", AutomationColumns, AutomationRule, Rows(t.automations.GetOr([]), AutomationRow));
    var s5 := Section("Embeds", EmbedColumns, EmbedRule, Rows(t.embeds.GetOr([]), EmbedRow));
    var api := TableHead("API Integration", ApiColumns, ApiRule);
    assert h[..|h|] == h;
    Extends(h, s1, h);
    Extends(h + s1, s2, h);
    Extends(h + s1 + s2, s3, h);
    Extends(h + s1 + s2 + s3, s4, h);
    Extends(h + s1 + s2 + s3 + s4, s5, h);
    Extends(Body(purpose, t), api, h);
    Extends(Body(purpose, t) + api, ApiLines(t), h);
  }

  /** Every document starts with "# ", so a saved one is never empty. */
  lemma StartsWithHash(purpose: string, t: Generated)
    ensures |Document(purpose, t)| >= 2 && Document(purpose, t)[..2] == "# "
  {
    StartsWithHeader(purpose, t);
    var h := Header(purpose);
    var d := Document(purpose, t);
    assert d[..2] == d[..|h|][..2];
  }

  /** Missing lists render as empty tables. */
  lemma MissingListsAreEmpty(purpose: string, t: Generated)
    ensures Document(purpose, t)
            == Document(purpose, Generated(Some(t.structure.GetOr([])), Some(t.databases.GetOr([])), Some(t.widgets.GetOr([])),
                                           Some(t.automations.GetOr([])), Some(t.embeds.GetOr([])), t.apiIntegration))
  {
  }

  lemma BodyIgnoresApi(purpose: string, t: Generated)
    ensures Body(purpose, t.(apiIntegration := None)) == Body(purpose, t)
  {
  }

  /** The API Integration data row is present exactly when the answer has one, and is the document's last line. */
  lemma ApiRowOnlyWhenPresent(purpose: string, t: Generated)
    ensures t.apiIntegration.None? ==> Document(purpose, t) == Document(purpose, t.(apiIntegration := None))
    ensures t.apiIntegration.Some? ==>
              Document(purpose, t) == Document(purpose, t.(apiIntegration := None)) + (ApiRow(t.apiIntegration.value) + "\n")
  {
    var u := t.(apiIntegration := None);
    BodyIgnoresApi(purpose, t);
    var prefix := Body(purpose, t) + TableHead("API Integration", ApiColumns, ApiRule);
    assert Document(purpose, u) == prefix + [] == prefix;
  }

  /** `markdown += row + '\n'` for each element: a `forEach` over one table's entries. */
  method AppendRows<T>(markdown: string, xs: seq<T>, row: T -> string) returns (r: string)
    ensures r == markdown + Lines(Rows(xs, row))
  {
    r := markdown;
    var i := 0;
    while i < |xs|
      invariant 0 <= i <= |xs|
      invariant r == markdown + Lines(Rows(xs[..i], row))
    {
      RowsSnoc(xs, row, i);
      LinesSnoc(Rows(xs[..i], row), row(xs[i]));
      r := r + row(xs[i]) + "\n";
      i := i + 1;
    }
    assert xs[..i] == xs;
  }

  lemma Regroup(m: string, head: string, lines: string)
    ensures m + head + lines + "\n" == m + (head + lines + "\n")
  {
  }

  /** `generateNotionTableMarkdown`, section by section. */
  method Serialize(purpose: string, t: Generated) returns (markdown: string)
    ensures markdown == Document(purpose, t)
  {
    markdown := Header(purpose);
    ghost var before := markdown;
    markdown := markdown + TableHead("Structure", StructureColumns, StructureRule);
    markdown := AppendRows(markdown, t.structure.GetOr([]), StructureRow);
    markdown := markdown + "\n";
    Regroup(before, TableHead("Structure", StructureColumns, StructureRule), Lines(Rows(t.structure.GetOr([]), StructureRow)));
    before := markdown;
    markdown := markdown + TableHead("Databases", DatabaseColumns, DatabaseRule);
    markdown := AppendRows(markdown, t.databases.GetOr([]), DatabaseRow);
    markdown := markdown + "\n";
    Regroup(before, TableHead("Databases", DatabaseColumns, DatabaseRule), Lines(Rows(t.databases.GetOr([]), DatabaseRow)));
    before := markdown;
    markdown := markdown + TableHead("Widgets", WidgetColumns, WidgetRule);
    markdown := AppendRows(markdown, t.widgets.GetOr([]), WidgetRow);
    markdown := markdown + "\n";
    Regroup(before, TableHead("Widgets", WidgetColumns, WidgetRule), Lines(Rows(t.widgets.GetOr([]), WidgetRow)));
    before := markdown;
    markdown := markdown + TableHead("Automations", AutomationColumns, AutomationRule);
    markdown := AppendRows(markdown, t.automations.GetOr([]), AutomationRow);
    markdown := markdown + "\n";
    Regroup(before, TableHead("Automations", AutomationColumns, AutomationRule), Lines(Rows(t.automations.GetOr([]), AutomationRow)));
    before := markdown;
    markdown := markdown + TableHead("Embeds", EmbedColumns, EmbedRule);
    markdown := AppendRows(markdown, t.embeds.GetOr([]), EmbedRow);
    markdown := markdown + "\n";
    Regroup(before, TableHead("Embeds", EmbedColumns, EmbedRule), Lines(Rows(t.embeds.GetOr([]), EmbedRow)));
    markdown := markdown + TableHead("API Integration", ApiColumns, ApiRule);
    if t.apiIntegration.Some? {
      markdown := markdown + (ApiRow(t.apiIntegration.value) + "\n");
    } else {
      assert markdown + [] == markdown;
    }
  }

  datatype PropertyDraft = PropertyDraft(name: string, kind: string)
  datatype DatabaseDraft = DatabaseDraft(name: string, kind: string, properties: seq<PropertyDraft>)

  /** The form: `layout` is 'minimal', 'detailed' or 'visual'; `colorScheme` is 'default', 'neutral' or 'colorful'. */
  datatype TemplateConfig = TemplateConfig(
    purpose: string, audience: string, features: seq<string>, layout: string, colorScheme: string, databases: seq<DatabaseDraft>)

  const BlankDatabase := DatabaseDraft("", "table", [])
  const BlankProperty := PropertyDraft("", "text")
  const TemplateImage := "https://images.pexels.com/photos/669615/pexels-photo-669615.jpeg?auto=compress&cs=tinysrgb&w=600"

  /** The prompt sent along with the form. */
  function PromptOf(c: TemplateConfig): string {
    "Create a Notion template for: " + c.purpose + " (Audience: " + c.audience + ", Layout: " + c.layout + ")"
  }

  /** The library entry a save produces: titled by the purpose's first line, or "Untitled Template". */
  function SavedEntry(id: int, purpose: string, markdown: string): (e: NotionTemplates.Template)
    ensures e.title == FirstLineOr(purpose, "Untitled Template") && e.content == Some(markdown)
    ensures e.downloads == 0 && e.isNew && !e.isPremium && e.category == ["productivity"]
  {
    NotionTemplates.Template(id, FirstLineOr(purpose, "Untitled Template"), purpose, ["productivity"], 0, TemplateImage, true, false, Some(markdown))
  }

  class NotionTemplateGenerator {
    var config: TemplateConfig
    var newDatabase: DatabaseDraft
    var newProperty: PropertyDraft
    var generated: Option<Generated>
    var error: Option<string>
    var showPreview: bool
    var showDatabaseModal: bool

    constructor()
      ensures config == TemplateConfig("", "", [], "minimal", "default", [])
      ensures newDatabase == BlankDatabase && newProperty == BlankProperty
      ensures generated == None && error == None && !showPreview && !showDatabaseModal
    {
      config := TemplateConfig("", "", [], "minimal", "default", []);
      newDatabase := BlankDatabase;
      newProperty := BlankProperty;
      generated := None;
      error := None;
      showPreview := false;
      showDatabaseModal := false;
    }

    /**
     * `handleGenerateTemplate`: a blank purpose only sets the error. Otherwise the form and its
     * prompt are sent; `reply` is the backend's template, or the message of what the call threw
     * ("Failed to generate template" for an answer that is not ok, the runtime's own message when the
     * request or the reading of the answer fails). That message becomes the error, and an empty one
     * is replaced by the stock text.
     */
    method GenerateTemplate(reply: Result<Generated>) returns (prompt: Option<string>)
      modifies this`error, this`generated, this`showPreview
      ensures Blank(old(config.purpose)) ==>
                prompt == None && error == Some("Please provide a purpose for your template")
                && generated == old(generated) && showPreview == old(showPreview)
      ensures !Blank(old(config.purpose)) ==> prompt == Some(PromptOf(config))
      ensures !Blank(old(config.purpose)) && reply.Failure? ==>
                && error == Some(if reply.error == [] then "An error occurred while generating the template" else reply.error)
                && generated == old(generated) && showPreview == old(showPreview)
      ensures !Blank(old(config.purpose)) && reply.Success? ==> error == None && generated == Some(reply.value) && showPreview
    {
      var purpose := NonBlank(config.purpose);
      if purpose.None? {
        error := Some("Please provide a purpose for your template");
        return None;
      }
      prompt := Some(PromptOf(config));
      error := None;
      if reply.Failure? {
        error := Some(if reply.error == [] then "An error occurred while generating the template" else reply.error);
        return;
      }
      generated := Some(reply.value);
      showPreview := true;
    }

    /**
     * `handleAddDatabase`: a blank name is ignored. Otherwise the database is appended with its name
     * and type and an empty property list, whatever properties the draft held, and the draft is reset.
     */
    method AddDatabase()
      modifies this`config, this`newDatabase, this`showDatabaseModal
      ensures Blank(old(newDatabase.name)) ==>
                config == old(config) && newDatabase == old(newDatabase) && showDatabaseModal == old(showDatabaseModal)
      ensures !Blank(old(newDatabase.name)) ==>
                && config == old(config).(databases := old(config.databases) + [old(newDatabase).(properties := [])])
                && newDatabase == BlankDatabase && !showDatabaseModal
    {
      var name := NonBlank(newDatabase.name);
      if name.None? {
        return;
      }
      config := config.(databases := config.databases + [newDatabase.(properties := [])]);
      newDatabase := BlankDatabase;
      showDatabaseModal := false;
    }

    /** `handleAddProperty`: a blank name is ignored; otherwise the property joins the draft database and the property form is reset. */
    method AddProperty()
      modifies this`newDatabase, this`newProperty
      ensures Blank(old(newProperty.name)) ==> newDatabase == old(newDatabase) && newProperty == old(newProperty)
      ensures !Blank(old(newProperty.name)) ==>
                newDatabase == old(newDatabase).(properties := old(newDatabase.properties) + [old(newProperty)])
                && newProperty == BlankProperty
    {
      var name := NonBlank(newProperty.name);
      if name.None? {
        return;
      }
      newDatabase := newDatabase.(properties := newDatabase.properties + [newProperty]);
      newProperty := BlankProperty;
    }

    /** `handleSaveTemplate`: without a generated template nothing happens; otherwise its document is appended to the saved list. */
    method SaveTemplate(store: NotionTemplates.LocalStore, id: int)
      modifies store
      ensures generated.None? ==> store.notionTemplates == old(store.notionTemplates)
      ensures generated.Some? ==>
                store.notionTemplates == old(store.notionTemplates) + [SavedEntry(id, config.purpose, Document(config.purpose, generated.value))]
    {
      if generated.None? {
        return;
      }
      var markdown := Serialize(config.purpose, generated.value);
      store.notionTemplates := store.notionTemplates + [SavedEntry(id, config.purpose, markdown)];
    }
  }

  /**
   * A saved template appears last in the library the next time it opens, and it can be downloaded,
   * as a file named after its title.
   */
  lemma SavedTemplateIsDownloadable(builtIn: seq<NotionTemplates.Template>, saved: seq<NotionTemplates.Template>,
                                    id: int, purpose: string, t: Generated)
    ensures var e := SavedEntry(id, purpose, Document(purpose, t));
            && (builtIn + (saved + [e]))[|builtIn| + |saved|] == e
            && NotionTemplates.Downloadable(e)
  {
    StartsWithHash(purpose, t);
  }
}

=== FILE: notion_templates.dfy ===
/**
 * The Notion template library: the built-in templates followed by the ones saved in the browser,
 * a category tab and a search box, a download that counts itself and names the file after the
 * title, and a delete that removes the template from the list and from the saved list.
 */
module NotionTemplates {
  import opened Wrappers
  import opened Lists
  import opened Text

  datatype Template = Template(
    id: int, title: string, description: string, category: seq<string>, downloads: int,
    image: string, isNew: bool, isPremium: bool, content: Option<string>)

  /** The browser's `localStorage` entry "notionTemplates", shared with the template generator. */
  class LocalStore {
    var notionTemplates: seq<Template>

    constructor(saved: seq<Template>)
      ensures notionTemplates == saved
    {
      notionTemplates := saved;
    }
  }

  function TemplateId(t: Template): int { t.id }

  function Downloads(t: Template): int { t.downloads }

  function Bump(t: Template): Template { t.(downloads := t.downloads + 1) }

  /** 'all' or one of the category names. */
  datatype CategoryFilter = All | Only(category: string)

  predicate Shown(filter: CategoryFilter, query: string, t: Template) {
    (filter.All? || filter.category in t.category) && SearchHit(query, [t.title, t.description] + t.category)
  }

  function ShownBy(filter: CategoryFilter, query: string): Template -> bool {
    (t: Template) => Shown(filter, query, t)
  }

  /** `filteredTemplates` */
  function Visible(templates: seq<Template>, filter: CategoryFilter, query: string): seq<Template> {
    Filter(templates, ShownBy(filter, query))
  }

  /**
   * The view holds exactly the templates of the tab's category whose title, description or some
   * category contains the query, ignoring case, in list order.
   */
  lemma VisibleIsExactlyTheMatches(templates: seq<Template>, filter: CategoryFilter, query: string)
    ensures forall t: Template :: t in Visible(templates, filter, query) <==>
              && t in templates
              && (filter.All? || filter.category in t.category)
              && (query == [] || IncludesIgnoreCase(t.title, query) || IncludesIgnoreCase(t.description, query)
                  || exists c :: c in t.category && IncludesIgnoreCase(c, query))
  {
    FilterMembers(templates, ShownBy(filter, query));
    forall t: Template ensures SearchHit(query, [t.title, t.description] + t.category) <==>
                     (query == [] || IncludesIgnoreCase(t.title, query) || IncludesIgnoreCase(t.description, query)
                      || exists c :: c in t.category && IncludesIgnoreCase(c, query))
    {
      var fields := [t.title, t.description] + t.category;
      assert forall c :: c in t.category ==> c in fields;
      assert forall f :: f in fields ==> f == t.title || f == t.description || f in t.category;
    }
  }

  /** A template can be downloaded when its content is there and not empty. */
  predicate Downloadable(t: Template) {
    t.content.Some? && t.content.value != []
  }

  /** Each whitespace run becomes one '-': `s.replace(/\s+/g, '-')`. */
  function DashRuns(s: string): (r: string)
    ensures NoSpace(r)
    decreases |s|
  {
    if s == [] then []
    else if IsSpace(s[0]) then
      assert s[..1] == [s[0]];
      "-" + DashRuns(TrimStart(s[1..]))
    else
      [s[0]] + DashRuns(s[1..])
  }

  /** A whitespace run followed by a non-space becomes one '-'. */
  lemma DashRunsOfGap(gap: string, rest: string)
    requires gap != [] && AllSpace(gap)
    requires rest == [] || !IsSpace(rest[0])
    ensures DashRuns(gap + rest) == "-" + DashRuns(rest)
  {
    var s := gap + rest;
    assert s[0] == gap[0];
    assert s[1..] == gap[1..] + rest;
    TrimStartSkipsSpace(gap[1..], rest);
    assert TrimStart(rest) == rest;
  }

  /** A non-space character is kept as it is. */
  lemma DashRunsCons(c: char, t: string)
    requires !IsSpace(c)
    ensures DashRuns([c] + t) == [c] + DashRuns(t)
  {
    assert ([c] + t)[1..] == t;
  }

  /** A word without whitespace is kept as it is, in front of whatever follows it. */
  lemma {:induction false} DashRunsKeepsWord(word: string, t: string)
    requires NoSpace(word)
    ensures DashRuns(word + t) == word + DashRuns(t)
    decreases |word|
  {
    if word != [] {
      SplitHead(word, t);
      DashRunsCons(word[0], word[1..] + t);
      DashRunsKeepsWord(word[1..], t);
      SplitHead(word, DashRuns(t));
    } else {
      assert word + t == t && word + DashRuns(t) == DashRuns(t);
    }
  }

  /** A name without whitespace is left alone, so replacing the runs twice is replacing them once. */
  lemma DashRunsIdempotent(s: string)
    ensures NoSpace(s) ==> DashRuns(s) == s
    ensures DashRuns(DashRuns(s)) == DashRuns(s)
  {
    if NoSpace(s) {
      DashRunsKeepsWord(s, []);
      assert s + [] == s;
    }
    var r := DashRuns(s);
    DashRunsKeepsWord(r, []);
    assert r + [] == r;
  }

  /** A word, a whitespace run and the rest become the word, one '-', and the rest with its runs replaced. */
  lemma DashRunsOfWords(word: string, gap: string, rest: string)
    requires NoSpace(word) && gap != [] && AllSpace(gap)
    requires rest == [] || !IsSpace(rest[0])
    ensures DashRuns(word + gap + rest) == word + "-" + DashRuns(rest)
  {
    assert word + gap + rest == word + (gap + rest);
    DashRunsKeepsWord(word, gap + rest);
    DashRunsOfGap(gap, rest);
  }

  /** `${title.toLowerCase().replace(/\s+/g, '-')}.txt` */
  function FileName(title: string): (r: string)
    ensures NoSpace(r)
    ensures |r| >= 4 && r[|r| - 4..] == ".txt"
  {
    var stem := DashRuns(Lower(title));
    var r := stem + ".txt";
    assert r[|stem|..] == ".txt";
    assert NoSpace(".txt") by {
      assert forall i :: 0 <= i < 4 ==> ".txt"[i] == '.' || ".txt"[i] == 't' || ".txt"[i] == 'x';
    }
    NoSpaceConcat(stem, ".txt");
    r
  }

  /** Lowercasing neither creates nor removes whitespace. */
  lemma LowerKeepsSpace(s: string)
    ensures forall i :: 0 <= i < |s| ==> (IsSpace(Lower(s)[i]) <==> IsSpace(s[i]))
  {
  }

  /** A title "<word> <rest>" downloads as the lowercased word, '-', and the rest's file name. */
  lemma FileNameOfWords(word: string, rest: string)
    requires NoSpace(word) && (rest == [] || !IsSpace(rest[0]))
    ensures FileName(word + " " + rest) == Lower(word) + "-" + DashRuns(Lower(rest)) + ".txt"
  {
    LowerConcat(word + " ", rest);
    LowerConcat(word, " ");
    assert Lower(" ") == " ";
    LowerKeepsSpace(word);
    LowerKeepsSpace(rest);
    DashRunsOfWords(Lower(word), " ", Lower(rest));
  }

  function HasId(id: int): Template -> bool {
    (t: Template) => t.id == id
  }

  /** A download adds one to the total for each template holding that id, and nothing else. */
  lemma {:induction false} DownloadAddsOnePerMatch(templates: seq<Template>, id: int)
    ensures Sum(MapWhere(templates, TemplateId, id, Bump), Downloads)
            == Sum(templates, Downloads) + |Filter(templates, HasId(id))|
  {
    if templates != [] {
      var m := MapWhere(templates, TemplateId, id, Bump);
      assert m[1..] == MapWhere(templates[1..], TemplateId, id, Bump);
      DownloadAddsOnePerMatch(templates[1..], id);
    }
  }

  class NotionTemplatesSection {
    var templates: seq<Template>
    var filter: CategoryFilter
    var query: string
    var selected: Option<Template>

    /** On mount: the built-in templates followed by the saved ones, in that order. */
    constructor(builtIn: seq<Template>, store: LocalStore)
      ensures templates == builtIn + store.notionTemplates
      ensures filter == All && query == [] && selected == None
    {
      templates := builtIn + store.notionTemplates;
      filter := All;
      query := [];
      selected := None;
    }

    /**
     * `handleDownloadTemplate`: a template without content changes nothing and names no file;
     * otherwise the file is named after the title and the templates with its id count one more
     * download.
     */
    method Download(t: Template) returns (fileName: Option<string>)
      modifies this`templates
      ensures !Downloadable(t) ==> fileName == None && templates == old(templates)
      ensures Downloadable(t) ==> fileName == Some(FileName(t.title)) && templates == MapWhere(old(templates), TemplateId, t.id, Bump)
    {
      if t.content.None? || t.content.value == [] {
        return None;
      }
      fileName := Some(FileName(t.title));
      templates := MapWhere(templates, TemplateId, t.id, Bump);
    }

    /** `handleDeleteTemplate`: selects the template for the confirmation dialog. */
    method AskDelete(t: Template)
      modifies this`selected
      ensures selected == Some(t)
    {
      selected := Some(t);
    }

    /** `confirmDelete`: removes the selected id from the list and from the saved list; without a selection nothing happens. */
    method ConfirmDelete(store: LocalStore)
      modifies this`templates, this`selected, store
      ensures old(selected).None? ==> templates == old(templates) && selected == None && store.notionTemplates == old(store.notionTemplates)
      ensures old(selected).Some? ==>
                && templates == DeleteById(old(templates), TemplateId, old(selected).value.id)
                && store.notionTemplates == DeleteById(old(store.notionTemplates), TemplateId, old(selected).value.id)
                && selected == None
    {
      if selected.None? {
        return;
      }
      var id := selected.value.id;
      templates := DeleteById(templates, TemplateId, id);
      store.notionTemplates := DeleteById(store.notionTemplates, TemplateId, id);
      selected := None;
    }
  }

  /**
   * Delete only reaches the saved list: a deleted saved template stays gone when the section is
   * opened again, while a built-in one comes back.
   */
  lemma DeleteAcrossReload(builtIn: seq<Template>, saved: seq<Template>, id: int)
    ensures HasKey(builtIn, TemplateId, id) ==> HasKey(builtIn + DeleteById(saved, TemplateId, id), TemplateId, id)
    ensures !HasKey(builtIn, TemplateId, id) ==> !HasKey(builtIn + DeleteById(saved, TemplateId, id), TemplateId, id)
  {
    var kept := DeleteById(saved, TemplateId, id);
    var all := builtIn + kept;
    if HasKey(builtIn, TemplateId, id) {
      var i :| 0 <= i < |builtIn| && builtIn[i].id == id;
      assert all[i] == builtIn[i];
    } else {
      forall i | 0 <= i < |all| ensures all[i].id != id {
        if i < |builtIn| {
          assert all[i] == builtIn[i];
        } else {
          assert all[i] == kept[i - |builtIn|];
        }
      }
    }
  }
}

=== FILE: projects.dfy ===
/**
 * The projects section: a project list with a status tab and a search box, the create,
 * edit-save and delete handlers, and the share dialog of the selected project, which parses a
 * comma-separated list of invitee emails and removes team members by position. The invite
 * request itself is a parameter: whether the server accepted it.
 */
module Projects {
  import opened Wrappers
  import opened Lists
  import opened Text

  datatype ProjectStatus = Planning | Active | Completed

  datatype Comment = Comment(id: int, author: string, text: string, date: string)

  datatype Project = Project(
    id: int, title: string, description: string, status: ProjectStatus, progress: int, dueDate: string,
    team: seq<string>, tasks: int, files: int, comments: seq<Comment>)

  datatype ProjectForm = ProjectForm(title: string, description: string, dueDate: string, status: ProjectStatus)

  datatype StatusFilter = All | Only(status: ProjectStatus)

  function ProjectId(p: Project): int { p.id }

  function BlankForm(today: string): ProjectForm {
    ProjectForm("", "", today, Planning)
  }

  predicate Shown(filter: StatusFilter, query: string, p: Project) {
    (filter.All? || p.status == filter.status) && SearchHit(query, [p.title, p.description])
  }

  function ShownBy(filter: StatusFilter, query: string): Project -> bool {
    (p: Project) => Shown(filter, query, p)
  }

  /** `filteredProjects` */
  function Visible(projects: seq<Project>, filter: StatusFilter, query: string): seq<Project> {
    Filter(projects, ShownBy(filter, query))
  }

  /** The view holds exactly the projects of the chosen status whose title or description contains the query. */
  lemma VisibleIsExactlyTheMatches(projects: seq<Project>, filter: StatusFilter, query: string)
    ensures forall i :: 0 <= i < |Visible(projects, filter, query)| ==>
              var p := Visible(projects, filter, query)[i];
              && p in projects && (filter.All? || p.status == filter.status)
              && (query == [] || IncludesIgnoreCase(p.title, query) || IncludesIgnoreCase(p.description, query))
    ensures forall i :: 0 <= i < |projects| && (filter.All? || projects[i].status == filter.status)
                        && (query == [] || IncludesIgnoreCase(projects[i].title, query) || IncludesIgnoreCase(projects[i].description, query))
                        ==> projects[i] in Visible(projects, filter, query)
  {
    FilterMembers(projects, ShownBy(filter, query));
    var r := Visible(projects, filter, query);
    forall i | 0 <= i < |r|
      ensures query == [] || IncludesIgnoreCase(r[i].title, query) || IncludesIgnoreCase(r[i].description, query)
    {
      assert Shown(filter, query, r[i]);
    }
    forall i | 0 <= i < |projects| && (filter.All? || projects[i].status == filter.status)
               && (query == [] || IncludesIgnoreCase(projects[i].title, query) || IncludesIgnoreCase(projects[i].description, query))
      ensures projects[i] in r
    {
      assert projects[i].title in [projects[i].title, projects[i].description];
      assert projects[i].description in [projects[i].title, projects[i].description];
      assert Shown(filter, query, projects[i]);
    }
  }

  /** A new project: no progress, no team, no tasks, files or comments. */
  function NewProject(id: int, form: ProjectForm): (p: Project)
    ensures p.id == id && p.title == form.title && p.description == form.description
    ensures p.status == form.status && p.dueDate == form.dueDate
    ensures p.progress == 0 && p.team == [] && p.tasks == 0 && p.files == 0 && p.comments == []
  {
    Project(id, form.title, form.description, form.status, 0, form.dueDate, [], 0, 0, [])
  }

  /** `Math.max(...projects.map(p => p.id)) + 1`, with no guard for an empty list. */
  function NewIdAsWritten(projects: seq<Project>): JsNumber {
    NextIdAsWritten(AsNumbers(Keys(projects, ProjectId)))
  }

  /**
   * Once every project has been deleted, the next project gets `-Infinity` as its id; with at
   * least one project the expression agrees with the guarded next id.
   */
  lemma NewIdAsWrittenFailsWhenEmpty(projects: seq<Project>)
    ensures projects == [] ==> NewIdAsWritten(projects) == NegInfinity
    ensures projects != [] ==> NewIdAsWritten(projects) == Finite(NextId(Keys(projects, ProjectId)))
  {
    NextIdAsWrittenOnEmpty();
    if projects != [] {
      NextIdAsWrittenAgrees(Keys(projects, ProjectId));
    }
  }

  /** `team.filter((_, i) => i !== index)`: drops the entry at that position, if there is one. */
  function RemoveAt(team: seq<string>, index: int): (r: seq<string>)
    ensures 0 <= index < |team| ==> |r| == |team| - 1 && r[..index] == team[..index] && r[index..] == team[index + 1..]
    ensures !(0 <= index < |team|) ==> r == team
  {
    if 0 <= index < |team| then team[..index] + team[index + 1..] else team
  }

  /** The create button is disabled while submitting, or without a title and a description. */
  predicate CreateDisabled(submitting: bool, form: ProjectForm) {
    submitting || form.title == [] || form.description == []
  }

  class ProjectsSection {
    var projects: seq<Project>
    var selected: Option<Project>
    var editing: Option<Project>
    var form: ProjectForm
    var inviteEmails: string

    constructor(initial: seq<Project>, today: string)
      ensures projects == initial && selected == None && editing == None
      ensures form == BlankForm(today) && inviteEmails == ""
    {
      projects := initial;
      selected := None;
      editing := None;
      form := BlankForm(today);
      inviteEmails := "";
    }

    /**
     * `handleCreateProject`, with the empty-list guard the expression lacks: appends the form as a
     * new project under an id above every id in use, and resets the form.
     */
    method CreateProject(today: string)
      modifies this`projects, this`form
      ensures projects == old(projects) + [NewProject(NextId(Keys(old(projects), ProjectId)), old(form))]
      ensures UniqueKeys(old(projects), ProjectId) ==> UniqueKeys(projects, ProjectId)
      ensures form == BlankForm(today)
    {
      var p := NewProject(NextId(Keys(projects, ProjectId)), form);
      if UniqueKeys(projects, ProjectId) {
        NextIdKeepsKeysUnique(projects, ProjectId, p);
      }
      projects := projects + [p];
      form := BlankForm(today);
    }

    /** `handleDeleteProject`: removes the selected project's id; without a selection it does nothing. */
    method DeleteProject()
      modifies this`projects, this`selected
      ensures old(selected).None? ==> projects == old(projects) && selected == None
      ensures old(selected).Some? ==> projects == DeleteById(old(projects), ProjectId, old(selected).value.id) && selected == None
    {
      if selected.Some? {
        projects := DeleteById(projects, ProjectId, selected.value.id);
        selected := None;
      }
    }

    /** `handleSaveEditProject`: the edited project replaces the one with its id; without one it does nothing. */
    method SaveEdit()
      modifies this`projects, this`selected, this`editing
      ensures old(editing).None? ==> projects == old(projects) && selected == old(selected) && editing == None
      ensures old(editing).Some? ==> projects == ReplaceById(old(projects), ProjectId, old(editing).value)
                                     && selected == None && editing == None
    {
      if editing.None? {
        return;
      }
      projects := ReplaceById(projects, ProjectId, editing.value);
      selected := None;
      editing := None;
    }

    /**
     * `handleSendInvites`: nothing without a selected project or with a blank input; otherwise the
     * trimmed non-empty comma-separated emails are sent and, once the server accepts them, added
     * after the selected project's team, and the input is cleared. The list of projects is not updated.
     */
    method SendInvites(accepted: bool) returns (sent: seq<string>)
      modifies this`selected, this`inviteEmails
      ensures projects == old(projects)
      ensures old(selected).None? || Blank(old(inviteEmails)) ==>
                sent == [] && selected == old(selected) && inviteEmails == old(inviteEmails)
      ensures old(selected).Some? && !Blank(old(inviteEmails)) ==>
                && sent == SplitTrimNonEmpty(old(inviteEmails))
                && (accepted ==> selected == Some(old(selected).value.(team := old(selected).value.team + sent)) && inviteEmails == "")
                && (!accepted ==> selected == old(selected) && inviteEmails == old(inviteEmails))
    {
      if selected.None? || Blank(inviteEmails) {
        return [];
      }
      sent := SplitTrimNonEmpty(inviteEmails);
      if accepted {
        inviteEmails := "";
        selected := Some(selected.value.(team := selected.value.team + sent));
      }
    }

    /** The remove button of a team member: the selected project's team loses exactly that entry. */
    method RemoveMember(index: int)
      modifies this`selected
      ensures old(selected).None? ==> selected == None
      ensures old(selected).Some? ==> selected == Some(old(selected).value.(team := RemoveAt(old(selected).value.team, index)))
    {
      if selected.Some? {
        selected := Some(selected.value.(team := RemoveAt(selected.value.team, index)));
      }
    }
  }

  /** Emails typed as a comma-separated list are exactly the emails the invite adds, in order. */
  lemma InvitesAreTheTypedEmails(emails: seq<string>)
    requires |emails| >= 1
    requires forall i :: 0 <= i < |emails| ==> emails[i] != [] && Clean(emails[i]) && ',' !in emails[i]
    ensures !Blank(Join(emails, ", "))
    ensures SplitTrimNonEmpty(Join(emails, ", ")) == emails
  {
    SplitTrimNonEmptyJoin(emails);
    if Blank(Join(emails, ", ")) {
      SplitTrimOfBlank(Join(emails, ", "));
    }
  }
}

=== FILE: scheduling.dfy ===
/**
 * The scheduling section: a task list kept in component state, changed by the add, edit,
 * delete and check-box handlers, and the month calendar grid built from the selected date.
 */
module Scheduling {
  import opened Wrappers
  import opened Lists
  import opened Dates
  import Text

  datatype Task = Task(id: int, title: string, date: string, time: string, category: string, completed: bool)

  /** The new-task form. */
  datatype TaskForm = TaskForm(title: string, date: string, time: string, category: string)

  function TaskId(t: Task): int { t.id }

  function FlipCompleted(t: Task): Task { t.(completed := !t.completed) }

  /** The form as it is reset after a task is added: today's date, 09:00, category 'work'. */
  function BlankForm(today: string): TaskForm {
    TaskForm("", today, "09:00", "work")
  }

  /** One calendar cell; `isToday` is only ever set on days of the shown month. */
  datatype Cell = Cell(date: Date, isCurrentMonth: bool, isToday: bool)

  /** The number of cells in the grid: 35, or 42 when the leading days and the month do not fit in five weeks. */
  function GridSize(lead: int, days: int): int {
    if lead + days > 35 then 42 else 35
  }

  /** The add button is disabled while the title is blank. */
  predicate AddDisabled(form: TaskForm) {
    Text.Blank(form.title)
  }

  /** The save button of the edit dialog is disabled without a task being edited or with a blank title. */
  predicate EditDisabled(editing: Option<Task>) {
    editing.None? || Text.Blank(editing.value.title)
  }

  class SchedulingSection {
    var selectedDate: Date
    var tasks: seq<Task>
    var newTask: TaskForm
    var editingTask: Option<Task>

    constructor(now: Date, today: string, initial: seq<Task>)
      ensures selectedDate == now && tasks == initial
      ensures newTask == BlankForm(today) && editingTask == None
    {
      selectedDate := now;
      tasks := initial;
      newTask := BlankForm(today);
      editingTask := None;
    }

    /** `handleAddTask`: appends the form as a new, not completed task with the given id, then resets the form. */
    method AddTask(id: int, today: string)
      modifies this`tasks, this`newTask
      ensures tasks == old(tasks) + [Task(id, old(newTask).title, old(newTask).date, old(newTask).time, old(newTask).category, false)]
      ensures newTask == BlankForm(today)
    {
      var t := Task(id, newTask.title, newTask.date, newTask.time, newTask.category, false);
      tasks := tasks + [t];
      newTask := BlankForm(today);
    }

    /** `handleDateClick`: the form is reset, dated on the clicked day's YYYY-MM-DD string. */
    method DateClick(dateStr: string)
      modifies this`newTask
      ensures newTask == BlankForm(dateStr)
    {
      newTask := BlankForm(dateStr);
    }

    /** `handleEditTask`: saves the task being edited over the task with its id; without one it does nothing. */
    method EditTask()
      modifies this`tasks, this`editingTask
      ensures old(editingTask).None? ==> tasks == old(tasks) && editingTask == old(editingTask)
      ensures old(editingTask).Some? ==> tasks == ReplaceById(old(tasks), TaskId, old(editingTask).value) && editingTask == None
    {
      if editingTask.None? {
        return;
      }
      tasks := ReplaceById(tasks, TaskId, editingTask.value);
      editingTask := None;
    }

    /** `handleDeleteTask` */
    method DeleteTask(id: int)
      modifies this`tasks
      ensures tasks == DeleteById(old(tasks), TaskId, id)
    {
      tasks := DeleteById(tasks, TaskId, id);
    }

    /** The check box of a task flips `completed` on the tasks with that id. */
    method ToggleTask(id: int)
      modifies this`tasks
      ensures tasks == MapWhere(old(tasks), TaskId, id, FlipCompleted)
    {
      tasks := MapWhere(tasks, TaskId, id, FlipCompleted);
    }

    /** `getTasksForDate`: the tasks whose date string is the day's YYYY-MM-DD string, in list order. */
    function TasksForDate(dateStr: string): (r: seq<Task>)
      reads this
      ensures forall i :: 0 <= i < |r| ==> r[i] in tasks && r[i].date == dateStr
      ensures forall i :: 0 <= i < |tasks| && tasks[i].date == dateStr ==> tasks[i] in r
    {
      FilterMembers(tasks, (t: Task) => t.date == dateStr);
      Filter(tasks, (t: Task) => t.date == dateStr)
    }

    /** `changeMonth`: the first of the month `k` months away. */
    method ChangeMonthBy(k: int)
      modifies this`selectedDate
      ensures selectedDate == ChangeMonth(old(selectedDate), k)
    {
      selectedDate := ChangeMonth(selectedDate, k);
    }

    /**
     * The calendar grid: the days of the previous month that fill the first week, the days of the
     * selected month, then days of the next month up to 35 or 42 cells. Cell i is day i - lead + 1
     * of the month (counting into the neighbouring months), so it falls on weekday i % 7 and sits
     * under the right column heading.
     */
    method BuildGrid(today: Date) returns (cells: seq<Cell>)
      requires Valid(selectedDate)
      ensures var lead := Weekday(Date(selectedDate.year, selectedDate.month, 1));
              var days := DaysInMonth(selectedDate.year, selectedDate.month);
              && |cells| == GridSize(lead, days)
              && (forall i :: 0 <= i < |cells| ==> cells[i].date == MakeDate(selectedDate.year, selectedDate.month, i - lead + 1))
              && (forall i :: 0 <= i < |cells| ==> (cells[i].isCurrentMonth <==> lead <= i < lead + days))
      ensures |cells| % 7 == 0
      ensures forall i :: 0 <= i < |cells| ==> Weekday(cells[i].date) == i % 7
      ensures forall i :: 0 <= i < |cells| ==> (cells[i].isToday <==> cells[i].isCurrentMonth && cells[i].date == today)
    {
      var y, m := selectedDate.year, selectedDate.month;
      var daysInMonth := LastDayOfMonth(y, m);
      var firstDayOfMonth := FirstWeekday(y, m);
      cells := FillGrid(y, m, firstDayOfMonth, daysInMonth, today);
    }
  }

  /** `new Date(year, month + 1, 0).getDate()`: day 0 of the next month is the last day of this one. */
  method LastDayOfMonth(y: int, m: int) returns (n: int)
    requires 0 <= m < 12
    ensures n == DaysInMonth(y, m)
  {
    DayZeroIsLastDay(y, m);
    n := MakeDate(y, m + 1, 0).day;
  }

  /** `new Date(year, month, 1).getDay()` */
  method FirstWeekday(y: int, m: int) returns (w: int)
    requires 0 <= m < 12
    ensures w == Weekday(Date(y, m, 1)) == Weekday(MonthStart(y, m))
  {
    MonthStartOfValid(Date(y, m, 1));
    w := Weekday(MakeDate(y, m, 1));
  }

  /** The three loops of the grid and the padding count between them, for a month starting on weekday `lead`. */
  method FillGrid(y: int, m: int, lead: int, days: int, today: Date) returns (cells: seq<Cell>)
    requires 0 <= m < 12 && lead == Weekday(MonthStart(y, m)) && days == DaysInMonth(y, m)
    ensures && |cells| == GridSize(lead, days)
            && (forall i :: 0 <= i < |cells| ==> cells[i].date == MakeDate(y, m, i - lead + 1))
            && (forall i :: 0 <= i < |cells| ==> (cells[i].isCurrentMonth <==> lead <= i < lead + days))
            && |cells| % 7 == 0
            && (forall i :: 0 <= i < |cells| ==> Valid(cells[i].date) && Weekday(cells[i].date) == i % 7)
            && (forall i :: 0 <= i < |cells| ==> (cells[i].isToday <==> cells[i].isCurrentMonth && cells[i].date == today))
  {
    var previousMonthDays := PreviousMonthDays(y, m, lead);
    var currentMonthDays := CurrentMonthDays(y, m, days, today);
    var totalShownDays := |previousMonthDays| + |currentMonthDays|;
    var nextMonthDaysToShow := if totalShownDays > 35 then 42 - totalShownDays else 35 - totalShownDays;
    var nextMonthDays := NextMonthDays(y, m, nextMonthDaysToShow);
    cells := previousMonthDays + currentMonthDays + nextMonthDays;
    GridWeekdays(y, m, lead, GridSize(lead, days));
    GridOfMonth(y, m, lead, days, today, previousMonthDays, currentMonthDays, nextMonthDays);
  }

  /** The first loop: days -lead + 1 .. 0 of the month, that is the last `lead` days of the month before. */
  method PreviousMonthDays(y: int, m: int, firstDayOfMonth: int) returns (days: seq<Cell>)
    requires 0 <= firstDayOfMonth
    ensures |days| == firstDayOfMonth
    ensures forall p :: 0 <= p < |days| ==> days[p] == Cell(MakeDate(y, m, p - firstDayOfMonth + 1), false, false)
  {
    days := [];
    var i := firstDayOfMonth - 1;
    while i >= 0
      invariant -1 <= i < firstDayOfMonth
      invariant |days| == firstDayOfMonth - 1 - i
      invariant forall p :: 0 <= p < |days| ==> days[p] == Cell(MakeDate(y, m, p - firstDayOfMonth + 1), false, false)
    {
      days := days + [Cell(MakeDate(y, m, -i), false, false)];
      i := i - 1;
    }
  }

  /** The second loop: days 1 .. daysInMonth, each marked as today when its year, month and day are today's. */
  method CurrentMonthDays(y: int, m: int, daysInMonth: int, today: Date) returns (days: seq<Cell>)
    requires 0 <= daysInMonth
    ensures |days| == daysInMonth
    ensures forall p :: 0 <= p < |days| ==> days[p] == Cell(MakeDate(y, m, p + 1), true, MakeDate(y, m, p + 1) == today)
  {
    days := [];
    var i := 1;
    while i <= daysInMonth
      invariant 1 <= i <= daysInMonth + 1
      invariant |days| == i - 1
      invariant forall p :: 0 <= p < |days| ==> days[p] == Cell(MakeDate(y, m, p + 1), true, MakeDate(y, m, p + 1) == today)
    {
      var day := MakeDate(y, m, i);
      days := days + [Cell(day, true, day.day == today.day && day.month == today.month && day.year == today.year)];
      i := i + 1;
    }
  }

  /** The third loop: days 1 .. count of the next month. */
  method NextMonthDays(y: int, m: int, count: int) returns (days: seq<Cell>)
    requires 0 <= count
    ensures |days| == count
    ensures forall p :: 0 <= p < |days| ==> days[p] == Cell(MakeDate(y, m + 1, p + 1), false, false)
  {
    days := [];
    var i := 1;
    while i <= count
      invariant 1 <= i <= count + 1
      invariant |days| == i - 1
      invariant forall p :: 0 <= p < |days| ==> days[p] == Cell(MakeDate(y, m + 1, p + 1), false, false)
    {
      days := days + [Cell(MakeDate(y, m + 1, i), false, false)];
      i := i + 1;
    }
  }

  /** The grid's contract, from the three runs' contracts and the weekdays of the days they hold. */
  lemma GridOfMonth(y: int, m: int, lead: int, days: int, today: Date, prev: seq<Cell>, cur: seq<Cell>, next: seq<Cell>)
    requires 0 <= m < 12 && 0 <= lead < 7 && days == DaysInMonth(y, m)
    requires |prev| == lead && |cur| == days && |next| == GridSize(lead, days) - lead - days
    requires forall p :: 0 <= p < |prev| ==> prev[p] == Cell(MakeDate(y, m, p - lead + 1), false, false)
    requires forall p :: 0 <= p < |cur| ==> cur[p] == Cell(MakeDate(y, m, p + 1), true, MakeDate(y, m, p + 1) == today)
    requires forall p :: 0 <= p < |next| ==> next[p] == Cell(MakeDate(y, m + 1, p + 1), false, false)
    requires forall i :: 0 <= i < GridSize(lead, days) ==> Weekday(MakeDate(y, m, i - lead + 1)) == i % 7
    ensures var cells := prev + cur + next;
            && |cells| == GridSize(lead, days)
            && (forall i :: 0 <= i < |cells| ==> cells[i].date == MakeDate(y, m, i - lead + 1))
            && (forall i :: 0 <= i < |cells| ==> (cells[i].isCurrentMonth <==> lead <= i < lead + days))
            && |cells| % 7 == 0
            && (forall i :: 0 <= i < |cells| ==> Weekday(cells[i].date) == i % 7)
            && (forall i :: 0 <= i < |cells| ==> (cells[i].isToday <==> cells[i].isCurrentMonth && cells[i].date == today))
  {
    var cells := prev + cur + next;
    GridDates(y, m, lead, prev, cur, next, today);
    forall i | 0 <= i < |cells| ensures Weekday(cells[i].date) == i % 7 {
      assert cells[i].date == MakeDate(y, m, i - lead + 1);
    }
  }

  /** Put together, the three runs are consecutive days counted from the first of the month. */
  lemma GridDates(y: int, m: int, lead: int, prev: seq<Cell>, cur: seq<Cell>, next: seq<Cell>, today: Date)
    requires 0 <= m < 12 && 0 <= lead < 7
    requires |prev| == lead && |cur| == DaysInMonth(y, m) && |next| == GridSize(lead, |cur|) - lead - |cur|
    requires forall p :: 0 <= p < |prev| ==> prev[p] == Cell(MakeDate(y, m, p - lead + 1), false, false)
    requires forall p :: 0 <= p < |cur| ==> cur[p] == Cell(MakeDate(y, m, p + 1), true, MakeDate(y, m, p + 1) == today)
    requires forall p :: 0 <= p < |next| ==> next[p] == Cell(MakeDate(y, m + 1, p + 1), false, false)
    ensures var cells := prev + cur + next;
            && |cells| == GridSize(lead, |cur|)
            && (forall i :: 0 <= i < |cells| ==> cells[i].date == MakeDate(y, m, i - lead + 1))
            && (forall i :: 0 <= i < |cells| ==> (cells[i].isCurrentMonth <==> lead <= i < lead + |cur|))
            && (forall i :: 0 <= i < |cells| ==> (cells[i].isToday <==> cells[i].isCurrentMonth && cells[i].date == today))
  {
    var cells := prev + cur + next;
    forall i | lead + |cur| <= i < |cells| ensures cells[i].date == MakeDate(y, m, i - lead + 1) {
      NextMonthDay(y, m, i - lead - |cur| + 1);
    }
  }

  /** Days counted from the first of the month, which falls on weekday `lead`: day i - lead + 1 falls on weekday i % 7. */
  lemma GridWeekdays(y: int, m: int, lead: int, n: int)
    requires lead == Weekday(MonthStart(y, m))
    ensures forall i :: 0 <= i < n ==> Weekday(MakeDate(y, m, i - lead + 1)) == i % 7
  {
    forall c | 0 <= c < n ensures Weekday(MakeDate(y, m, c - lead + 1)) == c % 7 {
      MakeDateWeekday(y, m, c - lead + 1);
    }
  }

  /** Day j of the next month is day days + j of this month. */
  lemma NextMonthDay(y: int, m: int, j: int)
    requires 0 <= m < 12 && 1 <= j <= 28
    ensures MakeDate(y, m + 1, j) == MakeDate(y, m, DaysInMonth(y, m) + j)
  {
    MonthStartOfValid(Date(y, m, 1));
    var s := MonthStart(y, m + 1);
    assert DaysInMonth(s.year, s.month) >= 28;
  }

  /** Checking a task's box twice restores the list. */
  lemma ToggleTwice(tasks: seq<Task>, id: int)
    ensures MapWhere(MapWhere(tasks, TaskId, id, FlipCompleted), TaskId, id, FlipCompleted) == tasks
  {
    MapWhereInvolution(tasks, TaskId, id, FlipCompleted);
  }

  /** Under unique ids, checking a box changes that task's `completed` and nothing else. */
  lemma ToggleOnlyThatTask(tasks: seq<Task>, k: int)
    requires UniqueKeys(tasks, TaskId) && 0 <= k < |tasks|
    ensures MapWhere(tasks, TaskId, tasks[k].id, FlipCompleted) == tasks[k := tasks[k].(completed := !tasks[k].completed)]
  {
    MapWhereAt(tasks, TaskId, k, FlipCompleted);
  }

  /** The grid always holds whole weeks and every day of the month. */
  lemma GridFits(lead: int, days: int)
    requires 0 <= lead < 7 && 28 <= days <= 31
    ensures lead + days <= GridSize(lead, days) && GridSize(lead, days) % 7 == 0
  {
  }
}

=== FILE: send_email.dfy ===
/**
 * The `send-email` edge function: validates the recipients, subject and content, checks every
 * address against `^[^\s@]+@[^\s@]+\.[^\s@]+$`, then either stores the email as pending when a
 * date and time in the future are given, or sends it at once to every recipient. Parsing the
 * local date-time, the table insert and the mail service are parameters.
 */
module SendEmail {
  import opened Wrappers
  import opened Lists
  import opened Text

  /** A piece the regular expression's `[^\s@]+` matches: not empty, no whitespace, no '@'. */
  predicate Part(p: string) {
    p != [] && NoSpace(p) && '@' !in p
  }

  /**
   * `^[^\s@]+@[^\s@]+\.[^\s@]+$`, read as the regular expression does: an '@' at i and a '.' at j
   * split the address into three such pieces.
   */
  predicate RegexMatch(s: string) {
    exists i, j :: 0 < i && i + 1 < j && j + 1 < |s| && s[i] == '@' && s[j] == '.'
                   && Part(s[..i]) && Part(s[i + 1..j]) && Part(s[j + 1..])
  }

  /** The first position of `c` in `s`. */
  function IndexOf(s: string, c: char): (r: Option<nat>)
    ensures r.Some? ==> r.value < |s| && s[r.value] == c && c !in s[..r.value]
    ensures r.None? ==> c !in s
  {
    if s == [] then None
    else if s[0] == c then Some(0)
    else
      match IndexOf(s[1..], c)
      case None => None
      case Some(k) =>
        assert s[..k + 1] == [s[0]] + s[1..][..k];
        Some(k + 1)
  }

  /** A position holding `c` with no `c` before it is the one `IndexOf` finds. */
  lemma {:induction false} IndexOfAt(s: string, c: char, i: nat)
    requires i < |s| && s[i] == c && c !in s[..i]
    ensures IndexOf(s, c) == Some(i)
  {
    if i > 0 {
      assert s[0] in s[..i];
      assert s[1..][..i - 1] == s[1..i];
      assert forall x :: x in s[1..i] ==> x in s[..i];
      IndexOfAt(s[1..], c, i - 1);
    }
  }

  /** A domain with a '.' that is neither its first nor its last character. */
  predicate InnerDot(d: string) {
    exists k :: 0 < k < |d| - 1 && d[k] == '.'
  }

  /**
   * The address rule stated directly: no whitespace, exactly one '@', something before it, and
   * after it a domain with an inner '.'.
   */
  predicate ValidEmail(s: string) {
    NoSpace(s)
    && match IndexOf(s, '@')
       case None => false
       case Some(at) => at > 0 && '@' !in s[at + 1..] && InnerDot(s[at + 1..])
  }

  /** Three pieces joined by '@' and '.' hold no whitespace and no second '@'. */
  lemma PartsCompose(a: string, b: string, c: string)
    requires Part(a) && Part(b) && Part(c)
    ensures NoSpace(a + ['@'] + b + ['.'] + c)
    ensures '@' !in b + ['.'] + c
  {
    var s := a + ['@'] + b + ['.'] + c;
    forall n | 0 <= n < |s| ensures !IsSpace(s[n]) {
      if n < |a| {
        assert s[n] == a[n];
      } else if |a| < n < |a| + 1 + |b| {
        assert s[n] == b[n - |a| - 1];
      } else if |a| + 1 + |b| < n {
        assert s[n] == c[n - |a| - |b| - 2];
      }
    }
  }

  /** An address the direct rule accepts matches the regular expression. */
  lemma ValidIsRegex(s: string)
    requires ValidEmail(s)
    ensures RegexMatch(s)
  {
    var at := IndexOf(s, '@').value;
    var d := s[at + 1..];
    var k :| 0 < k < |d| - 1 && d[k] == '.';
    var j := at + 1 + k;
    assert s[j] == '.';
    assert s[at + 1..j] == d[..k];
    assert s[j + 1..] == d[k + 1..];
    assert Part(s[..at]);
    assert Part(s[at + 1..j]);
    assert Part(s[j + 1..]);
  }

  /** An address split as the regular expression splits it passes the direct rule. */
  lemma SplitIsValid(s: string, i: nat, j: nat)
    requires 0 < i && i + 1 < j && j + 1 < |s| && s[i] == '@' && s[j] == '.'
    requires Part(s[..i]) && Part(s[i + 1..j]) && Part(s[j + 1..])
    ensures ValidEmail(s)
  {
    var a, b, c := s[..i], s[i + 1..j], s[j + 1..];
    var d := s[i + 1..];
    assert d == b + ['.'] + c;
    assert s == a + ['@'] + d;
    PartsCompose(a, b, c);
    IndexOfAt(s, '@', i);
    assert d[j - i - 1] == '.';
  }

  /** An address the regular expression matches passes the direct rule. */
  lemma RegexIsValid(s: string)
    requires RegexMatch(s)
    ensures ValidEmail(s)
  {
    var i, j :| 0 < i && i + 1 < j && j + 1 < |s| && s[i] == '@' && s[j] == '.'
                && Part(s[..i]) && Part(s[i + 1..j]) && Part(s[j + 1..]);
    SplitIsValid(s, i, j);
  }

  /** The direct rule and the regular expression accept the same addresses. */
  lemma ValidEmailIsRegex(s: string)
    ensures ValidEmail(s) <==> RegexMatch(s)
  {
    if ValidEmail(s) {
      ValidIsRegex(s);
    }
    if RegexMatch(s) {
      RegexIsValid(s);
    }
  }

  /** A few addresses either way. */
  lemma EmailExamples()
    ensures ValidEmail("a@b.co")
    ensures !ValidEmail("")
    ensures !ValidEmail("a@b.")
    ensures !ValidEmail("a@@b.c")
  {
    assert IndexOf("a@b.co", '@') == Some(1);
    assert "a@b.co"[2..][1] == '.';
    assert IndexOf("a@b.", '@') == Some(1);
    assert IndexOf("a@@b.c", '@') == Some(1);
    assert "a@@b.c"[2..][0] == '@';
  }

  /** The request body; a `to` that is missing or not an array is `None`. */
  datatype Request = Request(
    to: Option<seq<string>>, subject: Option<string>, content: Option<string>,
    scheduledDate: Option<string>, scheduledTime: Option<string>)

  function Invalid(): string -> bool {
    (e: string) => !ValidEmail(e)
  }

  /** `to.filter(email => !emailRegex.test(email))` */
  function InvalidEmails(to: seq<string>): seq<string> {
    Filter(to, Invalid())
  }

  /** The three checks, in order; on success, the recipients, the subject and the content. */
  function Validate(req: Request): (r: Result<(seq<string>, string, string)>)
    ensures req.to.None? || req.to.value == [] ==> r == Failure("Recipients are required")
    ensures req.to.Some? && req.to.value != [] && (!Truthy(req.subject) || !Truthy(req.content)) ==>
              r == Failure("Subject and content are required")
    ensures r.Success? ==> r.value.0 == req.to.value && r.value.0 != []
                           && (forall i :: 0 <= i < |r.value.0| ==> ValidEmail(r.value.0[i]))
                           && Truthy(req.subject) && Truthy(req.content)
                           && r.value.1 == req.subject.value && r.value.2 == req.content.value
    ensures req.to.Some? && req.to.value != [] && Truthy(req.subject) && Truthy(req.content) ==>
              (r.Failure? <==> exists i :: 0 <= i < |req.to.value| && !ValidEmail(req.to.value[i]))
  {
    if req.to.None? || req.to.value == [] then Failure("Recipients are required")
    else if !Truthy(req.subject) || !Truthy(req.content) then Failure("Subject and content are required")
    else
      var bad := InvalidEmails(req.to.value);
      FilterMembers(req.to.value, Invalid());
      if bad != [] then
        assert !ValidEmail(bad[0]);
        Failure("Invalid email addresses: " + Join(bad, ", "))
      else
        Success((req.to.value, req.subject.value, req.content.value))
  }

  /** The error for bad addresses names every invalid one, in input order, and no valid one. */
  lemma InvalidAddressesListed(req: Request)
    requires req.to.Some? && req.to.value != [] && Truthy(req.subject) && Truthy(req.content)
    requires exists i :: 0 <= i < |req.to.value| && !ValidEmail(req.to.value[i])
    ensures Validate(req) == Failure("Invalid email addresses: " + Join(InvalidEmails(req.to.value), ", "))
    ensures forall i :: 0 <= i < |InvalidEmails(req.to.value)| ==> !ValidEmail(InvalidEmails(req.to.value)[i])
    ensures forall i :: 0 <= i < |req.to.value| && !ValidEmail(req.to.value[i]) ==> req.to.value[i] in InvalidEmails(req.to.value)
  {
    FilterMembers(req.to.value, Invalid());
  }

  /**
   * The scheduling rule: both a date and a time, whose combination parses to an instant strictly
   * after now. `parse` reads `${date}T${time}` as a local date-time (`None` for an Invalid Date).
   */
  function ScheduleAt(req: Request, parse: string -> Option<int>, now: int): (r: Option<int>)
    ensures r.Some? ==> r.value > now && Truthy(req.scheduledDate) && Truthy(req.scheduledTime)
                        && parse(req.scheduledDate.value + "T" + req.scheduledTime.value) == Some(r.value)
    ensures (&& Truthy(req.scheduledDate) && Truthy(req.scheduledTime)
             && parse(req.scheduledDate.value + "T" + req.scheduledTime.value).Some?
             && parse(req.scheduledDate.value + "T" + req.scheduledTime.value).value > now) ==> r.Some?
  {
    if !Truthy(req.scheduledDate) || !Truthy(req.scheduledTime) then None
    else
      match parse(req.scheduledDate.value + "T" + req.scheduledTime.value)
      case None => None
      case Some(t) => if t > now then Some(t) else None
  }

  datatype ScheduledEmail = ScheduledEmail(recipients: seq<string>, subject: string, content: string, scheduledDate: int, status: string)
  datatype Delivery = Delivery(recipient: string, subject: string, content: string)

  /** The `scheduled_emails` table and the mail the service has been asked to deliver. */
  class Mailer {
    var scheduled: seq<ScheduledEmail>
    var delivered: seq<Delivery>

    constructor()
      ensures scheduled == [] && delivered == []
    {
      scheduled := [];
      delivered := [];
    }
  }

  /** One delivery per recipient, in order. */
  function Deliveries(to: seq<string>, subject: string, content: string): (r: seq<Delivery>)
    ensures |r| == |to|
    ensures forall i :: 0 <= i < |to| ==> r[i] == Delivery(to[i], subject, content)
  {
    seq(|to|, i requires 0 <= i < |to| => Delivery(to[i], subject, content))
  }

  lemma DeliveriesSnoc(to: seq<string>, subject: string, content: string, i: int)
    requires 0 <= i < |to|
    ensures Deliveries(to[..i + 1], subject, content) == Deliveries(to[..i], subject, content) + [Delivery(to[i], subject, content)]
  {
  }

  /** The error of the first recipient the service refuses, in input order. */
  function FirstError(to: seq<string>, sendError: string -> Option<string>): (r: Option<string>)
    ensures r.None? <==> forall i :: 0 <= i < |to| ==> sendError(to[i]).None?
    ensures r.Some? ==> exists i :: 0 <= i < |to| && sendError(to[i]) == r
  {
    if to == [] then None
    else if sendError(to[0]).Some? then sendError(to[0])
    else
      var rest := FirstError(to[1..], sendError);
      assert forall i :: 1 <= i < |to| ==> to[i] == to[1..][i - 1];
      rest
  }

  lemma {:induction false} FirstErrorSnoc(to: seq<string>, sendError: string -> Option<string>)
    requires |to| >= 1
    ensures FirstError(to, sendError)
            == if FirstError(to[..|to| - 1], sendError).Some? then FirstError(to[..|to| - 1], sendError) else sendError(to[|to| - 1])
  {
    if |to| > 1 {
      var init := to[..|to| - 1];
      FirstErrorSnoc(to[1..], sendError);
      assert to[1..][..|to| - 2] == init[1..];
      assert to[1..][|to| - 2] == to[|to| - 1];
    }
  }

  /**
   * `to.map(recipient => sendEmail(recipient, ...))` then `Promise.all`: every recipient is handed
   * to the service, in order; the outcome is the first refusal, if any.
   */
  method SendAll(m: Mailer, to: seq<string>, subject: string, content: string, sendError: string -> Option<string>)
    returns (failure: Option<string>)
    modifies m`delivered
    ensures m.delivered == old(m.delivered) + Deliveries(to, subject, content)
    ensures failure == FirstError(to, sendError)
  {
    failure := None;
    var i := 0;
    while i < |to|
      invariant 0 <= i <= |to|
      invariant m.delivered == old(m.delivered) + Deliveries(to[..i], subject, content)
      invariant failure == FirstError(to[..i], sendError)
    {
      DeliveriesSnoc(to, subject, content, i);
      FirstErrorSnoc(to[..i + 1], sendError);
      assert to[..i + 1][..i] == to[..i];
      m.delivered := m.delivered + [Delivery(to[i], subject, content)];
      if failure.None? && sendError(to[i]).Some? {
        failure := sendError(to[i]);
      }
      i := i + 1;
    }
    assert to[..i] == to;
  }

  datatype Response =
    | Preflight
    | Scheduled(scheduledFor: int)
    | Sent(sentTo: seq<string>)
    | ServerError(message: string)

  /** `error.message || 'An unexpected error occurred while sending the email'` */
  function ErrorText(message: string): (t: string)
    ensures t != []
    ensures message != [] ==> t == message
  {
    if message == [] then "An unexpected error occurred while sending the email" else message
  }

  /**
   * The handler: OPTIONS is answered with the CORS headers alone. A body the runtime cannot read as
   * a request (not JSON, or `null`, whose destructuring throws) is `Failure` with the runtime's
   * message and, like a request that fails validation, gets 500 with that message; nothing is
   * stored or sent. A future schedule stores one pending email; otherwise every recipient is sent
   * the email, and the answer lists them in input order.
   */
  method Handle(m: Mailer, isOptions: bool, body: Result<Request>, parse: string -> Option<int>, now: int,
                insertError: Option<string>, sendError: string -> Option<string>) returns (r: Response)
    modifies m
    ensures isOptions ==> r == Preflight && m.scheduled == old(m.scheduled) && m.delivered == old(m.delivered)
    ensures !isOptions && body.Failure? ==>
              r == ServerError(ErrorText(body.error)) && m.scheduled == old(m.scheduled) && m.delivered == old(m.delivered)
    ensures !isOptions && body.Success? && Validate(body.value).Failure? ==>
              r == ServerError(ErrorText(Validate(body.value).error)) && m.scheduled == old(m.scheduled) && m.delivered == old(m.delivered)
    ensures !isOptions && body.Success? && Validate(body.value).Success? && ScheduleAt(body.value, parse, now).Some? ==>
              var req := body.value;
              var t := ScheduleAt(req, parse, now).value;
              && m.delivered == old(m.delivered)
              && match insertError
                 case None =>
                   m.scheduled == old(m.scheduled) + [ScheduledEmail(req.to.value, req.subject.value, req.content.value, t, "pending")]
                   && r == Scheduled(t)
                 case Some(e) => m.scheduled == old(m.scheduled) && r == ServerError(ErrorText(e))
    ensures !isOptions && body.Success? && Validate(body.value).Success? && ScheduleAt(body.value, parse, now).None? ==>
              var req := body.value;
              && m.scheduled == old(m.scheduled)
              && m.delivered == old(m.delivered) + Deliveries(req.to.value, req.subject.value, req.content.value)
              && r == match FirstError(req.to.value, sendError)
                      case None => Sent(req.to.value)
                      case Some(e) => ServerError(ErrorText(e))
  {
    if isOptions {
      return Preflight;
    }
    if body.Failure? {
      return ServerError(ErrorText(body.error));
    }
    var req := body.value;
    var valid := Validate(req);
    if valid.Failure? {
      return ServerError(ErrorText(valid.error));
    }
    var (to, subject, content) := valid.value;
    var at := ScheduleAt(req, parse, now);
    if at.Some? {
      if insertError.Some? {
        return ServerError(ErrorText(insertError.value));
      }
      m.scheduled := m.scheduled + [ScheduledEmail(to, subject, content, at.value, "pending")];
      return Scheduled(at.value);
    }
    var failure := SendAll(m, to, subject, content, sendError);
    if failure.Some? {
      return ServerError(ErrorText(failure.value));
    }
    r := Sent(to);
  }
}

=== FILE: social_media.dfy ===
/**
 * The social-media section: a topic form that asks `generate-ideas` for post ideas, a platform
 * choice, a selected idea that asks for the four platform posts, and the preview of the chosen
 * platform's post.
 */
module SocialMedia {
  import opened Wrappers
  import opened Text
  import opened GenerateIdeas

  /** The form; `voice` starts as 'professional', `goals` as 'engagement', `contentType` as 'text'. */
  datatype ContentPrompt = ContentPrompt(topic: string, audience: string, voice: string, goals: string, contentType: string)

  /** `errorData.error || 'Failed to generate ideas'` */
  function IdeasError(message: string): string {
    if message == [] then "Failed to generate ideas" else message
  }

  /** The preview text: the content, then the hashtags when there are some, then the call to action when there is one. */
  function Preview(post: SocialPost): (r: string)
    ensures |post.content| <= |r| && r[..|post.content|] == post.content
  {
    var tags := if post.hashtags.Some? && post.hashtags.value != [] then "\n\n" + Join(post.hashtags.value, " ") else [];
    var cta := if post.callToAction.Some? && post.callToAction.value != [] then "\n\n" + post.callToAction.value else [];
    var r := post.content + tags + cta;
    assert r[..|post.content|] == post.content;
    r
  }

  /** A post with neither hashtags nor a call to action previews as its content; an empty hashtag list counts as none. */
  lemma PreviewOfBarePost(post: SocialPost)
    ensures Preview(post.(hashtags := Some([]))) == Preview(post.(hashtags := None))
    ensures (post.hashtags.None? || post.hashtags == Some([])) && (post.callToAction.None? || post.callToAction == Some([])) ==>
              Preview(post) == post.content
  {
    assert post.content + [] + [] == post.content;
  }

  /** With hashtags and a call to action, the preview is three blocks separated by blank lines. */
  lemma PreviewOfFullPost(post: SocialPost)
    requires post.hashtags.Some? && post.hashtags.value != [] && post.callToAction.Some? && post.callToAction.value != []
    ensures Preview(post) == post.content + "\n\n" + Join(post.hashtags.value, " ") + "\n\n" + post.callToAction.value
  {
  }

  class SocialMediaSection {
    var prompt: ContentPrompt
    var ideas: seq<string>
    var selectedPlatform: Option<Platform>
    var error: Option<string>
    var selectedIdea: Option<string>
    var platformContent: Option<PlatformContent>

    constructor()
      ensures prompt == ContentPrompt("", "", "professional", "engagement", "text")
      ensures ideas == [] && selectedPlatform == None && error == None && selectedIdea == None && platformContent == None
    {
      prompt := ContentPrompt("", "", "professional", "engagement", "text");
      ideas := [];
      selectedPlatform := None;
      error := None;
      selectedIdea := None;
      platformContent := None;
    }

    /**
     * `generateContent`: a blank topic only sets the error. Otherwise `generate-ideas` is asked with
     * the trimmed topic alone; `reply` is its answer. Ideas replace the list and clear the platform
     * posts; a failure sets the error it names.
     */
    method Generate(reply: Result<seq<string>>) returns (request: Option<IdeasRequest>)
      modifies this`ideas, this`platformContent, this`error
      ensures Blank(old(prompt.topic)) ==>
                request == None && error == Some("Please enter a topic before generating ideas")
                && ideas == old(ideas) && platformContent == old(platformContent)
      ensures !Blank(old(prompt.topic)) ==> request == Some(IdeasRequest(Some(Trim(old(prompt.topic))), None, None))
      ensures !Blank(old(prompt.topic)) && reply.Success? ==> ideas == reply.value && platformContent == None && error == None
      ensures !Blank(old(prompt.topic)) && reply.Failure? ==>
                error == Some(IdeasError(reply.error)) && ideas == old(ideas) && platformContent == old(platformContent)
    {
      var topic := NonBlank(prompt.topic);
      if topic.None? {
        error := Some("Please enter a topic before generating ideas");
        return None;
      }
      request := Some(IdeasRequest(topic, None, None));
      error := None;
      if reply.Failure? {
        error := Some(IdeasError(reply.error));
        return;
      }
      ideas := reply.value;
      platformContent := None;
    }

    /**
     * `handleSelectIdea`: selects the idea, selects Twitter when no platform is chosen, and asks for
     * the platform posts; `reply` is the answer, or the message of what the call threw ("Failed to
     * generate platform content" for an answer that is not ok, the runtime's own message when the
     * request fails), which becomes the error.
     */
    method SelectIdea(idea: string, reply: Result<PlatformContent>) returns (request: IdeasRequest)
      modifies this`selectedIdea, this`selectedPlatform, this`platformContent, this`error
      ensures selectedIdea == Some(idea)
      ensures selectedPlatform == if old(selectedPlatform).None? then Some(Twitter) else old(selectedPlatform)
      ensures request == IdeasRequest(Some(Trim(old(prompt.topic))), Some(idea), None)
      ensures reply.Success? ==> platformContent == Some(reply.value) && error == old(error)
      ensures reply.Failure? ==> platformContent == old(platformContent) && error == Some(reply.error)
    {
      var topic := TrimText(prompt.topic);
      selectedIdea := Some(idea);
      if selectedPlatform.None? {
        selectedPlatform := Some(Twitter);
      }
      request := IdeasRequest(Some(topic), Some(idea), None);
      if reply.Failure? {
        error := Some(reply.error);
        return;
      }
      platformContent := Some(reply.value);
    }

    /** `getPlatformPreview`: nothing without a platform or posts; otherwise the preview of that platform's post. */
    method PlatformPreview() returns (r: Option<string>)
      ensures selectedPlatform.None? || platformContent.None? ==> r == None
      ensures selectedPlatform.Some? && platformContent.Some? ==>
                r == Some(Preview(PostFor(platformContent.value, selectedPlatform.value)))
    {
      if selectedPlatform.None? || platformContent.None? {
        return None;
      }
      var post := PostFor(platformContent.value, selectedPlatform.value);
      var preview := post.content;
      if post.hashtags.Some? && post.hashtags.value != [] {
        preview := preview + "\n\n" + Join(post.hashtags.value, " ");
      }
      if post.callToAction.Some? && post.callToAction.value != [] {
        preview := preview + "\n\n" + post.callToAction.value;
      }
      assert preview == Preview(post) by {
        assert preview == post.content
          + (if post.hashtags.Some? && post.hashtags.value != [] then "\n\n" + Join(post.hashtags.value, " ") else [])
          + (if post.callToAction.Some? && post.callToAction.value != [] then "\n\n" + post.callToAction.value else []);
      }
      r := Some(preview);
    }
  }

  /**
   * The section never sends the voice it shows, so the ideas it receives are always the
   * professional ones, whatever voice the form holds.
   */
  lemma SectionIdeasAreProfessional(topic: string)
    requires !Blank(topic)
    ensures Handle(false, Success(IdeasRequest(Some(Trim(topic)), None, None))) == IdeasOk(Ideas(Professional, Trim(topic)))
  {
  }
}

=== FILE: store.dfy ===
/**
 * The backend's database, as the Prisma client sees it: one table per model, each held in row
 * order, with an auto-increment counter for the tables whose ids the handlers use. Times are
 * milliseconds since the epoch; `now` is always passed in.
 */
module Store {
  import opened Wrappers

  /** 24 hours in milliseconds: the lifetime of a login token. */
  const DAY_MS: int := 24 * 60 * 60 * 1000

  /** `bio` is null until the user sets one; the two dates are set by the database on creation. */
  datatype User = User(id: int, uuid: string, username: string, email: string, hashedPassword: string, fullName: string,
                       bio: Option<string>, dateCreated: int, dateUpdated: int)

  /** What the API returns about a user: never the password hash. */
  datatype PublicUser = PublicUser(id: int, uuid: string, username: string, email: string, fullName: string)

  function Public(u: User): (p: PublicUser)
    ensures p.id == u.id && p.uuid == u.uuid && p.username == u.username && p.email == u.email && p.fullName == u.fullName
  {
    PublicUser(u.id, u.uuid, u.username, u.email, u.fullName)
  }

  datatype Role = Role(id: int, name: string)
  datatype UserRole = UserRole(userProfileId: int, roleId: int)
  datatype AuthToken = AuthToken(token: string, userProfileId: int, expiresAt: int)

  datatype Plan = Plan(id: int, name: string)
  datatype PaymentMethod = PaymentMethod(userProfileId: int, stripePaymentMethodId: string)

  datatype Subscription = Subscription(
    id: int, stripeSubscriptionId: string, userProfileId: int, planId: int,
    status: string, currentPeriodStart: int, currentPeriodEnd: int, dateUpdated: int)

  /** Amounts are in major currency units (the Stripe minor-unit amount divided by 100). */
  datatype Invoice = Invoice(id: int, stripeInvoiceId: string, subscriptionId: int, amountDue: real, status: string, date: int)
  datatype InvoiceItem = InvoiceItem(invoiceId: int, description: string, amount: real, quantity: int)

  /** A logged webhook event; the JSON payload is not modelled. */
  datatype WebhookEvent = WebhookEvent(eventId: string, endpointId: int, eventType: string, receivedAt: int)

  /** `title` and `description` are optional columns. */
  datatype TemplateDefinition = TemplateDefinition(
    id: int, userProfileId: int, title: Option<string>, description: Option<string>, isPublic: bool, dateUpdated: int)
  datatype TemplateVersion = TemplateVersion(definitionId: int, versionNumber: int, content: string)
  datatype TemplateTag = TemplateTag(definitionId: int, name: string)

  datatype ApiKey = ApiKey(id: int, userProfileId: int)
  /** The request payload holds the four generation inputs; their JSON text is not modelled. */
  datatype RequestLog = RequestLog(id: int, apiKeyId: int, prompt: Option<string>)
  datatype ResponseLog = ResponseLog(requestLogId: int, responsePayload: string, statusCode: int)

  /** An HTTP answer: a status with a body value, or a status with the error message. */
  datatype Reply<T> = Ok(status: int, body: T) | Fail(status: int, message: string)

  class Db {
    var users: seq<User>
    var roles: seq<Role>
    var userRoles: seq<UserRole>
    var tokens: seq<AuthToken>
    var plans: seq<Plan>
    var paymentMethods: seq<PaymentMethod>
    var subscriptions: seq<Subscription>
    var invoices: seq<Invoice>
    var invoiceItems: seq<InvoiceItem>
    var webhookEvents: seq<WebhookEvent>
    var templates: seq<TemplateDefinition>
    var versions: seq<TemplateVersion>
    var tags: seq<TemplateTag>
    var apiKeys: seq<ApiKey>
    var requestLogs: seq<RequestLog>
    var responseLogs: seq<ResponseLog>

    var nextUserId: int
    var nextSubscriptionId: int
    var nextInvoiceId: int
    var nextTemplateId: int
    var nextRequestLogId: int

    /** An empty database with the given role and plan catalogues. */
    constructor(roles: seq<Role>, plans: seq<Plan>)
      ensures this.roles == roles && this.plans == plans
      ensures users == [] && userRoles == [] && tokens == [] && paymentMethods == []
      ensures subscriptions == [] && invoices == [] && invoiceItems == [] && webhookEvents == []
      ensures templates == [] && versions == [] && tags == [] && apiKeys == []
      ensures requestLogs == [] && responseLogs == []
      ensures nextUserId == 1 && nextSubscriptionId == 1 && nextInvoiceId == 1
      ensures nextTemplateId == 1 && nextRequestLogId == 1
    {
      this.roles := roles;
      this.plans := plans;
      users, userRoles, tokens, paymentMethods := [], [], [], [];
      subscriptions, invoices, invoiceItems, webhookEvents := [], [], [], [];
      templates, versions, tags, apiKeys := [], [], [], [];
      requestLogs, responseLogs := [], [];
      nextUserId, nextSubscriptionId, nextInvoiceId, nextTemplateId, nextRequestLogId := 1, 1, 1, 1, 1;
    }
  }
}

=== FILE: stripe_service.dfy ===
/**
 * The Stripe service: `createSubscription` checks the user, the payment method and the plan
 * before it calls Stripe and stores the local record; `cancelSubscription` finds the subscription
 * by id and owner, asks Stripe to delete it and marks the local row 'canceled'. Every error
 * surfaces as one fixed message. The Stripe calls are parameters: `None`/`false` when Stripe throws.
 */
module StripeService {
  import opened Wrappers
  import opened Lists
  import opened Store
  import Text
  import SubscriptionGate
  import Webhook

  /**
   * What `stripe.subscriptions.create` returns, as far as the service uses it. `clientSecret` is
   * `latest_invoice.payment_intent.client_secret`: `None` stands for exactly the answer without a
   * latest invoice or without a payment intent, the one case where reading it throws.
   */
  datatype StripeSubscription = StripeSubscription(
    id: string, status: string, currentPeriodStart: int, currentPeriodEnd: int, clientSecret: Option<string>)

  /** The service's result: the stored row and Stripe's own object. */
  datatype Created = Created(subscription: Subscription, stripeSubscription: StripeSubscription)

  const CREATE_FAILED := "Failed to create subscription"
  const CANCEL_FAILED := "Failed to cancel subscription"

  /** `paymentMethod.findFirst({ where: { userProfileId, stripePaymentMethodId } })` finds a row. */
  predicate HasPaymentMethod(methods: seq<PaymentMethod>, userId: int, paymentMethodId: string) {
    exists i :: 0 <= i < |methods| && methods[i] == PaymentMethod(userId, paymentMethodId)
  }

  function PlanNamed(name: string): Plan -> bool {
    (p: Plan) => p.name == name
  }

  /**
   * The precondition chain of `createSubscription`: the user exists, owns the payment method, and
   * some plan is named after the price id; the plan found is the first such one.
   */
  function CheckCreate(db: Db, userId: int, priceId: string, paymentMethodId: string): (r: Option<Plan>)
    reads db
    ensures r.Some? <==>
              && (exists i :: 0 <= i < |db.users| && db.users[i].id == userId)
              && HasPaymentMethod(db.paymentMethods, userId, paymentMethodId)
              && (exists i :: 0 <= i < |db.plans| && db.plans[i].name == priceId)
    ensures r.Some? ==> r.value in db.plans && r.value.name == priceId
  {
    var user := FirstIndex(db.users, (u: User) => u.id == userId);
    var pm := FirstIndex(db.paymentMethods, (m: PaymentMethod) => m == PaymentMethod(userId, paymentMethodId));
    var plan := FirstIndex(db.plans, PlanNamed(priceId));
    if user.None? || pm.None? || plan.None? then None
    else Some(db.plans[plan.value])
  }

  /** The local row stored for a new Stripe subscription: periods converted from seconds. */
  function NewRow(id: int, userId: int, plan: Plan, s: StripeSubscription, now: int): (r: Subscription)
    ensures r.userProfileId == userId && r.planId == plan.id && r.stripeSubscriptionId == s.id && r.status == s.status
    ensures r.currentPeriodStart == s.currentPeriodStart * 1000 && r.currentPeriodEnd == s.currentPeriodEnd * 1000
    ensures r.dateUpdated == now && r.id == id
  {
    Subscription(id, s.id, userId, plan.id, s.status, Webhook.Millis(s.currentPeriodStart), Webhook.Millis(s.currentPeriodEnd), now)
  }

  /**
   * `createSubscription`: any failed check, or a refused Stripe call, fails with "Failed to create
   * subscription" and stores nothing; otherwise exactly one new local row is appended.
   */
  method CreateSubscription(db: Db, userId: int, priceId: string, paymentMethodId: string,
                            stripeCreate: (string, string) -> Option<StripeSubscription>, now: int)
    returns (r: Result<Created>)
    modifies db`subscriptions, db`nextSubscriptionId
    ensures var plan := CheckCreate(db, userId, priceId, paymentMethodId);
            if plan.None? || stripeCreate(priceId, paymentMethodId).None? then
              r == Failure(CREATE_FAILED)
              && db.subscriptions == old(db.subscriptions) && db.nextSubscriptionId == old(db.nextSubscriptionId)
            else
              var s := stripeCreate(priceId, paymentMethodId).value;
              var row := NewRow(old(db.nextSubscriptionId), userId, plan.value, s, now);
              && r == Success(Created(row, s))
              && db.subscriptions == old(db.subscriptions) + [row]
              && db.nextSubscriptionId == old(db.nextSubscriptionId) + 1
  {
    var plan := CheckCreate(db, userId, priceId, paymentMethodId);
    if plan.None? {
      return Failure(CREATE_FAILED);
    }
    var s := stripeCreate(priceId, paymentMethodId);
    if s.None? {
      return Failure(CREATE_FAILED);
    }
    var row := NewRow(db.nextSubscriptionId, userId, plan.value, s.value, now);
    db.subscriptions := db.subscriptions + [row];
    db.nextSubscriptionId := db.nextSubscriptionId + 1;
    r := Success(Created(row, s.value));
  }

  /** `subscription.findFirst({ where: { id, userProfileId } })` */
  function OwnedBy(id: int, userId: int): Subscription -> bool {
    (s: Subscription) => s.id == id && s.userProfileId == userId
  }

  /** The row a cancel request finds: `parseInt` of the path parameter, scoped to the owner. */
  function FindOwned(subs: seq<Subscription>, userId: int, subscriptionId: string): (r: Option<nat>)
    ensures r.Some? ==> r.value < |subs| && subs[r.value].userProfileId == userId
                        && Text.ParseInt(subscriptionId) == Some(subs[r.value].id)
    ensures r.None? ==> Text.ParseInt(subscriptionId).None?
                        || forall i :: 0 <= i < |subs| ==> !OwnedBy(Text.ParseInt(subscriptionId).value, userId)(subs[i])
  {
    match Text.ParseInt(subscriptionId)
    case None => None
    case Some(id) => FirstIndex(subs, OwnedBy(id, userId))
  }

  /** The row after cancellation: 'canceled', with a new update time, and nothing else changed. */
  function Canceled(s: Subscription, now: int): (c: Subscription)
    ensures c.status == "canceled" && c.dateUpdated == now
    ensures c.(status := s.status, dateUpdated := s.dateUpdated) == s
  {
    s.(status := "canceled", dateUpdated := now)
  }

  /**
   * `cancelSubscription`: a subscription the user does not own, an id that does not parse, or a
   * refused Stripe deletion fails with "Failed to cancel subscription" and changes nothing;
   * otherwise the found row is canceled in place and returned.
   */
  method CancelSubscription(db: Db, userId: int, subscriptionId: string, stripeDelete: string -> bool, now: int)
    returns (r: Result<Subscription>)
    modifies db`subscriptions
    ensures match FindOwned(old(db.subscriptions), userId, subscriptionId)
            case None => r == Failure(CANCEL_FAILED) && db.subscriptions == old(db.subscriptions)
            case Some(k) =>
              if !stripeDelete(old(db.subscriptions)[k].stripeSubscriptionId) then
                r == Failure(CANCEL_FAILED) && db.subscriptions == old(db.subscriptions)
              else
                && db.subscriptions == old(db.subscriptions)[k := Canceled(old(db.subscriptions)[k], now)]
                && r == Success(db.subscriptions[k])
  {
    var k := FindOwned(db.subscriptions, userId, subscriptionId);
    if k.None? {
      return Failure(CANCEL_FAILED);
    }
    if !stripeDelete(db.subscriptions[k.value].stripeSubscriptionId) {
      return Failure(CANCEL_FAILED);
    }
    db.subscriptions := db.subscriptions[k.value := Canceled(db.subscriptions[k.value], now)];
    r := Success(db.subscriptions[k.value]);
  }

  /** A user can only cancel their own subscription: another user's row is never found. */
  lemma CancelIsOwnerScoped(subs: seq<Subscription>, userId: int, subscriptionId: string)
    requires forall i :: 0 <= i < |subs| ==> subs[i].userProfileId != userId
    ensures FindOwned(subs, userId, subscriptionId).None?
  {
  }

  /**
   * A new subscription opens the gate for its owner at time `t` exactly when the owner already
   * had access, or Stripe reported it 'active' with a period ending after `t`.
   */
  lemma CreatedThenGate(subs: seq<Subscription>, row: Subscription, t: int)
    ensures SubscriptionGate.CheckActiveSubscription(subs + [row], row.userProfileId, t, false).Pass?
            <==> SubscriptionGate.CheckActiveSubscription(subs, row.userProfileId, t, false).Pass?
                 || (row.status == "active" && row.currentPeriodEnd > t)
  {
    var r := subs + [row];
    if SubscriptionGate.CheckActiveSubscription(subs, row.userProfileId, t, false).Pass? {
      var i :| 0 <= i < |subs| && SubscriptionGate.Active(subs[i], row.userProfileId, t);
      assert r[i] == subs[i];
    } else if row.status == "active" && row.currentPeriodEnd > t {
      assert SubscriptionGate.Active(r[|subs|], row.userProfileId, t);
    } else {
      forall i | 0 <= i < |r| ensures !SubscriptionGate.Active(r[i], row.userProfileId, t) {
        if i < |subs| {
          assert r[i] == subs[i];
        }
      }
    }
  }

  /** After a cancel, the gate lets the owner through only on the strength of some other subscription. */
  lemma CanceledThenGate(subs: seq<Subscription>, k: int, now: int, t: int)
    requires 0 <= k < |subs|
    ensures var userId := subs[k].userProfileId;
            SubscriptionGate.CheckActiveSubscription(subs[k := Canceled(subs[k], now)], userId, t, false).Pass?
            <==> exists i :: 0 <= i < |subs| && i != k && SubscriptionGate.Active(subs[i], userId, t)
  {
    var userId := subs[k].userProfileId;
    var r := subs[k := Canceled(subs[k], now)];
    if exists i :: 0 <= i < |subs| && i != k && SubscriptionGate.Active(subs[i], userId, t) {
      var i :| 0 <= i < |subs| && i != k && SubscriptionGate.Active(subs[i], userId, t);
      assert r[i] == subs[i];
    } else {
      forall i | 0 <= i < |r| ensures !SubscriptionGate.Active(r[i], userId, t) {
        if i != k {
          assert r[i] == subs[i];
        }
      }
    }
  }
}

=== FILE: subscription_controller.dfy ===
/**
 * The subscription endpoints. Listing is a read of the plan table or of the caller's own rows;
 * creating and canceling validate the request and delegate to the Stripe service, mapping every
 * service error to 500. The caller is always `req.user.id`, set by the authentication middleware.
 */
module SubscriptionController {
  import opened Wrappers
  import opened Lists
  import opened Store
  import StripeService
  import Text

  /** `getSubscriptionPlans`: every plan, or 500 when the query fails. */
  function GetSubscriptionPlans(db: Db, queryFails: bool): (r: Reply<seq<Plan>>)
    reads db
    ensures queryFails <==> r.Fail?
    ensures r.Fail? ==> r == Fail(500, "Failed to get subscription plans")
    ensures r.Ok? ==> r.status == 200 && r.body == db.plans
  {
    if queryFails then Fail(500, "Failed to get subscription plans") else Ok(200, db.plans)
  }

  function OwnedBy(userId: int): Subscription -> bool {
    (s: Subscription) => s.userProfileId == userId
  }

  /** `getUserSubscriptions`: exactly the caller's subscriptions, in table order, whatever their status. */
  function GetUserSubscriptions(db: Db, userId: int, queryFails: bool): (r: Reply<seq<Subscription>>)
    reads db
    ensures queryFails <==> r.Fail?
    ensures r.Fail? ==> r == Fail(500, "Failed to get user subscriptions")
    ensures r.Ok? ==> r.status == 200
    ensures r.Ok? ==> forall i :: 0 <= i < |r.body| ==> r.body[i] in db.subscriptions && r.body[i].userProfileId == userId
    ensures r.Ok? ==> forall i :: 0 <= i < |db.subscriptions| && db.subscriptions[i].userProfileId == userId ==>
                                   db.subscriptions[i] in r.body
  {
    if queryFails then Fail(500, "Failed to get user subscriptions")
    else
      FilterMembers(db.subscriptions, OwnedBy(userId));
      Ok(200, Filter(db.subscriptions, OwnedBy(userId)))
  }

  /** The 201 body: the stored subscription and the client secret of the first payment. */
  datatype CreatedBody = CreatedBody(message: string, subscription: Subscription, clientSecret: string)

  /**
   * `createUserSubscription`: 400 without calling the service when either id is missing or empty;
   * 500 when the service fails; 201 with the new row and the client secret otherwise. A Stripe
   * object without a client secret also gives 500, although the row has been stored by then.
   */
  method CreateUserSubscription(db: Db, userId: int, priceId: Option<string>, paymentMethodId: Option<string>,
                                stripeCreate: (string, string) -> Option<StripeService.StripeSubscription>, now: int)
    returns (r: Reply<CreatedBody>)
    modifies db`subscriptions, db`nextSubscriptionId
    ensures !Text.Truthy(priceId) || !Text.Truthy(paymentMethodId) ==>
              r == Fail(400, "Price ID and payment method ID are required")
              && db.subscriptions == old(db.subscriptions) && db.nextSubscriptionId == old(db.nextSubscriptionId)
    ensures Text.Truthy(priceId) && Text.Truthy(paymentMethodId) ==>
              var plan := StripeService.CheckCreate(db, userId, priceId.value, paymentMethodId.value);
              var s := stripeCreate(priceId.value, paymentMethodId.value);
              if plan.None? || s.None? then
                r == Fail(500, StripeService.CREATE_FAILED)
                && db.subscriptions == old(db.subscriptions) && db.nextSubscriptionId == old(db.nextSubscriptionId)
              else
                var row := StripeService.NewRow(old(db.nextSubscriptionId), userId, plan.value, s.value, now);
                && db.subscriptions == old(db.subscriptions) + [row]
                && db.nextSubscriptionId == old(db.nextSubscriptionId) + 1
                && r == match s.value.clientSecret
                        case None => Fail(500, StripeService.CREATE_FAILED)
                        case Some(secret) => Ok(201, CreatedBody("Subscription created successfully", row, secret))
  {
    if !Text.Truthy(priceId) || !Text.Truthy(paymentMethodId) {
      return Fail(400, "Price ID and payment method ID are required");
    }
    var result := StripeService.CreateSubscription(db, userId, priceId.value, paymentMethodId.value, stripeCreate, now);
    if result.Failure? {
      return Fail(500, StripeService.CREATE_FAILED);
    }
    var secret := result.value.stripeSubscription.clientSecret;
    if secret.None? {
      return Fail(500, StripeService.CREATE_FAILED);
    }
    r := Ok(201, CreatedBody("Subscription created successfully", result.value.subscription, secret.value));
  }

  datatype CanceledBody = CanceledBody(message: string, subscription: Subscription)

  /**
   * `cancelUserSubscription`: the service is asked with the caller as owner, so only the caller's
   * own subscription can be canceled; any service error is 500.
   */
  method CancelUserSubscription(db: Db, userId: int, idParam: string, stripeDelete: string -> bool, now: int)
    returns (r: Reply<CanceledBody>)
    modifies db`subscriptions
    ensures match StripeService.FindOwned(old(db.subscriptions), userId, idParam)
            case None => r == Fail(500, StripeService.CANCEL_FAILED) && db.subscriptions == old(db.subscriptions)
            case Some(k) =>
              if !stripeDelete(old(db.subscriptions)[k].stripeSubscriptionId) then
                r == Fail(500, StripeService.CANCEL_FAILED) && db.subscriptions == old(db.subscriptions)
              else
                && db.subscriptions == old(db.subscriptions)[k := StripeService.Canceled(old(db.subscriptions)[k], now)]
                && r == Ok(200, CanceledBody("Subscription canceled successfully", db.subscriptions[k]))
                && db.subscriptions[k].userProfileId == userId
  {
    var result := StripeService.CancelSubscription(db, userId, idParam, stripeDelete, now);
    if result.Failure? {
      return Fail(500, StripeService.CANCEL_FAILED);
    }
    r := Ok(200, CanceledBody("Subscription canceled successfully", result.value));
  }

  /** A cancel request never touches another user's rows. */
  lemma CancelKeepsOtherUsersRows(subs: seq<Subscription>, userId: int, idParam: string, now: int, i: int)
    requires StripeService.FindOwned(subs, userId, idParam).Some?
    requires 0 <= i < |subs| && subs[i].userProfileId != userId
    ensures var k := StripeService.FindOwned(subs, userId, idParam).value;
            subs[k := StripeService.Canceled(subs[k], now)][i] == subs[i]
  {
  }
}

=== FILE: subscription_gate.dfy ===
/**
 * The `checkActiveSubscription` middleware: a single lookup over the subscription table, then a
 * branch. It writes nothing.
 */
module SubscriptionGate {
  import opened Wrappers
  import opened Store

  /** A subscription that opens the gate for `userId` at time `now`: owned, 'active', and not yet ended. */
  predicate Active(s: Subscription, userId: int, now: int) {
    s.userProfileId == userId && s.status == "active" && s.currentPeriodEnd > now
  }

  /** `subscription.findFirst({ where: { userProfileId, status: 'active', currentPeriodEnd: { gt: now } } })` */
  function FindActive(subs: seq<Subscription>, userId: int, now: int): (r: Option<Subscription>)
    ensures r.None? <==> forall i :: 0 <= i < |subs| ==> !Active(subs[i], userId, now)
    ensures r.Some? ==> r.value in subs && Active(r.value, userId, now)
  {
    if subs == [] then None
    else if Active(subs[0], userId, now) then Some(subs[0])
    else
      assert forall i :: 1 <= i < |subs| ==> subs[i] == subs[1..][i - 1];
      FindActive(subs[1..], userId, now)
  }

  /** Either `next()` with the subscription attached to the request, or an error answer. */
  datatype GateOutcome = Pass(subscription: Subscription) | Deny(status: int, message: string)

  /**
   * `checkActiveSubscription`: passes with the first active subscription of the user, 403 when there
   * is none, and 500 when the lookup itself fails.
   */
  function CheckActiveSubscription(subs: seq<Subscription>, userId: int, now: int, lookupFails: bool): (r: GateOutcome)
    ensures lookupFails ==> r == Deny(500, "Failed to verify subscription status")
    ensures !lookupFails ==> (r.Pass? <==> exists i :: 0 <= i < |subs| && Active(subs[i], userId, now))
    ensures !lookupFails && r.Deny? ==> r == Deny(403, "Active subscription required to access this feature")
    ensures r.Pass? ==> r.subscription in subs && Active(r.subscription, userId, now)
  {
    if lookupFails then Deny(500, "Failed to verify subscription status")
    else
      match FindActive(subs, userId, now)
      case None => Deny(403, "Active subscription required to access this feature")
      case Some(s) => Pass(s)
  }

  /**
   * Whatever the table holds, a user whose every row is canceled or has reached the end of its
   * period is refused with 403; the end instant itself no longer counts.
   */
  lemma EndedOrCanceledDenied(subs: seq<Subscription>, userId: int, now: int)
    requires forall i :: 0 <= i < |subs| && subs[i].userProfileId == userId ==>
               subs[i].status == "canceled" || subs[i].currentPeriodEnd <= now
    ensures CheckActiveSubscription(subs, userId, now, false) == Deny(403, "Active subscription required to access this feature")
  {
  }

  /** The gate only looks at the user's own rows: other users' subscriptions never change its answer. */
  lemma {:induction false} OnlyOwnRowsMatter(subs: seq<Subscription>, other: Subscription, userId: int, now: int)
    requires other.userProfileId != userId
    ensures FindActive(subs + [other], userId, now) == FindActive(subs, userId, now)
    ensures FindActive([other] + subs, userId, now) == FindActive(subs, userId, now)
  {
    if subs != [] {
      assert (subs + [other])[1..] == subs[1..] + [other];
      OnlyOwnRowsMatter(subs[1..], other, userId, now);
    }
    assert ([other] + subs)[1..] == subs;
  }
}

=== FILE: template_controller.dfy ===
/**
 * The template endpoints: create, list, fetch, update, delete and AI generation of template
 * definitions with their numbered content versions and tags. Every endpoint runs after the
 * authentication middleware; generation also runs after the subscription gate. The OpenAI call is
 * a parameter (its text, or `None` when it throws); other storage errors are not modelled.
 */
module TemplateController {
  import opened Wrappers
  import opened Lists
  import opened Store
  import Text
  import Auth
  import SubscriptionGate

  function DefinitionKey(d: TemplateDefinition): int { d.id }
  function VersionKey(v: TemplateVersion): int { v.definitionId }
  function TagKey(t: TemplateTag): int { t.definitionId }

  /** Within one template, a version row stored later carries a higher number. */
  predicate Ascending(a: TemplateVersion, b: TemplateVersion) {
    a.definitionId == b.definitionId ==> a.versionNumber < b.versionNumber
  }

  predicate VersionsIncrease(versions: seq<TemplateVersion>) {
    forall i, j :: 0 <= i < j < |versions| ==> Ascending(versions[i], versions[j])
  }

  /**
   * What the endpoints keep true of the store: definition ids are unique and below the next id,
   * every version and every tag belongs to a stored definition, and the versions of one template
   * are numbered in increasing order of creation.
   */
  predicate Valid(templates: seq<TemplateDefinition>, versions: seq<TemplateVersion>, tags: seq<TemplateTag>, nextId: int) {
    && UniqueKeys(templates, DefinitionKey)
    && (forall i :: 0 <= i < |templates| ==> templates[i].id < nextId)
    && (forall i :: 0 <= i < |versions| ==> HasKey(templates, DefinitionKey, versions[i].definitionId))
    && (forall i :: 0 <= i < |tags| ==> HasKey(templates, DefinitionKey, tags[i].definitionId))
    && VersionsIncrease(versions)
  }

  /** `templateDefinition.findFirst({ where: { id, userProfileId } })` */
  function OwnedTemplate(id: int, userId: int): TemplateDefinition -> bool {
    (d: TemplateDefinition) => d.id == id && d.userProfileId == userId
  }

  function OwnedBy(userId: int): TemplateDefinition -> bool {
    (d: TemplateDefinition) => d.userProfileId == userId
  }

  function OfTemplate(id: int): TemplateVersion -> bool {
    (v: TemplateVersion) => v.definitionId == id
  }

  function TagOf(id: int): TemplateTag -> bool {
    (t: TemplateTag) => t.definitionId == id
  }

  /** `versions: { orderBy: { versionNumber: 'desc' }, take: 1 }`: the highest-numbered version of a template. */
  function Latest(versions: seq<TemplateVersion>, id: int): (r: Option<TemplateVersion>)
    ensures r.None? <==> forall i :: 0 <= i < |versions| ==> versions[i].definitionId != id
    ensures r.Some? ==> r.value in versions && r.value.definitionId == id
    ensures r.Some? ==> forall i :: 0 <= i < |versions| && versions[i].definitionId == id ==>
                                    versions[i].versionNumber <= r.value.versionNumber
  {
    if versions == [] then None
    else
      var rest := Latest(versions[1..], id);
      assert forall i :: 1 <= i < |versions| ==> versions[i] == versions[1..][i - 1];
      if versions[0].definitionId != id then rest
      else if rest.Some? && rest.value.versionNumber > versions[0].versionNumber then rest
      else Some(versions[0])
  }

  /** `latestVersion ? latestVersion.versionNumber + 1 : 1` */
  function NextVersion(versions: seq<TemplateVersion>, id: int): (n: int)
    ensures forall i :: 0 <= i < |versions| && versions[i].definitionId == id ==> versions[i].versionNumber < n
    ensures (forall i :: 0 <= i < |versions| ==> versions[i].definitionId != id) ==> n == 1
  {
    match Latest(versions, id)
    case None => 1
    case Some(v) => v.versionNumber + 1
  }

  /** Appending a version numbered after the template's latest keeps numbers increasing. */
  lemma AppendNextVersion(versions: seq<TemplateVersion>, v: TemplateVersion)
    requires VersionsIncrease(versions)
    requires v.versionNumber == NextVersion(versions, v.definitionId)
    ensures VersionsIncrease(versions + [v])
  {
    var r := versions + [v];
    forall i, j | 0 <= i < j < |r| ensures Ascending(r[i], r[j]) {
      if j == |versions| {
        assert r[i] == versions[i];
      }
    }
  }

  /** A stored definition with the versions `create` includes in its answer. */
  datatype Created = Created(definition: TemplateDefinition, versions: seq<TemplateVersion>)

  /** `templateDefinition.create` with a nested first version numbered 1. */
  method Insert(db: Db, userId: int, title: Option<string>, description: Option<string>, isPublic: bool,
                content: string, now: int) returns (c: Created)
    modifies db`templates, db`versions, db`nextTemplateId
    ensures var d := TemplateDefinition(old(db.nextTemplateId), userId, title, description, isPublic, now);
            && c == Created(d, [TemplateVersion(d.id, 1, content)])
            && db.templates == old(db.templates) + [d]
            && db.versions == old(db.versions) + [TemplateVersion(d.id, 1, content)]
            && db.nextTemplateId == old(db.nextTemplateId) + 1
  {
    var d := TemplateDefinition(db.nextTemplateId, userId, title, description, isPublic, now);
    db.templates := db.templates + [d];
    db.versions := db.versions + [TemplateVersion(d.id, 1, content)];
    db.nextTemplateId := db.nextTemplateId + 1;
    c := Created(d, [TemplateVersion(d.id, 1, content)]);
  }

  /** Creating a template under the next id, with one version numbered 1, keeps the store valid. */
  lemma CreateKeepsValid(templates: seq<TemplateDefinition>, versions: seq<TemplateVersion>, tags: seq<TemplateTag>,
                         nextId: int, d: TemplateDefinition, content: string)
    requires Valid(templates, versions, tags, nextId) && d.id == nextId
    ensures Valid(templates + [d], versions + [TemplateVersion(d.id, 1, content)], tags, nextId + 1)
  {
    var ts, vs := templates + [d], versions + [TemplateVersion(d.id, 1, content)];
    forall i | 0 <= i < |versions| ensures versions[i].definitionId != d.id {
      var j :| 0 <= j < |templates| && templates[j].id == versions[i].definitionId;
    }
    forall i | 0 <= i < |vs| ensures HasKey(ts, DefinitionKey, vs[i].definitionId) {
      if i < |versions| {
        var j :| 0 <= j < |templates| && templates[j].id == versions[i].definitionId;
        assert ts[j] == templates[j];
      } else {
        assert ts[|templates|] == d;
      }
    }
    forall i | 0 <= i < |tags| ensures HasKey(ts, DefinitionKey, tags[i].definitionId) {
      var j :| 0 <= j < |templates| && templates[j].id == tags[i].definitionId;
      assert ts[j] == templates[j];
    }
    forall i, j | 0 <= i < j < |vs| ensures Ascending(vs[i], vs[j]) {
      if j == |versions| {
        assert vs[i] == versions[i];
      }
    }
  }

  /**
   * `createTemplate`: one definition owned by the caller, `isPublic` false unless given, with
   * exactly one version, numbered 1, holding the content; 201.
   */
  method CreateTemplate(db: Db, userId: int, title: Option<string>, description: Option<string>, isPublic: Option<bool>,
                        content: string, now: int) returns (r: Reply<Created>)
    modifies db`templates, db`versions, db`nextTemplateId
    ensures var d := TemplateDefinition(old(db.nextTemplateId), userId, title, description, isPublic.GetOr(false), now);
            && r == Ok(201, Created(d, [TemplateVersion(d.id, 1, content)]))
            && db.templates == old(db.templates) + [d]
            && db.versions == old(db.versions) + [TemplateVersion(d.id, 1, content)]
            && db.nextTemplateId == old(db.nextTemplateId) + 1
  {
    var c := Insert(db, userId, title, description, isPublic.GetOr(false), content, now);
    r := Ok(201, c);
  }

  /** A template as the read endpoints return it: the definition, some of its versions, and its tags. */
  datatype TemplateView = TemplateView(definition: TemplateDefinition, versions: seq<TemplateVersion>, tags: seq<TemplateTag>)

  function LatestOnly(versions: seq<TemplateVersion>, id: int): (r: seq<TemplateVersion>)
    ensures |r| <= 1
  {
    match Latest(versions, id)
    case None => []
    case Some(v) => [v]
  }

  /** `getTemplates`: the caller's templates in table order, each with its latest version only and its tags. */
  function Listing(templates: seq<TemplateDefinition>, versions: seq<TemplateVersion>, tags: seq<TemplateTag>,
                   userId: int): (r: seq<TemplateView>)
  {
    var own := Filter(templates, OwnedBy(userId));
    seq(|own|, i requires 0 <= i < |own| => TemplateView(own[i], LatestOnly(versions, own[i].id), Filter(tags, TagOf(own[i].id))))
  }

  /** The listing holds exactly the caller's templates, each with at most its highest-numbered version. */
  lemma ListingIsOwnedAndLatest(templates: seq<TemplateDefinition>, versions: seq<TemplateVersion>, tags: seq<TemplateTag>, userId: int)
    ensures var r := Listing(templates, versions, tags, userId);
            && (forall i :: 0 <= i < |r| ==> r[i].definition in templates && r[i].definition.userProfileId == userId)
            && (forall j :: 0 <= j < |templates| && templates[j].userProfileId == userId ==>
                  exists i :: 0 <= i < |r| && r[i].definition == templates[j])
            && (forall i :: 0 <= i < |r| ==> |r[i].versions| <= 1)
            && (forall i, k :: 0 <= i < |r| && 0 <= k < |versions| && versions[k].definitionId == r[i].definition.id ==>
                  |r[i].versions| == 1 && r[i].versions[0] in versions && r[i].versions[0].definitionId == r[i].definition.id
                  && versions[k].versionNumber <= r[i].versions[0].versionNumber)
  {
    var own := Filter(templates, OwnedBy(userId));
    FilterMembers(templates, OwnedBy(userId));
    var r := Listing(templates, versions, tags, userId);
    forall j | 0 <= j < |templates| && templates[j].userProfileId == userId
      ensures exists i :: 0 <= i < |r| && r[i].definition == templates[j]
    {
      var i :| 0 <= i < |own| && own[i] == templates[j];
      assert r[i].definition == templates[j];
    }
  }

  /** `getTemplates`: always 200 with the listing. */
  function GetTemplates(db: Db, userId: int): (r: Reply<seq<TemplateView>>)
    reads db
    ensures r.Ok? && r.status == 200
    ensures forall i :: 0 <= i < |r.body| ==> r.body[i].definition.userProfileId == userId
  {
    ListingIsOwnedAndLatest(db.templates, db.versions, db.tags, userId);
    Ok(200, Listing(db.templates, db.versions, db.tags, userId))
  }

  /** `orderBy: { versionNumber: 'desc' }` */
  predicate Descending(vs: seq<TemplateVersion>) {
    forall i, j :: 0 <= i < j < |vs| ==> vs[i].versionNumber >= vs[j].versionNumber
  }

  function InsertDescending(v: TemplateVersion, vs: seq<TemplateVersion>): seq<TemplateVersion> {
    if vs == [] || v.versionNumber >= vs[0].versionNumber then [v] + vs
    else [vs[0]] + InsertDescending(v, vs[1..])
  }

  function SortDescending(vs: seq<TemplateVersion>): seq<TemplateVersion> {
    if vs == [] then [] else InsertDescending(vs[0], SortDescending(vs[1..]))
  }

  /** A version no lower than every version of a descending list keeps it descending when put in front. */
  lemma PrependDescending(x: TemplateVersion, vs: seq<TemplateVersion>)
    requires Descending(vs)
    requires forall k :: 0 <= k < |vs| ==> vs[k].versionNumber <= x.versionNumber
    ensures Descending([x] + vs)
  {
    var r := [x] + vs;
    forall i, j | 0 <= i < j < |r| ensures r[i].versionNumber >= r[j].versionNumber {
      assert r[j] == vs[j - 1];
      if i > 0 {
        assert r[i] == vs[i - 1];
      }
    }
  }

  lemma {:induction false} InsertDescendingSorted(v: TemplateVersion, vs: seq<TemplateVersion>)
    requires Descending(vs)
    ensures Descending(InsertDescending(v, vs))
    ensures multiset(InsertDescending(v, vs)) == multiset(vs) + multiset{v}
  {
    if vs == [] || v.versionNumber >= vs[0].versionNumber {
      PrependDescending(v, vs);
    } else {
      var rest := InsertDescending(v, vs[1..]);
      InsertDescendingSorted(v, vs[1..]);
      assert vs == [vs[0]] + vs[1..];
      forall k | 0 <= k < |rest| ensures rest[k].versionNumber <= vs[0].versionNumber {
        assert rest[k] in multiset(rest);
        if rest[k] != v {
          assert rest[k] in multiset(vs[1..]);
        }
      }
      PrependDescending(vs[0], rest);
    }
  }

  /** The ordering of a template's versions is a descending permutation of them. */
  lemma {:induction false} SortDescendingSorted(vs: seq<TemplateVersion>)
    ensures Descending(SortDescending(vs))
    ensures multiset(SortDescending(vs)) == multiset(vs)
  {
    if vs != [] {
      SortDescendingSorted(vs[1..]);
      InsertDescendingSorted(vs[0], SortDescending(vs[1..]));
      assert vs == [vs[0]] + vs[1..];
    }
  }

  /**
   * `getTemplateById`: 404 unless the caller owns a template with that id; otherwise all its
   * versions, highest number first, and its tags. An id that does not parse fails the query: 500.
   */
  function GetTemplateById(db: Db, userId: int, idParam: string): (r: Reply<TemplateView>)
    reads db
    ensures Text.ParseInt(idParam).None? ==> r == Fail(500, "Failed to get template")
    ensures Text.ParseInt(idParam).Some? ==>
              (r.Fail? <==> forall i :: 0 <= i < |db.templates| ==> !OwnedTemplate(Text.ParseInt(idParam).value, userId)(db.templates[i]))
    ensures Text.ParseInt(idParam).Some? && r.Fail? ==> r == Fail(404, "Template not found")
    ensures r.Ok? ==> r.status == 200 && r.body.definition in db.templates
                      && OwnedTemplate(Text.ParseInt(idParam).value, userId)(r.body.definition)
    ensures r.Ok? ==> Descending(r.body.versions)
                      && multiset(r.body.versions) == multiset(Filter(db.versions, OfTemplate(r.body.definition.id)))
  {
    match Text.ParseInt(idParam)
    case None => Fail(500, "Failed to get template")
    case Some(id) =>
      match FirstIndex(db.templates, OwnedTemplate(id, userId))
      case None => Fail(404, "Template not found")
      case Some(k) =>
        var d := db.templates[k];
        var own := Filter(db.versions, OfTemplate(d.id));
        SortDescendingSorted(own);
        Ok(200, TemplateView(d, SortDescending(own), Filter(db.tags, TagOf(d.id))))
  }

  /** The fields `update` writes: a field missing from the body is left as it was; the update time is set. */
  function Updated(d: TemplateDefinition, title: Option<string>, description: Option<string>, isPublic: Option<bool>,
                   now: int): (u: TemplateDefinition)
    ensures u.id == d.id && u.userProfileId == d.userProfileId && u.dateUpdated == now
    ensures title.None? ==> u.title == d.title
    ensures description.None? ==> u.description == d.description
    ensures isPublic.None? ==> u.isPublic == d.isPublic
    ensures title.Some? ==> u.title == title
    ensures description.Some? ==> u.description == description
    ensures isPublic.Some? ==> u.isPublic == isPublic.value
  {
    d.(title := if title.Some? then title else d.title,
       description := if description.Some? then description else d.description,
       isPublic := isPublic.GetOr(d.isPublic),
       dateUpdated := now)
  }

  /**
   * `updateTemplate`: 404 and no change unless the caller owns the template; otherwise the fields
   * are overwritten and, when the content is truthy, one version is appended numbered one above
   * the latest (1 if there is none).
   */
  method UpdateTemplate(db: Db, userId: int, idParam: string, title: Option<string>, description: Option<string>,
                        isPublic: Option<bool>, content: Option<string>, now: int) returns (r: Reply<TemplateDefinition>)
    modifies db`templates, db`versions
    ensures match Text.ParseInt(idParam)
            case None => r == Fail(500, "Failed to update template")
                         && db.templates == old(db.templates) && db.versions == old(db.versions)
            case Some(id) =>
              match FirstIndex(old(db.templates), OwnedTemplate(id, userId))
              case None => r == Fail(404, "Template not found")
                           && db.templates == old(db.templates) && db.versions == old(db.versions)
              case Some(k) =>
                var u := Updated(old(db.templates)[k], title, description, isPublic, now);
                && db.templates == old(db.templates)[k := u]
                && r == Ok(200, u)
                && db.versions == old(db.versions) + (if Text.Truthy(content) then [TemplateVersion(id, NextVersion(old(db.versions), id), content.value)] else [])
  {
    var id := Text.ParseInt(idParam);
    if id.None? {
      return Fail(500, "Failed to update template");
    }
    var k := FirstIndex(db.templates, OwnedTemplate(id.value, userId));
    if k.None? {
      return Fail(404, "Template not found");
    }
    var u := Updated(db.templates[k.value], title, description, isPublic, now);
    db.templates := db.templates[k.value := u];
    if Text.Truthy(content) {
      db.versions := db.versions + [TemplateVersion(id.value, NextVersion(db.versions, id.value), content.value)];
    }
    r := Ok(200, u);
  }

  /** An update keeps the store valid, and in particular keeps version numbers increasing. */
  lemma UpdateKeepsValid(templates: seq<TemplateDefinition>, versions: seq<TemplateVersion>, tags: seq<TemplateTag>,
                         nextId: int, k: int, u: TemplateDefinition, added: seq<TemplateVersion>)
    requires Valid(templates, versions, tags, nextId) && 0 <= k < |templates| && u.id == templates[k].id
    requires added == [] || added == [TemplateVersion(u.id, NextVersion(versions, u.id), added[0].content)]
    ensures Valid(templates[k := u], versions + added, tags, nextId)
  {
    var ts, vs := templates[k := u], versions + added;
    assert forall j :: 0 <= j < |templates| ==> ts[j].id == templates[j].id;
    if added != [] {
      AppendNextVersion(versions, added[0]);
    } else {
      assert vs == versions;
    }
    forall i | 0 <= i < |vs| ensures HasKey(ts, DefinitionKey, vs[i].definitionId) {
      if i < |versions| {
        var j :| 0 <= j < |templates| && templates[j].id == versions[i].definitionId;
        assert ts[j].id == vs[i].definitionId;
      } else {
        assert ts[k].id == vs[i].definitionId;
      }
    }
    forall i | 0 <= i < |tags| ensures HasKey(ts, DefinitionKey, tags[i].definitionId) {
      var j :| 0 <= j < |templates| && templates[j].id == tags[i].definitionId;
      assert ts[j].id == tags[i].definitionId;
    }
  }

  /**
   * `deleteTemplate`: 404 and no change unless the caller owns the template; otherwise every
   * version and every tag of the template, then the definition itself, are deleted.
   */
  method DeleteTemplate(db: Db, userId: int, idParam: string) returns (r: Reply<string>)
    modifies db`templates, db`versions, db`tags
    ensures match Text.ParseInt(idParam)
            case None => r == Fail(500, "Failed to delete template")
                         && db.templates == old(db.templates) && db.versions == old(db.versions) && db.tags == old(db.tags)
            case Some(id) =>
              if forall i :: 0 <= i < |old(db.templates)| ==> !OwnedTemplate(id, userId)(old(db.templates)[i]) then
                r == Fail(404, "Template not found")
                && db.templates == old(db.templates) && db.versions == old(db.versions) && db.tags == old(db.tags)
              else
                && r == Ok(200, "Template deleted successfully")
                && db.versions == DeleteById(old(db.versions), VersionKey, id)
                && db.tags == DeleteById(old(db.tags), TagKey, id)
                && db.templates == DeleteById(old(db.templates), DefinitionKey, id)
  {
    var id := Text.ParseInt(idParam);
    if id.None? {
      return Fail(500, "Failed to delete template");
    }
    var k := FirstIndex(db.templates, OwnedTemplate(id.value, userId));
    if k.None? {
      return Fail(404, "Template not found");
    }
    db.versions := DeleteById(db.versions, VersionKey, id.value);
    db.tags := DeleteById(db.tags, TagKey, id.value);
    db.templates := DeleteById(db.templates, DefinitionKey, id.value);
    r := Ok(200, "Template deleted successfully");
  }

  predicate DistinctIds(a: TemplateDefinition, b: TemplateDefinition) {
    a.id != b.id
  }

  /** The cascade keeps the store valid: no version or tag is left without its definition. */
  lemma DeleteKeepsValid(templates: seq<TemplateDefinition>, versions: seq<TemplateVersion>, tags: seq<TemplateTag>,
                         nextId: int, id: int)
    requires Valid(templates, versions, tags, nextId)
    ensures Valid(DeleteById(templates, DefinitionKey, id), DeleteById(versions, VersionKey, id), DeleteById(tags, TagKey, id), nextId)
  {
    var ts := DeleteById(templates, DefinitionKey, id);
    var vs := DeleteById(versions, VersionKey, id);
    var gs := DeleteById(tags, TagKey, id);
    FilterKeepsOrder(templates, KeyIsNot(DefinitionKey, id), DistinctIds);
    FilterKeepsOrder(versions, KeyIsNot(VersionKey, id), Ascending);
    forall i | 0 <= i < |ts| ensures ts[i].id < nextId {
      assert ts[i] in templates;
    }
    forall i | 0 <= i < |vs| ensures HasKey(ts, DefinitionKey, vs[i].definitionId) {
      assert vs[i] in versions && vs[i].definitionId != id;
      var m :| 0 <= m < |versions| && versions[m] == vs[i];
      var j :| 0 <= j < |templates| && templates[j].id == vs[i].definitionId;
      assert templates[j] in ts;
    }
    forall i | 0 <= i < |gs| ensures HasKey(ts, DefinitionKey, gs[i].definitionId) {
      assert gs[i] in tags && gs[i].definitionId != id;
      var m :| 0 <= m < |tags| && tags[m] == gs[i];
      var j :| 0 <= j < |templates| && templates[j].id == gs[i].definitionId;
      assert templates[j] in ts;
    }
  }

  /** `title || \`Generated Template - ${new Date().toISOString().split('T')[0]}\`` */
  function GeneratedTitle(title: Option<string>, isoNow: string): (t: string)
    ensures Text.Truthy(title) ==> t == title.value
  {
    if Text.Truthy(title) then title.value else "Generated Template - " + Text.Split(isoNow, 'T')[0]
  }

  /** Without a title, a generated template is named after the date part of the ISO timestamp. */
  lemma DefaultTitleIsDate(date: string, time: string)
    requires 'T' !in date
    ensures GeneratedTitle(None, date + "T" + time) == "Generated Template - " + date
  {
    Text.SplitAtFirstSeparator(date, 'T', time);
    assert date + "T" + time == date + ['T'] + time;
  }

  function KeyOf(userId: int): ApiKey -> bool {
    (k: ApiKey) => k.userProfileId == userId
  }

  datatype GeneratedBody = GeneratedBody(template: Created, content: string)

  /**
   * `generateTemplateWithAI`: 500 and no change when the OpenAI call fails; otherwise a private
   * template with the generated text as version 1, and, only when the caller has an API key, one
   * request log and one response log (status 200) for it.
   */
  method GenerateTemplate(db: Db, userId: int, prompt: Option<string>, title: Option<string>, isoNow: string,
                          generated: Option<string>, now: int) returns (r: Reply<GeneratedBody>)
    modifies db`templates, db`versions, db`nextTemplateId, db`requestLogs, db`responseLogs, db`nextRequestLogId
    ensures generated.None? ==>
              r == Fail(500, "Failed to generate template")
              && db.templates == old(db.templates) && db.versions == old(db.versions) && db.nextTemplateId == old(db.nextTemplateId)
              && db.requestLogs == old(db.requestLogs) && db.responseLogs == old(db.responseLogs)
              && db.nextRequestLogId == old(db.nextRequestLogId)
    ensures generated.Some? ==>
              var d := TemplateDefinition(old(db.nextTemplateId), userId, Some(GeneratedTitle(title, isoNow)),
                                          Some("Generated from prompt: " + Text.JsText(prompt)), false, now);
              var v := TemplateVersion(d.id, 1, generated.value);
              && r == Ok(201, GeneratedBody(Created(d, [v]), generated.value))
              && db.templates == old(db.templates) + [d] && db.versions == old(db.versions) + [v]
              && db.nextTemplateId == old(db.nextTemplateId) + 1
              && match FirstIndex(db.apiKeys, KeyOf(userId))
                 case None =>
                   db.requestLogs == old(db.requestLogs) && db.responseLogs == old(db.responseLogs)
                   && db.nextRequestLogId == old(db.nextRequestLogId)
                 case Some(k) =>
                   && db.requestLogs == old(db.requestLogs) + [RequestLog(old(db.nextRequestLogId), db.apiKeys[k].id, prompt)]
                   && db.responseLogs == old(db.responseLogs) + [ResponseLog(old(db.nextRequestLogId), generated.value, 200)]
                   && db.nextRequestLogId == old(db.nextRequestLogId) + 1
  {
    if generated.None? {
      return Fail(500, "Failed to generate template");
    }
    var c := Insert(db, userId, Some(GeneratedTitle(title, isoNow)), Some("Generated from prompt: " + Text.JsText(prompt)),
                    false, generated.value, now);
    var key := FirstIndex(db.apiKeys, KeyOf(userId));
    if key.Some? {
      var logId := db.nextRequestLogId;
      db.requestLogs := db.requestLogs + [RequestLog(logId, db.apiKeys[key.value].id, prompt)];
      db.nextRequestLogId := db.nextRequestLogId + 1;
      db.responseLogs := db.responseLogs + [ResponseLog(logId, generated.value, 200)];
    }
    r := Ok(201, GeneratedBody(c, generated.value));
  }

  /** The template routes: every one behind authentication, generation also behind the subscription gate. */
  datatype Route = CreateRoute | ListRoute | GetRoute | UpdateRoute | DeleteRoute | GenerateRoute

  /** Whether a request reaches its handler, as which user, or what the middleware answers instead. */
  datatype Admission = Admitted(userId: int) | Refused(status: int, message: string)

  /** `router.use(authenticateToken)`, then `checkActiveSubscription` on POST /generate. */
  function Admit(route: Route, header: Option<string>, verifies: (string, int) -> bool, tokens: seq<AuthToken>,
                 subs: seq<Subscription>, now: int, gateFails: bool): (r: Admission)
    ensures Auth.Authenticate(header, verifies, tokens, now).Reject? ==>
              r == Refused(Auth.Authenticate(header, verifies, tokens, now).status, Auth.Authenticate(header, verifies, tokens, now).message)
    ensures r.Admitted? ==> Auth.Authenticate(header, verifies, tokens, now) == Auth.Next(r.userId)
    ensures r.Admitted? && route.GenerateRoute? ==>
              exists i :: 0 <= i < |subs| && SubscriptionGate.Active(subs[i], r.userId, now)
    ensures !route.GenerateRoute? && Auth.Authenticate(header, verifies, tokens, now).Next? ==> r.Admitted?
    ensures route.GenerateRoute? && Auth.Authenticate(header, verifies, tokens, now).Next? && !gateFails
            && (exists i :: 0 <= i < |subs| && SubscriptionGate.Active(subs[i], Auth.Authenticate(header, verifies, tokens, now).userId, now))
            ==> r == Admitted(Auth.Authenticate(header, verifies, tokens, now).userId)
    ensures route.GenerateRoute? && Auth.Authenticate(header, verifies, tokens, now).Next?
            && SubscriptionGate.CheckActiveSubscription(subs, Auth.Authenticate(header, verifies, tokens, now).userId, now, gateFails).Deny?
            ==> var gate := SubscriptionGate.CheckActiveSubscription(subs, Auth.Authenticate(header, verifies, tokens, now).userId, now, gateFails);
                r == Refused(gate.status, gate.message)
  {
    match Auth.Authenticate(header, verifies, tokens, now)
    case Reject(status, message) => Refused(status, message)
    case Next(userId) =>
      if !route.GenerateRoute? then Admitted(userId)
      else
        match SubscriptionGate.CheckActiveSubscription(subs, userId, now, gateFails)
        case Deny(status, message) => Refused(status, message)
        case Pass(_) => Admitted(userId)
  }

  /** Generation is reached only with a live token and an active, unexpired subscription of the token's owner. */
  lemma GenerateNeedsTokenAndSubscription(header: Option<string>, verifies: (string, int) -> bool, tokens: seq<AuthToken>,
                                         subs: seq<Subscription>, now: int, gateFails: bool)
    requires Admit(GenerateRoute, header, verifies, tokens, subs, now, gateFails).Admitted?
    ensures Auth.ExtractToken(header).Some? && !gateFails
    ensures var t := Auth.ExtractToken(header).value;
            var userId := Admit(GenerateRoute, header, verifies, tokens, subs, now, gateFails).userId;
            && verifies(t, now)
            && (exists i :: 0 <= i < |tokens| && Auth.Live(tokens[i], t, now) && tokens[i].userProfileId == userId)
            && (exists i :: 0 <= i < |subs| && subs[i].userProfileId == userId && subs[i].status == "active" && subs[i].currentPeriodEnd > now)
  {
    var t := Auth.ExtractToken(header).value;
    var rec := Auth.FindLive(tokens, t, now).value;
    var i :| 0 <= i < |tokens| && tokens[i] == rec && Auth.Live(rec, t, now)
             && forall j :: 0 <= j < i ==> !Auth.Live(tokens[j], t, now);
  }
}

=== FILE: text.dfy ===
/**
 * The JavaScript string operations the dashboard relies on, over `string` (`seq<char>`):
 * `split` on a one-character separator, `Array.prototype.join`, `trim`, `toLowerCase`
 * (ASCII letters only), `includes`, and the comma-separated list parsing the sections share.
 */
module Text {
  import opened Wrappers

  /** JavaScript whitespace: what `trim` removes and what the regular-expression class `\s` matches. */
  predicate IsSpace(c: char) {
    || c == ' ' || c == '\t' || c == '\n' || c == '\r' || c == '\U{000B}' || c == '\U{000C}'
    || c == '\U{00A0}' || c == '\U{1680}' || ('\U{2000}' <= c <= '\U{200A}')
    || c == '\U{2028}' || c == '\U{2029}' || c == '\U{202F}' || c == '\U{205F}'
    || c == '\U{3000}' || c == '\U{FEFF}'
  }

  predicate AllSpace(s: string) {
    forall i :: 0 <= i < |s| ==> IsSpace(s[i])
  }

  predicate NoSpace(s: string) {
    forall i :: 0 <= i < |s| ==> !IsSpace(s[i])
  }

  lemma NoSpaceConcat(a: string, b: string)
    requires NoSpace(a) && NoSpace(b)
    ensures NoSpace(a + b)
  {
    forall i | 0 <= i < |a + b| ensures !IsSpace((a + b)[i]) {
      if i >= |a| {
        assert (a + b)[i] == b[i - |a|];
      }
    }
  }

  /** Neither starts nor ends with whitespace: what `trim` returns. */
  predicate Clean(s: string) {
    s == [] || (!IsSpace(s[0]) && !IsSpace(s[|s| - 1]))
  }

  /** `s.trimStart()`: the suffix left after dropping the leading whitespace. */
  function TrimStart(s: string): (r: string)
    ensures |r| <= |s| && r == s[|s| - |r|..]
    ensures AllSpace(s[..|s| - |r|])
    ensures r == [] || !IsSpace(r[0])
  {
    if s != [] && IsSpace(s[0]) then
      var r := TrimStart(s[1..]);
      assert s[..|s| - |r|] == [s[0]] + s[1..][..|s| - 1 - |r|];
      r
    else s
  }

  /** `s.trimEnd()`: the prefix left after dropping the trailing whitespace. */
  function TrimEnd(s: string): (r: string)
    ensures |r| <= |s| && r == s[..|r|]
    ensures AllSpace(s[|r|..])
    ensures r == [] || !IsSpace(r[|r| - 1])
  {
    if s != [] && IsSpace(s[|s| - 1]) then
      var r := TrimEnd(s[..|s| - 1]);
      assert s[|r|..] == s[..|s| - 1][|r|..] + [s[|s| - 1]];
      r
    else s
  }

  /** `s.trim()` */
  function Trim(s: string): (r: string)
    ensures Clean(r) && |r| <= |s|
  {
    TrimEnd(TrimStart(s))
  }

  /** `!s.trim()`: the string is empty or whitespace only. */
  predicate Blank(s: string) {
    Trim(s) == []
  }

  lemma {:induction false} TrimStartSkipsSpace(a: string, s: string)
    requires AllSpace(a)
    ensures TrimStart(a + s) == TrimStart(s)
  {
    if a != [] {
      var t := a + s;
      assert t[0] == a[0];
      assert TrimStart(t) == TrimStart(t[1..]);
      assert t[1..] == a[1..] + s;
      TrimStartSkipsSpace(a[1..], s);
    } else {
      assert a + s == s;
    }
  }

  lemma {:induction false} TrimEndSkipsSpace(s: string, b: string)
    requires AllSpace(b)
    ensures TrimEnd(s + b) == TrimEnd(s)
    decreases |b|
  {
    if b != [] {
      var t := s + b;
      var b' := b[..|b| - 1];
      assert t[|t| - 1] == b[|b| - 1];
      assert TrimEnd(t) == TrimEnd(t[..|t| - 1]);
      assert t[..|t| - 1] == s + b';
      TrimEndSkipsSpace(s, b');
    } else {
      assert s + b == s;
    }
  }

  /** `trim` removes exactly the whitespace padding: it recovers any clean string from any padding of it. */
  lemma {:induction false} TrimPadding(a: string, s: string, b: string)
    requires AllSpace(a) && AllSpace(b) && Clean(s)
    ensures Trim(a + s + b) == s
  {
    assert a + s + b == a + (s + b);
    TrimStartSkipsSpace(a, s + b);
    if s == [] {
      assert s + b == b;
      TrimStartSkipsSpace(b, []);
      assert b + [] == b;
    } else {
      assert TrimStart(s + b) == s + b;
      TrimEndSkipsSpace(s, b);
    }
  }

  /** A string that neither starts nor ends with whitespace is left as it is. */
  lemma TrimClean(x: string)
    requires Clean(x)
    ensures Trim(x) == x
  {
    assert TrimStart(x) == x;
    assert TrimEnd(x) == x;
  }

  /** Trimming twice is trimming once. */
  lemma TrimIdempotent(s: string)
    ensures Trim(Trim(s)) == Trim(s)
  {
    TrimClean(Trim(s));
  }

  /** A string is blank exactly when it is all whitespace. */
  lemma BlankIsAllSpace(s: string)
    ensures Blank(s) <==> AllSpace(s)
  {
    if AllSpace(s) {
      TrimPadding(s, [], []);
      assert s + [] + [] == s;
    }
  }

  /** A string that is not blank has at least one character. */
  lemma NotBlankIsNonEmpty(s: string)
    requires !Blank(s)
    ensures s != []
  {
    BlankIsAllSpace(s);
  }

  /** `x.trim()` as a form computes it. */
  method TrimText(s: string) returns (t: string)
    ensures t == Trim(s) && Clean(t) && |t| <= |s|
  {
    t := Trim(s);
  }

  /** The `if (!x.trim())` guard of a form: the trimmed text, or nothing when the text is blank. */
  method NonBlank(s: string) returns (t: Option<string>)
    ensures t.None? <==> Blank(s)
    ensures t.Some? ==> t.value == Trim(s) && t.value != [] && Clean(t.value)
  {
    var r := Trim(s);
    t := if r == [] then None else Some(r);
  }

  /** `parts.join(sep)` */
  function Join(parts: seq<string>, sep: string): (r: string)
    ensures |parts| == 0 ==> r == []
    ensures |parts| >= 1 ==> |parts[0]| <= |r| && r[..|parts[0]|] == parts[0]
  {
    if |parts| == 0 then []
    else if |parts| == 1 then parts[0]
    else parts[0] + sep + Join(parts[1..], sep)
  }

  /** `s.split(sep)` for a one-character separator: never empty, and the pieces joined by `sep` give `s` back. */
  function Split(s: string, sep: char): (parts: seq<string>)
    ensures |parts| >= 1
    ensures forall i :: 0 <= i < |parts| ==> sep !in parts[i]
    ensures Join(parts, [sep]) == s
    decreases |s|
  {
    if s == [] then [[]]
    else
      var rest := Split(s[1..], sep);
      if s[0] == sep then
        var parts := [[]] + rest;
        assert parts[1..] == rest;
        assert Join(parts, [sep]) == [] + [sep] + s[1..];
        parts
      else
        var parts := [[s[0]] + rest[0]] + rest[1..];
        assert Join(parts, [sep]) == s by {
          if |rest| == 1 {
            assert Join(parts, [sep]) == [s[0]] + rest[0];
          } else {
            assert parts[1..] == rest[1..];
            assert Join(rest, [sep]) == rest[0] + [sep] + Join(rest[1..], [sep]);
            assert Join(parts, [sep]) == [s[0]] + (rest[0] + [sep] + Join(rest[1..], [sep]));
          }
        }
        parts
  }

  lemma {:induction false} SplitNoSeparator(a: string, sep: char)
    requires sep !in a
    ensures Split(a, sep) == [a]
    decreases |a|
  {
    if a != [] {
      SplitNoSeparator(a[1..], sep);
      assert [a[0]] + a[1..] == a;
    }
  }

  lemma {:induction false} SplitAtFirstSeparator(a: string, sep: char, t: string)
    requires sep !in a
    ensures Split(a + [sep] + t, sep) == [a] + Split(t, sep)
    decreases |a|
  {
    var s := a + [sep] + t;
    if a == [] {
      assert s[1..] == t;
    } else {
      assert s[1..] == a[1..] + [sep] + t;
      SplitAtFirstSeparator(a[1..], sep, t);
      assert [a[0]] + a[1..] == a;
    }
  }

  /** Splitting a join of separator-free pieces gives the pieces back. */
  lemma {:induction false} SplitJoin(parts: seq<string>, sep: char)
    requires |parts| >= 1
    requires forall i :: 0 <= i < |parts| ==> sep !in parts[i]
    ensures Split(Join(parts, [sep]), sep) == parts
  {
    if |parts| == 1 {
      SplitNoSeparator(parts[0], sep);
    } else {
      SplitJoin(parts[1..], sep);
      SplitAtFirstSeparator(parts[0], sep, Join(parts[1..], [sep]));
      assert [parts[0]] + parts[1..] == parts;
    }
  }

  /** A value placed in a template literal: a missing one prints as "undefined". */
  function JsText(s: Option<string>): (t: string)
    ensures s.Some? ==> t == s.value
  {
    if s.Some? then s.value else "undefined"
  }

  /** A field that is present and is not the empty string: what `if (field)` accepts for a string. */
  predicate Truthy(s: Option<string>) {
    s.Some? && s.value != []
  }

  /** `c.toLowerCase()` on ASCII letters; every other character is kept. */
  function LowerChar(c: char): (d: char)
    ensures 'A' <= c <= 'Z' ==> 'a' <= d <= 'z' && d as int - c as int == 32
    ensures !('A' <= c <= 'Z') ==> d == c
  {
    if 'A' <= c <= 'Z' then (c as int + 32) as char else c
  }

  /** `s.toLowerCase()`, character by character. */
  function Lower(s: string): (r: string)
    ensures |r| == |s|
    ensures forall i :: 0 <= i < |s| ==> r[i] == LowerChar(s[i])
  {
    if s == [] then [] else [LowerChar(s[0])] + Lower(s[1..])
  }

  /** Lowercasing works character by character, so it distributes over concatenation. */
  lemma LowerConcat(a: string, b: string)
    ensures Lower(a + b) == Lower(a) + Lower(b)
  {
    var l := Lower(a + b);
    forall i | 0 <= i < |a + b| ensures l[i] == (Lower(a) + Lower(b))[i] {
      if i >= |a| {
        assert (a + b)[i] == b[i - |a|];
      }
    }
  }

  /** `s.includes(sub)` */
  predicate Contains(s: string, sub: string) {
    exists i | 0 <= i <= |s| :: StartsWith(s[i..], sub)
  }

  predicate StartsWith(s: string, prefix: string) {
    |prefix| <= |s| && s[..|prefix|] == prefix
  }

  /** Appending keeps a prefix. */
  lemma Extends(x: string, y: string, h: string)
    requires |h| <= |x| && x[..|h|] == h
    ensures |h| <= |x + y| && (x + y)[..|h|] == h
  {
    assert (x + y)[..|h|] == x[..|h|];
  }

  /** `text` sits inside `a + text + b`. */
  lemma Embeds(a: string, text: string, b: string)
    ensures Contains(a + text + b, text)
  {
    var s := a + text + b;
    assert s[|a|..][..|text|] == text;
  }

  /** `text` sits at the end of `a + text`. */
  lemma EmbedsAtEnd(a: string, text: string)
    ensures Contains(a + text, text)
  {
    var s := a + text;
    assert s[|a|..] == text;
    assert s[|a|..][..|text|] == text;
  }

  /** `text` sits at the start of `text + b`. */
  lemma EmbedsAtStart(text: string, b: string)
    ensures Contains(text + b, text)
  {
    var s := text + b;
    assert s[0..] == s;
    assert s[..|text|] == text;
  }

  /** What a string contains, it still contains with more text after it. */
  lemma ContainsAppend(s: string, b: string, sub: string)
    requires Contains(s, sub)
    ensures Contains(s + b, sub)
  {
    var i :| 0 <= i <= |s| && StartsWith(s[i..], sub);
    assert (s + b)[i..][..|sub|] == s[i..][..|sub|];
  }

  /** What a string contains, it still contains with more text before it. */
  lemma ContainsPrepend(a: string, s: string, sub: string)
    requires Contains(s, sub)
    ensures Contains(a + s, sub)
  {
    var i :| 0 <= i <= |s| && StartsWith(s[i..], sub);
    assert (a + s)[|a| + i..] == s[i..];
  }

  /** `text.toLowerCase().includes(query.toLowerCase())` */
  predicate IncludesIgnoreCase(text: string, query: string) {
    Contains(Lower(text), Lower(query))
  }

  /** The search box: an empty query matches everything, otherwise some field contains it, ignoring case. */
  predicate SearchHit(query: string, fields: seq<string>) {
    query == [] || exists f | f in fields :: IncludesIgnoreCase(f, query)
  }

  /** A query found in a field matches whatever its case. */
  lemma SearchIgnoresCase(query: string, fields: seq<string>)
    ensures SearchHit(query, fields) <==> SearchHit(Lower(query), fields)
  {
    LowerIdempotent(query);
    if query != [] {
      assert Lower(query) != [];
    }
  }

  lemma LowerIdempotent(s: string)
    ensures Lower(Lower(s)) == Lower(s)
  {
  }

  /** `parts.map(p => p.trim())` */
  function TrimAll(parts: seq<string>): (r: seq<string>)
    ensures |r| == |parts|
    ensures forall i :: 0 <= i < |r| ==> r[i] == Trim(parts[i])
  {
    if parts == [] then [] else [Trim(parts[0])] + TrimAll(parts[1..])
  }

  /** `parts.filter(Boolean)`: drops the empty strings and keeps the rest in order. */
  function DropEmpty(parts: seq<string>): (r: seq<string>)
    ensures |r| <= |parts|
    ensures forall i :: 0 <= i < |r| ==> r[i] != []
    ensures forall x :: x in r <==> x in parts && x != []
  {
    if parts == [] then []
    else if parts[0] == [] then DropEmpty(parts[1..])
    else [parts[0]] + DropEmpty(parts[1..])
  }

  /** `s.split(',').map(x => x.trim())`: empty pieces are kept. */
  function SplitTrim(s: string): (r: seq<string>)
    ensures |r| >= 1
    ensures forall i :: 0 <= i < |r| ==> Clean(r[i]) && ',' !in r[i]
  {
    var parts := Split(s, ',');
    var r := TrimAll(parts);
    forall i | 0 <= i < |r| ensures Clean(r[i]) && ',' !in r[i] {
      TrimAvoids(parts[i], ',');
    }
    r
  }

  /** Trimming only removes characters, so it adds none that were absent. */
  lemma TrimAvoids(s: string, c: char)
    requires c !in s
    ensures c !in Trim(s)
  {
    var t := TrimStart(s);
    assert c !in t by {
      assert t == s[|s| - |t|..];
    }
    var r := TrimEnd(t);
    assert c !in r by {
      assert r == t[..|r|];
    }
    assert r == Trim(s);
  }

  /** `s.split(',').map(x => x.trim()).filter(Boolean)`: the non-empty trimmed pieces, in order. */
  function SplitTrimNonEmpty(s: string): (r: seq<string>)
    ensures forall i :: 0 <= i < |r| ==> r[i] != [] && Clean(r[i]) && ',' !in r[i]
  {
    var pieces := SplitTrim(s);
    var r := DropEmpty(pieces);
    assert forall i :: 0 <= i < |r| ==> r[i] in pieces;
    r
  }

  function Indent(xs: seq<string>): (r: seq<string>)
    ensures |r| == |xs|
    ensures forall i :: 0 <= i < |xs| ==> r[i] == " " + xs[i]
  {
    seq(|xs|, i requires 0 <= i < |xs| => " " + xs[i])
  }

  lemma {:induction false} JoinIndent(xs: seq<string>)
    requires |xs| >= 1
    ensures Join(Indent(xs), ",") == " " + Join(xs, ", ")
  {
    if |xs| > 1 {
      JoinIndent(xs[1..]);
      assert Indent(xs)[1..] == Indent(xs[1..]);
    }
  }

  function Padded(items: seq<string>): (r: seq<string>)
    requires |items| >= 1
    ensures |r| == |items| && r[0] == items[0]
    ensures forall i :: 1 <= i < |r| ==> r[i] == " " + items[i]
  {
    [items[0]] + Indent(items[1..])
  }

  lemma {:induction false} JoinPadded(items: seq<string>)
    requires |items| >= 1
    ensures Join(items, ", ") == Join(Padded(items), ",")
  {
    if |items| > 1 {
      JoinIndent(items[1..]);
      assert Padded(items)[1..] == Indent(items[1..]);
    }
  }

  /** One leading space is trimmed away. */
  lemma TrimIndented(x: string)
    requires Clean(x)
    ensures Trim([' '] + x) == x
  {
    var sp: string := [' '];
    assert AllSpace(sp);
    TrimPadding(sp, x, []);
    assert sp + x + [] == [' '] + x;
  }

  lemma {:induction false} TrimPadded(items: seq<string>)
    requires |items| >= 1
    requires forall i :: 0 <= i < |items| ==> Clean(items[i])
    ensures TrimAll(Padded(items)) == items
  {
    var padded := Padded(items);
    var r := TrimAll(padded);
    forall i | 0 <= i < |padded| ensures r[i] == items[i] {
      if i == 0 {
        TrimClean(items[0]);
      } else {
        TrimIndented(items[i]);
      }
    }
  }

  /** What `items.join(', ')` shows in a text box splits back into the same items (empty ones included). */
  lemma {:induction false} SplitTrimJoin(items: seq<string>)
    requires |items| >= 1
    requires forall i :: 0 <= i < |items| ==> Clean(items[i]) && ',' !in items[i]
    ensures SplitTrim(Join(items, ", ")) == items
  {
    var padded := Padded(items);
    JoinPadded(items);
    forall i | 0 <= i < |padded| ensures ',' !in padded[i] {
      if i > 0 {
        assert padded[i] == [' '] + items[i];
      }
    }
    SplitJoin(padded, ',');
    TrimPadded(items);
  }

  /** The non-empty variant also round-trips a list of non-empty items. */
  lemma SplitTrimNonEmptyJoin(items: seq<string>)
    requires |items| >= 1
    requires forall i :: 0 <= i < |items| ==> items[i] != [] && Clean(items[i]) && ',' !in items[i]
    ensures SplitTrimNonEmpty(Join(items, ", ")) == items
  {
    SplitTrimJoin(items);
    DropEmptyKeepsNonEmpty(items);
  }

  lemma DropEmptyKeepsNonEmpty(xs: seq<string>)
    requires forall i :: 0 <= i < |xs| ==> xs[i] != []
    ensures DropEmpty(xs) == xs
  {
  }

  /** A blank input holds no comma, so it is one piece that trims to nothing. */
  lemma SplitTrimOfBlank(s: string)
    requires Blank(s)
    ensures SplitTrim(s) == [[]]
    ensures SplitTrimNonEmpty(s) == []
  {
    BlankIsAllSpace(s);
    SplitNoSeparator(s, ',');
  }

  /** An empty text box parses as one empty piece, not as no pieces. */
  lemma SplitTrimEmpty()
    ensures SplitTrim("") == [""]
    ensures SplitTrimNonEmpty("") == []
  {
  }

  predicate IsDigit(c: char) {
    '0' <= c <= '9'
  }

  /** The longest prefix of decimal digits. */
  function DigitPrefix(s: string): (r: string)
    ensures |r| <= |s| && r == s[..|r|]
    ensures forall i :: 0 <= i < |r| ==> IsDigit(r[i])
    ensures |r| < |s| ==> !IsDigit(s[|r|])
  {
    if s != [] && IsDigit(s[0]) then
      var r := DigitPrefix(s[1..]);
      assert [s[0]] + r == s[..|r| + 1];
      [s[0]] + r
    else []
  }

  /** The value of a run of decimal digits. */
  function DigitsValue(ds: string): nat
    requires forall i :: 0 <= i < |ds| ==> IsDigit(ds[i])
  {
    if ds == [] then 0
    else
      assert IsDigit(ds[|ds| - 1]);
      10 * DigitsValue(ds[..|ds| - 1]) + (ds[|ds| - 1] as int - '0' as int)
  }

  predicate IsHexDigit(c: char) {
    IsDigit(c) || 'a' <= c <= 'f' || 'A' <= c <= 'F'
  }

  /** The longest prefix of hexadecimal digits, either case. */
  function HexPrefix(s: string): (r: string)
    ensures |r| <= |s| && r == s[..|r|]
    ensures forall i :: 0 <= i < |r| ==> IsHexDigit(r[i])
    ensures |r| < |s| ==> !IsHexDigit(s[|r|])
  {
    if s != [] && IsHexDigit(s[0]) then
      var r := HexPrefix(s[1..]);
      assert [s[0]] + r == s[..|r| + 1];
      [s[0]] + r
    else []
  }

  function HexDigitValue(c: char): (v: nat)
    requires IsHexDigit(c)
    ensures v < 16
  {
    if IsDigit(c) then c as int - '0' as int
    else if 'a' <= c <= 'f' then c as int - 'a' as int + 10
    else c as int - 'A' as int + 10
  }

  /** The value of a run of hexadecimal digits. */
  function HexDigitsValue(ds: string): nat
    requires forall i :: 0 <= i < |ds| ==> IsHexDigit(ds[i])
  {
    if ds == [] then 0
    else
      assert IsHexDigit(ds[|ds| - 1]);
      16 * HexDigitsValue(ds[..|ds| - 1]) + HexDigitValue(ds[|ds| - 1])
  }

  /** Without a radix, `parseInt` reads a body starting "0x" or "0X" in base sixteen. */
  predicate HexMarked(b: string) {
    |b| >= 2 && b[0] == '0' && (b[1] == 'x' || b[1] == 'X')
  }

  /**
   * `parseInt(s)` without a radix: leading whitespace, an optional sign, then the longest run of
   * hexadecimal digits after a "0x"/"0X" mark, or else the longest run of decimal digits; no
   * digits is `NaN` (None). Whatever follows the digits is ignored.
   */
  function ParseInt(s: string): (r: Option<int>)
    ensures var b := SignedBody(TrimStart(s));
            r.None? <==> if HexMarked(b) then HexPrefix(b[2..]) == [] else DigitPrefix(b) == []
    ensures r.Some? && r.value < 0 ==> |TrimStart(s)| > 0 && TrimStart(s)[0] == '-'
  {
    var t := TrimStart(s);
    var b := SignedBody(t);
    var hex := HexMarked(b);
    var ds := if hex then HexPrefix(b[2..]) else DigitPrefix(b);
    var v: int := if ds == [] then 0 else if hex then HexDigitsValue(ds) else DigitsValue(ds);
    if ds == [] then None
    else if |t| > 0 && t[0] == '-' then Some(-v)
    else Some(v)
  }

  /** A hexadecimal id is read in base sixteen. */
  lemma ParseIntHex()
    ensures ParseInt("0x1f") == Some(31)
  {
    var s := "0x1f";
    TrimStartKeeps(s);
    assert SignedBody(s) == s;
    assert HexMarked(s);
    assert s[2..] == "1f";
    HexRun("1f");
    assert HexDigitsValue("1f") == 31 by {
      assert "1f"[..1] == "1";
      assert HexDigitsValue("1") == 1 by { assert "1"[..0] == ""; }
    }
  }

  /** A negative one too, whatever the case of the mark. */
  lemma ParseIntHexSigned()
    ensures ParseInt("-0XA") == Some(-10)
  {
    var s := "-0XA";
    TrimStartKeeps(s);
    var b := SignedBody(s);
    assert b == "0XA";
    assert HexMarked(b);
    assert b[2..] == "A";
    HexRun("A");
    assert HexDigitsValue("A") == 10 by { assert "A"[..0] == ""; }
  }

  /** A mark without digits is no number. */
  lemma ParseIntBareMark()
    ensures ParseInt("0x") == None
  {
    TrimStartKeeps("0x");
    assert SignedBody("0x") == "0x";
    assert HexMarked("0x");
    assert "0x"[2..] == [];
  }

  lemma HexRun(ds: string)
    requires forall i :: 0 <= i < |ds| ==> IsHexDigit(ds[i])
    ensures HexPrefix(ds) == ds
  {
  }

  function SignedBody(t: string): string {
    if |t| > 0 && (t[0] == '-' || t[0] == '+') then t[1..] else t
  }

  /** The decimal numeral of a natural number, without leading zeros. */
  function Decimal(n: nat): (r: string)
    ensures |r| >= 1
    ensures forall i :: 0 <= i < |r| ==> IsDigit(r[i])
  {
    var d := ['0' + (n % 10) as char];
    if n < 10 then d else Decimal(n / 10) + d
  }

  /** `String(n)` for an integer. */
  function IntToString(n: int): (r: string)
    ensures |r| >= 1 && !IsSpace(r[0])
  {
    if n < 0 then "-" + Decimal(-n) else Decimal(n)
  }

  lemma {:induction false} DecimalValue(n: nat)
    ensures DigitsValue(Decimal(n)) == n
  {
    if n >= 10 {
      DecimalValue(n / 10);
      var r := Decimal(n);
      assert r[..|r| - 1] == Decimal(n / 10);
    }
  }

  lemma DigitPrefixAll(ds: string)
    requires forall i :: 0 <= i < |ds| ==> IsDigit(ds[i])
    ensures DigitPrefix(ds) == ds
  {
  }

  /** `parseInt` reads back every integer's numeral: the ids in request paths round-trip. */
  lemma ParseIntString(n: int)
    ensures ParseInt(IntToString(n)) == Some(n)
  {
    ParseIntPrefix(n, []);
    assert IntToString(n) + [] == IntToString(n);
  }

  /** Only zero's numeral starts with the digit zero. */
  lemma {:induction false} DecimalLeadingZero(n: nat)
    ensures Decimal(n)[0] == '0' <==> n == 0
  {
    if n >= 10 {
      DecimalLeadingZero(n / 10);
      assert Decimal(n)[0] == Decimal(n / 10)[0];
    }
  }

  /** Text after the number does not matter, unless it turns a zero into a hexadecimal mark. */
  lemma ParseIntPrefix(n: int, rest: string)
    requires rest == [] || (!IsDigit(rest[0]) && (n != 0 || (rest[0] != 'x' && rest[0] != 'X')))
    ensures ParseInt(IntToString(n) + rest) == Some(n)
  {
    var s := IntToString(n) + rest;
    TrimStartKeeps(s);
    var m := if n < 0 then -n else n;
    SignedNumeral(n, rest);
    DecimalLeadingZero(m);
    var b := Decimal(m) + rest;
    assert b[0] == Decimal(m)[0];
    if m == 0 {
      assert Decimal(m) == "0";
      assert |b| >= 2 ==> b[1] == rest[0];
    }
    assert !HexMarked(b);
    DigitPrefixAll(Decimal(m));
    DigitPrefixAppend(Decimal(m), rest);
    DecimalValue(m);
  }

  /** A zero followed by an "x" is a hexadecimal mark: "0x1f" is 31, not 0. */
  lemma ZeroThenXIsHex()
    ensures ParseInt(IntToString(0) + "x1f") == Some(31)
  {
    assert IntToString(0) == "0";
    assert IntToString(0) + "x1f" == "0x1f";
    ParseIntHex();
  }

  lemma SignedNumeral(n: int, rest: string)
    ensures SignedBody(IntToString(n) + rest) == Decimal(if n < 0 then -n else n) + rest
  {
    if n < 0 {
      assert IntToString(n) + rest == ['-'] + (Decimal(-n) + rest);
    }
  }

  lemma TrimStartKeeps(s: string)
    requires s != [] && !IsSpace(s[0])
    ensures TrimStart(s) == s
  {
  }

  lemma {:induction false} DigitPrefixAppend(ds: string, rest: string)
    requires forall i :: 0 <= i < |ds| ==> IsDigit(ds[i])
    requires rest == [] || !IsDigit(rest[0])
    ensures DigitPrefix(ds + rest) == ds
  {
    if ds != [] {
      assert (ds + rest)[1..] == ds[1..] + rest;
      DigitPrefixAppend(ds[1..], rest);
    } else {
      assert ds + rest == rest;
    }
  }
}

=== FILE: webhook.dfy ===
/**
 * The Stripe webhook endpoint: a signature gate, then a dispatch on the event type that
 * overwrites a local subscription (created, updated, deleted) or appends an invoice with its
 * line items (payment succeeded), and in every verified case one entry in the webhook log.
 * Stripe times are seconds and amounts minor units; the store holds milliseconds and major units.
 */
module Webhook {
  import opened Wrappers
  import opened Lists
  import opened Store
  import SubscriptionGate

  datatype LineItem = LineItem(description: string, amount: int, quantity: int)

  /** The `data.object` of an event; an object of any other kind is `OtherObject`. */
  datatype StripeObject =
    | SubscriptionObject(id: string, status: string, currentPeriodStart: int, currentPeriodEnd: int)
    | InvoiceObject(id: string, subscription: string, amountDue: int, status: string, created: int, lines: seq<LineItem>)
    | OtherObject

  datatype Event = Event(id: string, eventType: string, data: StripeObject)

  /** What `stripe.webhooks.constructEvent` gives: the parsed event, or the reason it refused the signature. */
  datatype Verification = Verified(event: Event) | Invalid(reason: string)

  /** Seconds to milliseconds: `new Date(seconds * 1000)`. */
  function Millis(seconds: int): (ms: int)
    ensures ms / 1000 == seconds && ms % 1000 == 0
  {
    seconds * 1000
  }

  /** Minor currency units to major ones: `amount / 100`. */
  function MajorUnits(minor: int): (major: real)
    ensures major * 100.0 == minor as real
  {
    minor as real / 100.0
  }

  function HasStripeId(id: string): Subscription -> bool {
    (s: Subscription) => s.stripeSubscriptionId == id
  }

  /**
   * Subscription created or updated: the first local row with that Stripe id gets the Stripe status
   * and period, and a new `dateUpdated`; no row matches, nothing changes.
   */
  function SyncSubscription(subs: seq<Subscription>, obj: StripeObject, now: int): (r: seq<Subscription>)
    requires obj.SubscriptionObject?
    ensures |r| == |subs|
    ensures match FirstIndex(subs, HasStripeId(obj.id))
            case None => r == subs
            case Some(k) =>
              && (forall i :: 0 <= i < |subs| && i != k ==> r[i] == subs[i])
              && r[k].id == subs[k].id && r[k].stripeSubscriptionId == subs[k].stripeSubscriptionId
              && r[k].userProfileId == subs[k].userProfileId && r[k].planId == subs[k].planId
              && r[k].status == obj.status && r[k].dateUpdated == now
              && r[k].currentPeriodStart == Millis(obj.currentPeriodStart)
              && r[k].currentPeriodEnd == Millis(obj.currentPeriodEnd)
  {
    match FirstIndex(subs, HasStripeId(obj.id))
    case None => subs
    case Some(k) =>
      subs[k := subs[k].(status := obj.status, currentPeriodStart := Millis(obj.currentPeriodStart),
                         currentPeriodEnd := Millis(obj.currentPeriodEnd), dateUpdated := now)]
  }

  /** Subscription deleted: the first local row with that Stripe id becomes 'canceled'; its period is kept. */
  function CancelSubscriptionRow(subs: seq<Subscription>, stripeId: string, now: int): (r: seq<Subscription>)
    ensures |r| == |subs|
    ensures match FirstIndex(subs, HasStripeId(stripeId))
            case None => r == subs
            case Some(k) =>
              && (forall i :: 0 <= i < |subs| && i != k ==> r[i] == subs[i])
              && r[k] == subs[k].(status := "canceled", dateUpdated := now)
  {
    match FirstIndex(subs, HasStripeId(stripeId))
    case None => subs
    case Some(k) => subs[k := subs[k].(status := "canceled", dateUpdated := now)]
  }

  /** Delivering the same created/updated event again changes nothing but the update time. */
  lemma SyncIdempotent(subs: seq<Subscription>, obj: StripeObject, t1: int, t2: int)
    requires obj.SubscriptionObject?
    ensures SyncSubscription(SyncSubscription(subs, obj, t1), obj, t2) == SyncSubscription(subs, obj, t2)
  {
    var once := SyncSubscription(subs, obj, t1);
    match FirstIndex(subs, HasStripeId(obj.id))
    case None =>
    case Some(k) =>
      assert FirstIndex(once, HasStripeId(obj.id)) == Some(k) by {
        FirstIndexSameKeys(subs, once, obj.id);
      }
  }

  /** Rewriting rows without touching their Stripe ids does not move the first match. */
  lemma {:induction false} FirstIndexSameKeys(a: seq<Subscription>, b: seq<Subscription>, id: string)
    requires |a| == |b|
    requires forall i :: 0 <= i < |a| ==> a[i].stripeSubscriptionId == b[i].stripeSubscriptionId
    ensures FirstIndex(a, HasStripeId(id)) == FirstIndex(b, HasStripeId(id))
  {
    if a != [] {
      FirstIndexSameKeys(a[1..], b[1..], id);
    }
  }

  /** Stripe ids are unique in the local table. */
  predicate UniqueStripeIds(subs: seq<Subscription>) {
    forall i, j :: 0 <= i < j < |subs| ==> subs[i].stripeSubscriptionId != subs[j].stripeSubscriptionId
  }

  /**
   * Once Stripe reports the deletion of the only subscription that gave a user access, the
   * subscription gate refuses that user, at any time.
   */
  lemma DeletedEventClosesGate(subs: seq<Subscription>, stripeId: string, userId: int, now: int, t: int)
    requires UniqueStripeIds(subs)
    requires forall i :: 0 <= i < |subs| && SubscriptionGate.Active(subs[i], userId, t) ==> subs[i].stripeSubscriptionId == stripeId
    ensures !SubscriptionGate.CheckActiveSubscription(CancelSubscriptionRow(subs, stripeId, now), userId, t, false).Pass?
  {
    var r := CancelSubscriptionRow(subs, stripeId, now);
    forall i | 0 <= i < |r| ensures !SubscriptionGate.Active(r[i], userId, t) {
      match FirstIndex(subs, HasStripeId(stripeId))
      case None =>
      case Some(k) =>
        if i != k {
          assert subs[i].stripeSubscriptionId != stripeId;
        }
    }
  }

  /** The items one invoice event stores: one per line, in order, each amount in major units. */
  function Items(invoiceId: int, lines: seq<LineItem>): (r: seq<InvoiceItem>)
    ensures |r| == |lines|
    ensures forall i :: 0 <= i < |lines| ==>
              r[i].invoiceId == invoiceId && r[i].description == lines[i].description
              && r[i].amount * 100.0 == lines[i].amount as real && r[i].quantity == lines[i].quantity
  {
    seq(|lines|, i requires 0 <= i < |lines| => InvoiceItem(invoiceId, lines[i].description, MajorUnits(lines[i].amount), lines[i].quantity))
  }

  /** `invoice.create`, then the line items. */
  method RecordInvoice(db: Db, obj: StripeObject, subscriptionId: int)
    requires obj.InvoiceObject?
    modifies db`invoices, db`invoiceItems, db`nextInvoiceId
    ensures db.invoices == old(db.invoices) + [Invoice(old(db.nextInvoiceId), obj.id, subscriptionId, MajorUnits(obj.amountDue), obj.status, Millis(obj.created))]
    ensures db.nextInvoiceId == old(db.nextInvoiceId) + 1
    ensures db.invoiceItems == old(db.invoiceItems) + Items(old(db.nextInvoiceId), obj.lines)
  {
    var invoiceId := db.nextInvoiceId;
    db.invoices := db.invoices + [Invoice(invoiceId, obj.id, subscriptionId, MajorUnits(obj.amountDue), obj.status, Millis(obj.created))];
    db.nextInvoiceId := db.nextInvoiceId + 1;
    RecordItems(db, invoiceId, obj.lines);
  }

  /** `for (const item of invoice.lines.data) invoiceItem.create(...)` */
  method RecordItems(db: Db, invoiceId: int, lines: seq<LineItem>)
    modifies db`invoiceItems
    ensures db.invoiceItems == old(db.invoiceItems) + Items(invoiceId, lines)
  {
    var i := 0;
    while i < |lines|
      invariant 0 <= i <= |lines|
      invariant db.invoiceItems == old(db.invoiceItems) + Items(invoiceId, lines[..i])
    {
      var item := lines[i];
      ItemsSnoc(invoiceId, lines, i);
      db.invoiceItems := db.invoiceItems + [InvoiceItem(invoiceId, item.description, MajorUnits(item.amount), item.quantity)];
      i := i + 1;
    }
    assert lines[..i] == lines;
  }

  lemma ItemsSnoc(invoiceId: int, lines: seq<LineItem>, i: int)
    requires 0 <= i < |lines|
    ensures Items(invoiceId, lines[..i + 1])
            == Items(invoiceId, lines[..i]) + [InvoiceItem(invoiceId, lines[i].description, MajorUnits(lines[i].amount), lines[i].quantity)]
  {
  }

  predicate IsSubscriptionSync(e: Event) {
    (e.eventType == "customer.subscription.created" || e.eventType == "customer.subscription.updated")
    && e.data.SubscriptionObject?
  }

  predicate IsSubscriptionDelete(e: Event) {
    e.eventType == "customer.subscription.deleted" && e.data.SubscriptionObject?
  }

  predicate IsPayment(e: Event) {
    e.eventType == "invoice.payment_succeeded" && e.data.InvoiceObject?
  }

  /** The subscription table after an event. */
  function SubscriptionsAfter(subs: seq<Subscription>, e: Event, now: int): seq<Subscription> {
    if IsSubscriptionSync(e) then SyncSubscription(subs, e.data, now)
    else if IsSubscriptionDelete(e) then CancelSubscriptionRow(subs, e.data.id, now)
    else subs
  }

  /** An event for a Stripe subscription with no local row leaves the subscription table as it was. */
  lemma UnmatchedEventChangesNothing(subs: seq<Subscription>, e: Event, now: int)
    requires e.data.SubscriptionObject? || e.data.InvoiceObject?
    requires forall i :: 0 <= i < |subs| ==> subs[i].stripeSubscriptionId != e.data.id
    ensures SubscriptionsAfter(subs, e, now) == subs
  {
  }

  /** Created, updated and deleted events never rewrite a Stripe id, so they keep Stripe ids unique. */
  lemma EventsKeepStripeIdsUnique(subs: seq<Subscription>, e: Event, now: int)
    requires UniqueStripeIds(subs)
    ensures UniqueStripeIds(SubscriptionsAfter(subs, e, now))
  {
    var r := SubscriptionsAfter(subs, e, now);
    assert forall i :: 0 <= i < |subs| ==> r[i].stripeSubscriptionId == subs[i].stripeSubscriptionId;
  }

  /** The local subscription an invoice event belongs to, if any. */
  function InvoiceSubscription(subs: seq<Subscription>, e: Event): Option<Subscription>
    requires IsPayment(e)
  {
    Find(subs, HasStripeId(e.data.subscription))
  }

  /**
   * POST /stripe: 400 and no change when the signature is refused. Otherwise the event's change,
   * then one log entry, whatever the event type and whether or not a local subscription matched,
   * and `{ received: true }`; if the log write fails the answer is 500 and earlier writes stay.
   * A payment event is appended as a new invoice every time it is delivered.
   */
  method HandleStripe(db: Db, body: string, signature: string, constructEvent: (string, string) -> Verification,
                      now: int, logError: Option<string>) returns (r: Reply<bool>)
    modifies db`subscriptions, db`invoices, db`invoiceItems, db`nextInvoiceId, db`webhookEvents
    ensures constructEvent(body, signature).Invalid? ==>
              r == Fail(400, "Webhook Error: " + constructEvent(body, signature).reason)
              && db.subscriptions == old(db.subscriptions) && db.invoices == old(db.invoices)
              && db.invoiceItems == old(db.invoiceItems) && db.webhookEvents == old(db.webhookEvents)
              && db.nextInvoiceId == old(db.nextInvoiceId)
    ensures constructEvent(body, signature).Verified? ==>
              var e := constructEvent(body, signature).event;
              && db.subscriptions == SubscriptionsAfter(old(db.subscriptions), e, now)
              && (if IsPayment(e) && InvoiceSubscription(old(db.subscriptions), e).Some? then
                    var sub := InvoiceSubscription(old(db.subscriptions), e).value;
                    && db.invoices == old(db.invoices) + [Invoice(old(db.nextInvoiceId), e.data.id, sub.id, MajorUnits(e.data.amountDue), e.data.status, Millis(e.data.created))]
                    && db.invoiceItems == old(db.invoiceItems) + Items(old(db.nextInvoiceId), e.data.lines)
                    && db.nextInvoiceId == old(db.nextInvoiceId) + 1
                  else
                    db.invoices == old(db.invoices) && db.invoiceItems == old(db.invoiceItems) && db.nextInvoiceId == old(db.nextInvoiceId))
              && (match logError
                  case None => db.webhookEvents == old(db.webhookEvents) + [WebhookEvent(e.id, 1, e.eventType, now)] && r == Ok(200, true)
                  case Some(msg) => db.webhookEvents == old(db.webhookEvents) && r == Fail(500, "Webhook processing error: " + msg))
  {
    var verification := constructEvent(body, signature);
    if verification.Invalid? {
      return Fail(400, "Webhook Error: " + verification.reason);
    }
    var e := verification.event;
    if IsSubscriptionSync(e) {
      db.subscriptions := SyncSubscription(db.subscriptions, e.data, now);
    } else if IsSubscriptionDelete(e) {
      db.subscriptions := CancelSubscriptionRow(db.subscriptions, e.data.id, now);
    } else if IsPayment(e) {
      var sub := InvoiceSubscription(db.subscriptions, e);
      if sub.Some? {
        RecordInvoice(db, e.data, sub.value.id);
      }
    }
    if logError.Some? {
      return Fail(500, "Webhook processing error: " + logError.value);
    }
    db.webhookEvents := db.webhookEvents + [WebhookEvent(e.id, 1, e.eventType, now)];
    r := Ok(200, true);
  }
}

=== FILE: wrappers.dfy ===
/** Optional values: a JavaScript value that may be `undefined`/`null`, or a lookup that may find nothing. */
module Wrappers {

  datatype Option<+T> = None | Some(value: T) {

    /** The value, or `default` when there is none (JavaScript's `x || default` on a value that is never falsy). */
    function GetOr(default: T): T {
      match this
      case Some(v) => v
      case None => default
    }
  }

  /** The outcome of a service call that either returns a value or throws an error with a message. */
  datatype Result<+T> = Success(value: T) | Failure(error: string)
}
